=== FILE: README.md ===
# Laravel 4 Powerpack helpers in Dafny

A model of the three string-building helpers of the Laravel 4 Powerpack, with proofs about each one.

- **`HTML`** builds markup. The model covers:
  - entity escaping and decoding;
  - the attribute serialiser;
  - nested ordered and unordered lists;
  - definition lists;
  - `wrapHTMLTag`;
  - the macro registry.
- **`Form`** builds form elements. The model covers:
  - the `labels` list a form accumulates;
  - `id` resolution;
  - attribute defaulting and merging in `input`, `open`, `textarea`, `select`/`option`/`optgroup` and `checkable`/`radio`;
  - the `_method` spoofer field of `open`.
- **`Str`** has the string utilities. The model covers:
  - `ascii` transliteration;
  - `slug`;
  - `lower`;
  - `limit` and `limitExact`;
  - `finish`;
  - `extension`;
  - `segments`;
  - `startsWith`, `endsWith` and `contains`;
  - `camelCase`;
  - the random-string pools.

Every operation is a pure function over Dafny strings (`seq<char>`). PHP's default arguments are Dafny default parameter values: `limit` and `limitExact` default to 100 and `...`, `slug` to `-`, `open` to no action and `POST`, `textarea` to an empty value, `checkbox` to the value `1` and `radio` and `input` to a null value, and every attribute array to empty. `select`'s null `$selected` is `One("")`, because PHP compares it as the empty string. PHP arrays are ordered sequences of key/value pairs (`PhpArray`), and a `null` attribute value is `None`. The form's `labels` property is threaded explicitly: `Label` returns the new form state together with its markup.

Modules, one per file:

| module | file | contents |
|---|---|---|
| `Wrappers` | `wrappers.dfy` | `Option`, `Result` |
| `Text` | `text.dfy` | character classes, `strtolower`/`strtoupper`, `implode`, `trim` |
| `PhpArray` | `phparray.dfy` | keys, lookup, assignment, `array_merge`, `is_numeric` |
| `HtmlEntities` | `entities.dfy` | `HTML::entities` / `HTML::decode` |
| `Html` | `html.dfy` | attributes, lists, definition lists, `wrapHTMLTag` |
| `Macros` | `macros.dfy` | the macro registry and `__call` |
| `Form` | `form.dfy` | the form builder |
| `Transliteration` | `ascii.dfy` | the `Str::$ascii` table and `Str::ascii` |
| `Str` | `str.dfy` | the rest of `Str` |

The model follows the semantics of PHP 8 for the built-in functions it uses: `strpos` finds an empty needle at offset 0, and `is_numeric` accepts trailing whitespace.

Where the code and its documentation disagree, the model follows the code. The label of a string-keyed nested list is concatenated into the markup unescaped (`HTML.php:364`), even though every other piece of list text goes through `entities`. `Html.ListingLabelNotEscaped` states this behaviour, and `Html.UlLabelNotEscaped` shows it for `ul`.

## Model

All source paths are under `src/LaravelBook/Laravel4Powerpack/`.

| member | source | states |
|---|---|---|
| Text.Lower | src/LaravelBook/Laravel4Powerpack/Str.php:132-134 | Lower-casing keeps the length, turns each capital into its own small letter (code plus 32), and leaves every other character alone |
| Text.Upper | src/LaravelBook/Laravel4Powerpack/Str.php:150-152 | Upper-casing keeps the length, turns each small letter into its own capital (code minus 32), and leaves every other character alone |
| Text.LowerIdempotent | src/LaravelBook/Laravel4Powerpack/Str.php:132-134 | Lower-casing twice is lower-casing once |
| Text.LowerAppend | src/LaravelBook/Laravel4Powerpack/Str.php:132-134 | Lower-casing works character by character: it distributes over concatenation |
| Text.TrimRightUnique | src/LaravelBook/Laravel4Powerpack/Str.php:505-507 | `rtrim` is the unique prefix that is followed only by trimmed characters and does not itself end in one |
| Text.TrimUntouched | src/LaravelBook/Laravel4Powerpack/Str.php:398-400 | `trim` leaves a string alone when neither end is a trimmed character |
| Text.InCharListLiteral | src/LaravelBook/Laravel4Powerpack/Str.php:505-507 | A character list without `..` names exactly the characters it holds |
| Text.InCharListRange | src/LaravelBook/Laravel4Powerpack/Str.php:505-507 | A list `x..y` with `x <= y` names every character from `x` to `y`, as PHP's `trim` character lists do |
| PhpArray.Set | src/LaravelBook/Laravel4Powerpack/Form.php:488-494 | After `$m[$k] = $v` the key looks up `v`; a new key goes to the end, an existing key keeps its place |
| PhpArray.LookupSetOther | src/LaravelBook/Laravel4Powerpack/Form.php:488-494 | Assigning one key leaves every other key's lookup unchanged |
| PhpArray.SetUnique | src/LaravelBook/Laravel4Powerpack/Form.php:488-494 | Assignment keeps the keys of an array distinct |
| PhpArray.LookupMerge | src/LaravelBook/Laravel4Powerpack/Form.php:240-242 | Under `array_merge(a, b)` a string key takes `b`'s value when `b` has it, and `a`'s otherwise |
| PhpArray.Fresh | src/LaravelBook/Laravel4Powerpack/Form.php:488-494 | The keys a run of assignments appends are exactly the assigned keys the array did not have |
| PhpArray.FreshAppend | src/LaravelBook/Laravel4Powerpack/Form.php:488-494 | Assigning one list of keys and then another appends what the first adds, then what the second adds |
| PhpArray.AssignKeys | src/LaravelBook/Laravel4Powerpack/Form.php:488-494 | One more assignment in a run appends its key exactly when the key is new, and keeps every existing key in place |
| PhpArray.MergeNamesKeys | src/LaravelBook/Laravel4Powerpack/Form.php:240-242 | Merging string-keyed entries into an array appends the new keys in the merged array's order and keeps the existing ones in place |
| PhpArray.MergeIntoNames | src/LaravelBook/Laravel4Powerpack/Form.php:240-242 | After merging, a string key is present exactly when it was in either part |
| PhpArray.MergeIntoKeys | src/LaravelBook/Laravel4Powerpack/Form.php:240-242 | Merging appends the merged array's entries in order, with integer keys numbered on from the target's count, when the string keys are new |
| PhpArray.RenumberedPositions | src/LaravelBook/Laravel4Powerpack/Form.php:240-242 | Renumbering keeps each string key at its position and puts an integer key, numbered from the start value up, wherever there was one |
| PhpArray.ArrayMergeRenumbers | src/LaravelBook/Laravel4Powerpack/Form.php:240-242 | `array_merge` of one array keeps its string keys and renumbers its integer keys from 0, in order |
| PhpArray.ArrayMergeKeys | src/LaravelBook/Laravel4Powerpack/Form.php:240-242 | `array_merge(a, b)` with string keys in `b` has `a`'s keys first (integer keys renumbered), then `b`'s keys that `a` lacks, in `b`'s order |
| PhpArray.KeyText | src/LaravelBook/Laravel4Powerpack/Form.php:438-447 | A string key prints as itself; an integer key prints as the canonical decimal digits of that integer, non-empty and with no leading zero |
| HtmlEntities.Entities | src/LaravelBook/Laravel4Powerpack/HTML.php:68-71 | No `"`, `'`, `<` or `>` survives escaping |
| HtmlEntities.EntitiesIsEscaped | src/LaravelBook/Laravel4Powerpack/HTML.php:68-71 | Escaped output contains no markup character, and every `&` in it begins a well-formed reference |
| HtmlEntities.EntitiesFixesEscaped | src/LaravelBook/Laravel4Powerpack/HTML.php:68-71 | Text that is already escaped comes back from escaping unchanged: existing references are not double-encoded |
| HtmlEntities.EntitiesFixedPoints | src/LaravelBook/Laravel4Powerpack/HTML.php:68-71 | Escaping leaves a string unchanged exactly when that string is already escaped (both directions) |
| HtmlEntities.EntitiesIdempotent | src/LaravelBook/Laravel4Powerpack/HTML.php:68-71 | Escaping twice is escaping once |
| HtmlEntities.EntitiesPlain | src/LaravelBook/Laravel4Powerpack/HTML.php:68-71 | Text with no `&` and no markup character passes through escaping unchanged |
| HtmlEntities.EntitiesReferencePrefix | src/LaravelBook/Laravel4Powerpack/HTML.php:68-71 | A reference at the front is copied and the escaping carries on after it |
| HtmlEntities.ReferenceAtFinds | src/LaravelBook/Laravel4Powerpack/HTML.php:68-71 | The reference recogniser finds every reference that begins a string and measures it exactly |
| HtmlEntities.ReferenceChars | src/LaravelBook/Laravel4Powerpack/HTML.php:68-71 | A reference is `&`, then letters, digits or `#`, then a final `;` |
| HtmlEntities.ApostropheReference | src/LaravelBook/Laravel4Powerpack/HTML.php:68-71 | The apostrophe's replacement `&#039;` is a decimal reference to code point 39 |
| HtmlEntities.DecodeEntities | src/LaravelBook/Laravel4Powerpack/HTML.php:81-84 | Decoding undoes escaping on any text in which no `&` begins a reference |
| HtmlEntities.DecodeEntitiesNeedsNoReferences | src/LaravelBook/Laravel4Powerpack/HTML.php:68-84 | The round trip needs that condition: `&amp;` escapes to itself and decodes to `&` |
| HtmlEntities.DecodeEscapeChar | src/LaravelBook/Laravel4Powerpack/HTML.php:81-84 | Whatever escaping emits for one character decodes back to that character |
| HtmlEntities.DecodeReferencePrefix | src/LaravelBook/Laravel4Powerpack/HTML.php:81-84 | A decodable reference at the front decodes to its character and decoding carries on after it |
| Html.Attributes | src/LaravelBook/Laravel4Powerpack/HTML.php:404-422 | The serialisation is empty exactly when every value is null; otherwise it starts with a space |
| Html.AttributesSingle | src/LaravelBook/Laravel4Powerpack/HTML.php:404-422 | One entry gives ` name="escaped value"`, or nothing when its value is null |
| Html.AttributesAppend | src/LaravelBook/Laravel4Powerpack/HTML.php:404-422 | Entries serialise in input order, independently: serialising `a + b` is serialising `a`, then `b` |
| Html.AttributesNullOmitted | src/LaravelBook/Laravel4Powerpack/HTML.php:415-418 | A null entry anywhere contributes nothing, not even `key=""` |
| Html.FragmentsEmpty | src/LaravelBook/Laravel4Powerpack/HTML.php:404-422 | There are no fragments exactly when every value is null |
| Html.AttributeValueStaysQuoted | src/LaravelBook/Laravel4Powerpack/HTML.php:417 | An escaped value holds no `"`, so it cannot close its quotes |
| Html.NamedAttributeSingle | src/LaravelBook/Laravel4Powerpack/HTML.php:410-420 | A string key without digits prints under its own name, with its value escaped |
| Html.IndexedAttributeSingle | src/LaravelBook/Laravel4Powerpack/HTML.php:410-413 | Under an integer key the value is also the attribute's name |
| Html.AttributesBoolean | src/LaravelBook/Laravel4Powerpack/HTML.php:410-413 | A plain value under an integer key gives ` v="v"`, as `[0 => 'required']` gives ` required="required"` |
| Html.EscapeExample | src/LaravelBook/Laravel4Powerpack/HTML.php:68-71 | A lone `&` is escaped: `a&b` becomes `a&amp;b` |
| Html.Listing | src/LaravelBook/Laravel4Powerpack/HTML.php:345-374 | A list renders as nothing exactly when it is empty; otherwise the output opens with `<tag` and closes with `</tag>` |
| Html.Ol | src/LaravelBook/Laravel4Powerpack/HTML.php:320-323 | `ol` renders nothing exactly for an empty list; otherwise it opens with `<ol` and closes with `</ol>` |
| Html.Ul | src/LaravelBook/Laravel4Powerpack/HTML.php:332-335 | `ul` renders nothing exactly for an empty list; otherwise it opens with `<ul` and closes with `</ul>` |
| Html.ListingOne | src/LaravelBook/Laravel4Powerpack/HTML.php:352-373 | A one-entry list is that entry's markup between `<tag attrs>` and `</tag>` |
| Html.ListingScalar | src/LaravelBook/Laravel4Powerpack/HTML.php:367-370 | A scalar item renders as `<li>` + its escaped value + `</li>` |
| Html.ListingIndexedSublist | src/LaravelBook/Laravel4Powerpack/HTML.php:358-361 | An array under an integer key is inlined as a complete nested list of the same tag, with no attributes |
| Html.ListingLabelledSublist | src/LaravelBook/Laravel4Powerpack/HTML.php:362-365 | An array under a string key renders as `<li>` + the raw key + the nested list + `</li>` |
| Html.ListingLabelNotEscaped | src/LaravelBook/Laravel4Powerpack/HTML.php:364 | The string key of a nested list reaches the output verbatim, markup included |
| Html.UlLabelNotEscaped | src/LaravelBook/Laravel4Powerpack/HTML.php:332-364 | In `ul` of `[label => [x]]` the label is copied unescaped around the inner `<ul>` |
| Html.ListingAttributesAtRootOnly | src/LaravelBook/Laravel4Powerpack/HTML.php:360-373 | Only the outermost tag carries the caller's attributes: changing them changes nothing after `<tag` |
| Html.ItemsAppend | src/LaravelBook/Laravel4Powerpack/HTML.php:352-371 | Entries render in input order, each independently: the items of `a + b` are those of `a`, then those of `b` |
| Html.ListingAppend | src/LaravelBook/Laravel4Powerpack/HTML.php:352-373 | Splitting a list splits its inner markup: the entries of the first part come first inside one wrapper |
| Html.ListingPairPlain | src/LaravelBook/Laravel4Powerpack/HTML.php:367-373 | Two plain scalars render as two `<li>` elements in order, inside the bare tag |
| Html.UlExamples | src/LaravelBook/Laravel4Powerpack/HTML.php:332-373 | `ul([])` is empty, and a two-item list gives `<ul><li>a</li><li>b</li></ul>` |
| Html.Dl | src/LaravelBook/Laravel4Powerpack/HTML.php:383-396 | A definition list renders as nothing exactly when it is empty |
| Html.DlSingle | src/LaravelBook/Laravel4Powerpack/HTML.php:389-395 | One pair renders as `<dl attrs><dt>escaped term</dt><dd>escaped description</dd></dl>` |
| Html.DlAppend | src/LaravelBook/Laravel4Powerpack/HTML.php:389-395 | Splitting a definition list splits its markup, first part first, inside one `<dl>` |
| Html.DefinitionPlain | src/LaravelBook/Laravel4Powerpack/HTML.php:391-392 | Plain terms and descriptions reach `<dt>` and `<dd>` unchanged |
| Html.DlExamples | src/LaravelBook/Laravel4Powerpack/HTML.php:383-396 | `dl([])` is empty, and `[term => description]` gives `<dl><dt>term</dt><dd>description</dd></dl>` |
| Html.DefinitionsAppend | src/LaravelBook/Laravel4Powerpack/HTML.php:389-393 | The pairs of `a + b` are the pairs of `a`, then those of `b` |
| Html.WrapTag | src/LaravelBook/Laravel4Powerpack/HTML.php:93-96 | Wrapping adds exactly the two tags: the length grows by twice the tag plus five |
| Html.UnwrapWrapTag | src/LaravelBook/Laravel4Powerpack/HTML.php:93-96 | Unwrapping recovers the wrapped content |
| Html.WrapTagInjective | src/LaravelBook/Laravel4Powerpack/HTML.php:93-96 | Equal wrappings under one tag have equal contents |
| Macros.Register | src/LaravelBook/Laravel4Powerpack/HTML.php:55-58 | Registration stores the callback under its name, replaces an earlier one, and leaves every other name alone |
| Macros.MissingMethod | src/LaravelBook/Laravel4Powerpack/HTML.php:476 | The error text is `Method [` + the name + `] does not exist.` |
| Macros.Dispatch | src/LaravelBook/Laravel4Powerpack/HTML.php:470-477 | `__call` succeeds exactly when a non-null callback is registered under the name; otherwise it fails with the missing-method text |
| Macros.DispatchRegistered | src/LaravelBook/Laravel4Powerpack/Form.php:570-576 | A registered callback is the one `__call` finds under its name |
| Macros.DispatchRegisteredNull | src/LaravelBook/Laravel4Powerpack/HTML.php:470-477 | Registering null makes the name unknown again |
| Macros.DispatchRegisterOther | src/LaravelBook/Laravel4Powerpack/Form.php:570-576 | Registering one name does not change what any other name dispatches to |
| Macros.DispatchEmpty | src/LaravelBook/Laravel4Powerpack/Form.php:570-576 | With no registration every name is a missing method |
| Form.Id | src/LaravelBook/Laravel4Powerpack/Form.php:550-561 | An explicit `id` key wins, even a null one; otherwise the name if it was registered as a label; otherwise null |
| Form.Label | src/LaravelBook/Laravel4Powerpack/Form.php:216-224 | `label` appends exactly its name to the registered labels; its markup opens with `<label for="` + the name, unescaped, and closes with `>` + the escaped text + `</label>` |
| Form.LabelPlain | src/LaravelBook/Laravel4Powerpack/Form.php:216-224 | For plain text and any attributes, a label is exactly `<label for="name"`, then the serialised attributes, then `>text</label>` |
| Form.LabelKeepsLabels | src/LaravelBook/Laravel4Powerpack/Form.php:216-217 | Labels only accumulate: a registered name stays registered |
| Form.InputName | src/LaravelBook/Laravel4Powerpack/Form.php:236 | A set `name` attribute overrides the name parameter |
| Form.InputAttrs | src/LaravelBook/Laravel4Powerpack/Form.php:235-243 | The input's `type`, `name`, `value` and `id` are the computed ones, overriding the caller's keys of those names |
| Form.InputKeepsOtherAttrs | src/LaravelBook/Laravel4Powerpack/Form.php:240-242 | Every other caller attribute reaches the input unchanged |
| Form.InputKeyOrder | src/LaravelBook/Laravel4Powerpack/Form.php:240-242 | The input's keys are the caller's keys in their order, with string keys in place and integer keys renumbered from 0 as `array_merge` does, followed by those of `type`, `name`, `value`, `id` the caller lacked, in that order |
| Form.LabelThenInput | src/LaravelBook/Laravel4Powerpack/Form.php:216-243 | After `label(name)`, an input of that name with no explicit `id` gets `id="name"` |
| Form.InputWithoutLabelHasNoId | src/LaravelBook/Laravel4Powerpack/Form.php:235-243 | Without a label of its name and without an explicit `id`, an input's `id` is null and so omitted |
| Form.MergeComputedKey | src/LaravelBook/Laravel4Powerpack/Form.php:240-242 | Each computed key overrides the caller's entry of the same name |
| Form.FormMethod | src/LaravelBook/Laravel4Powerpack/Form.php:132-134 | The form method is always GET or POST, and GET exactly when the requested method is GET |
| Form.Action | src/LaravelBook/Laravel4Powerpack/Form.php:145-149 | The action is the generated URL for the given URI, or for the current path when none is given, escaped |
| Form.OpenAttrs | src/LaravelBook/Laravel4Powerpack/Form.php:100-112 | `method` and `action` are always overwritten; a caller's `accept-charset` is kept and otherwise set to `utf-8` |
| Form.OpenAttrsKeepsOthers | src/LaravelBook/Laravel4Powerpack/Form.php:103-112 | `open` leaves every attribute other than `method`, `action` and `accept-charset` alone |
| Form.OpenKeyOrder | src/LaravelBook/Laravel4Powerpack/Form.php:103-112 | The form's keys are the caller's keys in their order, followed by those of `method`, `action`, `accept-charset` the caller lacked, in that order |
| Form.Open | src/LaravelBook/Laravel4Powerpack/Form.php:100-124 | The `<form>` tag comes first; a hidden `_method` field carrying the method follows exactly when the method is PUT or DELETE |
| Form.OpenMethodExamples | src/LaravelBook/Laravel4Powerpack/Form.php:101-103 | The method is upper-cased first: `get` gives GET, `put` gives POST, `delete` is spoofed and `post` is not |
| Form.OpenForFilesAttrs | src/LaravelBook/Laravel4Powerpack/Form.php:172-176 | `openForFiles` sets a multipart `enctype` |
| Form.OpenForFilesKeepsEnctype | src/LaravelBook/Laravel4Powerpack/Form.php:100-176 | The multipart `enctype` survives `open` |
| Form.TextareaAttrs | src/LaravelBook/Laravel4Powerpack/Form.php:371-381 | `name` comes from the parameter, `id` is resolved, and `rows`/`cols` default to 10/50 only when unset |
| Form.IssetDefault | src/LaravelBook/Laravel4Powerpack/Form.php:376-378 | A key whose value is set keeps it; otherwise it takes the default, and the key is appended only when it was absent |
| Form.TextareaKeepsOtherAttrs | src/LaravelBook/Laravel4Powerpack/Form.php:371-381 | `textarea` writes only `name`, `id`, `rows` and `cols`; every other caller attribute reaches the element unchanged |
| Form.TextareaKeyOrder | src/LaravelBook/Laravel4Powerpack/Form.php:372-378 | The textarea's keys are the caller's keys in their order, followed by those of `name`, `id`, `rows`, `cols` the caller lacked, in that order |
| Form.OptionAttrs | src/LaravelBook/Laravel4Powerpack/Form.php:437-448 | The value is escaped, and `selected` is non-null exactly when the option is selected |
| Form.OptionShape | src/LaravelBook/Laravel4Powerpack/Form.php:437-448 | An option prints its once-escaped value, `selected="selected"` exactly when selected, and its escaped display text |
| Form.ChoicesAppend | src/LaravelBook/Laravel4Powerpack/Form.php:399-406 | The entries of `a + b` render as those of `a`, then those of `b` |
| Form.SelectAttrs | src/LaravelBook/Laravel4Powerpack/Form.php:393-395 | A select has its resolved `id` and the name parameter as `name` |
| Form.SelectKeepsOtherAttrs | src/LaravelBook/Laravel4Powerpack/Form.php:393-395 | `select` writes only `id` and `name`; every other caller attribute reaches the element unchanged |
| Form.SelectKeyOrder | src/LaravelBook/Laravel4Powerpack/Form.php:393-395 | The select's keys are the caller's keys in their order, followed by those of `id`, `name` the caller lacked, in that order |
| Form.SelectAppend | src/LaravelBook/Laravel4Powerpack/Form.php:392-409 | Options appear in the order given: splitting the options splits the select's inner markup |
| Form.CheckableAttrs | src/LaravelBook/Laravel4Powerpack/Form.php:488-494 | `checked="checked"` is set when asked for and the caller's value is kept otherwise; the `id` entry is the id the name resolves to against the caller's attributes |
| Form.CheckableKeepsOtherAttrs | src/LaravelBook/Laravel4Powerpack/Form.php:488-494 | `checkable` writes only `checked` and `id` before calling `input`; every other caller attribute is passed on unchanged |
| Form.CheckableKeyOrder | src/LaravelBook/Laravel4Powerpack/Form.php:488-494 | The keys handed to `input` are the caller's keys in their order, followed by `checked` (when checked) and `id`, each only if the caller lacked it, in that order |
| Form.CheckableInputAttrs | src/LaravelBook/Laravel4Powerpack/Form.php:488-494 | A checkable input carries its type, its value, the caller's `name` if set and else the name parameter, the id the name parameter resolves to, and `checked` when checked |
| Form.RadioValue | src/LaravelBook/Laravel4Powerpack/Form.php:472-476 | A radio button without a value takes its name as its value |
| Transliteration.ReplaceRule | src/LaravelBook/Laravel4Powerpack/Str.php:350-356 | After one table entry is applied, none of its characters remain |
| Transliteration.ApplyRulesIsTransliteration | src/LaravelBook/Laravel4Powerpack/Str.php:350-356 | Applying the table entry after entry equals replacing each character by its own replacement |
| Transliteration.TransliterateAllPlain | src/LaravelBook/Laravel4Powerpack/Str.php:23-91 | ASCII text is in no pattern of the table and passes through it unchanged |
| Transliteration.KeepPrintable | src/LaravelBook/Laravel4Powerpack/Str.php:355 | The filter keeps only tab, LF, CR and 0x20-0x7E, every kept character still appears, and text made only of them is kept whole (KeepPrintableAppend and KeepPrintableChar determine the filter fully) |
| Transliteration.KeepPrintableCount | src/LaravelBook/Laravel4Powerpack/Str.php:355 | Every occurrence of a kept character survives and every other character is removed entirely: the filter changes the count of no kept character |
| Transliteration.KeepPrintableAppend | src/LaravelBook/Laravel4Powerpack/Str.php:355 | The filter works character by character: filtering `a + b` is filtering `a`, then `b` |
| Transliteration.KeepPrintableChar | src/LaravelBook/Laravel4Powerpack/Str.php:355 | One character is kept exactly when it is tab, LF, CR or in 0x20-0x7E, and dropped otherwise |
| Transliteration.Ascii | src/LaravelBook/Laravel4Powerpack/Str.php:350-356 | Every output character is tab, LF, CR or in 0x20-0x7E |
| Transliteration.AsciiKeepsPrintable | src/LaravelBook/Laravel4Powerpack/Str.php:350-356 | Text made only of kept ASCII characters passes through `ascii` unchanged |
| Transliteration.AsciiIdempotent | src/LaravelBook/Laravel4Powerpack/Str.php:350-356 | Applying `ascii` twice is applying it once |
| Transliteration.AsciiExample | src/LaravelBook/Laravel4Powerpack/Str.php:23-356 | The table maps `æ` to `ae` before the filter runs |
| Str.Slug | src/LaravelBook/Laravel4Powerpack/Str.php:330-340 | A slug holds only separator characters, small letters and digits, and neither begins nor ends with the separator |
| Str.SlugSingleSeparator | src/LaravelBook/Laravel4Powerpack/Str.php:330-340 | For a one-character, non-space separator, a slug has no whitespace, never two adjacent separators, and no separator at either end |
| Str.SlugIdempotent | src/LaravelBook/Laravel4Powerpack/Str.php:330-340 | Slugging a slug with the same separator changes nothing |
| Str.SlugWords | src/LaravelBook/Laravel4Powerpack/Str.php:330-340 | Space-separated words plus trailing punctuation slug to the lower-cased words joined by the separator |
| Str.SlugExamples | src/LaravelBook/Laravel4Powerpack/Str.php:319-323 | `This is my blog post!` slugs to `this-is-my-blog-post`, and with `_` to `this_is_my_blog_post` |
| Str.Limit | src/LaravelBook/Laravel4Powerpack/Str.php:198-206 | A string within the limit is returned unchanged; otherwise its first `limit` characters plus `end` |
| Str.LimitExact | src/LaravelBook/Laravel4Powerpack/Str.php:224-230 | Within the limit the string is unchanged; otherwise it is cut so that with `end` it has exactly `limit` characters, whenever `end` fits |
| Str.LimitExamples | src/LaravelBook/Laravel4Powerpack/Str.php:186-223 | `Taylor Otwell` limited to 3 is `Tay...`, and limited exactly to 9 is `Taylor...` |
| Str.LimitExactOverlongEnd | src/LaravelBook/Laravel4Powerpack/Str.php:224-230 | When `end` is longer than the limit, the negative cut takes characters off the end instead |
| Str.Finish | src/LaravelBook/Laravel4Powerpack/Str.php:505-507 | The result ends with the cap; what precedes it is the input minus its longest trailing run of characters that the cap names when read as an `rtrim` character list, `x..y` ranges included |
| Str.FinishIdempotent | src/LaravelBook/Laravel4Powerpack/Str.php:505-507 | Finishing a finished string changes nothing, when every character of the cap is named by the cap read as a character list |
| Str.LiteralNamesItself | src/LaravelBook/Laravel4Powerpack/Str.php:505-507 | A cap without `..` names each of its own characters, so finishing with it is idempotent |
| Str.FinishCapped | src/LaravelBook/Laravel4Powerpack/Str.php:505-507 | A string that already ends in the cap, with no listed character before it, is left unchanged |
| Str.FinishRange | src/LaravelBook/Laravel4Powerpack/Str.php:505-507 | The cap `a..c` is read as a range: finishing `abc` with it trims all three characters and gives `a..c` |
| Str.FinishRangeNotIdempotent | src/LaravelBook/Laravel4Powerpack/Str.php:505-507 | With the cap `a..c`, finishing `x` gives `xa..c`, and finishing that again gives `xa..a..c`: the dots are not in the range |
| Str.Extension | src/LaravelBook/Laravel4Powerpack/Str.php:311-313 | The extension has no dot, is empty when there is no dot, and otherwise is the lower-cased text after the last dot |
| Str.ExtensionOf | src/LaravelBook/Laravel4Powerpack/Str.php:311-313 | The extension of `base.ext` is `ext`, lower-cased, whatever dots `base` holds |
| Str.Split | src/LaravelBook/Laravel4Powerpack/Str.php:398-400 | `explode` gives at least one piece, none holding the separator, and the pieces join back to the input |
| Str.SplitJoin | src/LaravelBook/Laravel4Powerpack/Str.php:398-400 | `explode` undoes `implode` when no piece holds the separator |
| Str.Segments | src/LaravelBook/Laravel4Powerpack/Str.php:398-400 | Each segment is the piece of `explode('/', trim(v, '/'))` at its key, non-empty and slash-free; keys increase; every non-empty piece appears under its own position |
| Str.SegmentsNormalize | src/LaravelBook/Laravel4Powerpack/Str.php:398-400 | Joined with `/`, the segments are the input with runs of slashes collapsed and slashes trimmed from both ends |
| Str.SegmentsOfJoin | src/LaravelBook/Laravel4Powerpack/Str.php:398-400 | Non-empty, slash-free pieces joined by `/` come back as exactly those pieces |
| Str.Strpos | src/LaravelBook/Laravel4Powerpack/Str.php:479-481 | `strpos` finds a needle exactly when it occurs, and returns its first occurrence |
| Str.StrposFinds | src/LaravelBook/Laravel4Powerpack/Str.php:479-481 | Any occurrence is found by `strpos` at that offset or earlier |
| Str.StartsWith | src/LaravelBook/Laravel4Powerpack/Str.php:479-481 | True exactly when the needle is a prefix of the haystack |
| Str.EndsWith | src/LaravelBook/Laravel4Powerpack/Str.php:468-470 | True exactly when the needle is a suffix of the haystack |
| Str.Contains | src/LaravelBook/Laravel4Powerpack/Str.php:490-496 | True exactly when some needle occurs in the haystack |
| Str.Unhyphen | src/LaravelBook/Laravel4Powerpack/Str.php:387 | Each `-` and `_` becomes a space, and every other character is kept |
| Str.UcWords | src/LaravelBook/Laravel4Powerpack/Str.php:160-162 | `ucwords`: only a character at the start or after whitespace can change, and there a small letter becomes its capital |
| Str.Without | src/LaravelBook/Laravel4Powerpack/Str.php:389 | Removing a character leaves none of it, adds nothing, and changes nothing when it is absent |
| Str.WithoutAppend | src/LaravelBook/Laravel4Powerpack/Str.php:389 | Removing a character works piece by piece: removing it from `a + b` is removing it from `a`, then from `b` |
| Str.WithoutCons | src/LaravelBook/Laravel4Powerpack/Str.php:389 | A leading character is dropped exactly when it is the removed one, and kept otherwise |
| Str.CamelCase | src/LaravelBook/Laravel4Powerpack/Str.php:386-390 | A camel-cased string has no space, hyphen or underscore |
| Str.CamelCaseReference | src/LaravelBook/Laravel4Powerpack/Str.php:386-390 | `camelCase` equals a one-pass reference: hyphens, underscores and spaces are dropped, and a character at the start or after a separator or whitespace is upper-cased |
| Str.CamelCaseRun | src/LaravelBook/Laravel4Powerpack/Str.php:386-390 | Under the reference, a run of separators counts as one: `foo--bar` becomes `FooBar` |
| Str.CamelCaseLeading | src/LaravelBook/Laravel4Powerpack/Str.php:386-390 | Under the reference, a leading separator disappears: `-foo_bar` becomes `FooBar` |
| Str.CamelCaseTab | src/LaravelBook/Laravel4Powerpack/Str.php:386-390 | Under the reference, a tab is kept but still starts a word: `a\tb` becomes `A\tB` |
| Str.CamelCaseWords | src/LaravelBook/Laravel4Powerpack/Str.php:386-390 | Words separated by single hyphens, underscores or spaces become the words, each capitalised, run together |
| Str.Pool | src/LaravelBook/Laravel4Powerpack/Str.php:448-459 | Only `alpha` and `alnum` succeed, with 52 and 62 characters; any other type fails with `Invalid random string type [type].` |
| Str.PoolAlpha | src/LaravelBook/Laravel4Powerpack/Str.php:450-451 | The alphabetic pool holds exactly the letters, each once |
| Str.PoolAlnum | src/LaravelBook/Laravel4Powerpack/Str.php:453-454 | The alphanumeric pool holds exactly the letters and digits, each once |

## Left out

- URL generation and the CSRF token come from the framework. The URL generator is a parameter (`UrlGenerator`: a function and the current path). `Form::token`, which emits a hidden `csrf_token` input, is not modelled, because its value is the framework's token; `open` itself emits no token field.
- `obfuscate`, `email`, `mailto` and `Str::random` depend on `rand`/`str_shuffle`. For `random`, only the character pools it draws from are modelled.
- The link and asset helpers of `HTML` (`to`, `secure`, `asset`, `secureAsset`, `route`, `action`) and `image` are not modelled, because they only wrap framework URLs in `attributes` and `entities`, which are modelled. `span` is one tag around those two and is not modelled either.
- `singular` and `plural` delegate to the framework's pluralizer, which is not part of this model.
- `words`, `wordwrap`, `is`, `title` and `classify` are driven by Unicode and PCRE and are not modelled. `upperWords` is plain `ucwords`, which `Str.UcWords` models.
- `HTML::specialchars` (`HTML.php:106-109`) is not modelled. It is `htmlspecialchars` with `ENT_QUOTES` and `double_encode` off, outside the helpers modelled here; `entities`, which the rest of `HTML` and `Form` use, is modelled.
- `script`, `style` and `script_tag` are only `PHP_EOL` and URL glue, so they are not modelled.
- The service provider and the facade only wire dependencies, so they are not modelled.
- Text.Lower: models `mb_strtolower` on ASCII only (A-Z to a-z), because every other case mapping is multibyte Unicode data.
- Text.Upper: models `mb_strtoupper` on ASCII only (a-z to A-Z), for the same reason.
- Str.Limit: models only the multibyte branch. The other branch refers to an undefined `$string` (`Str.php:203`) and cannot return a meaningful value.
- HtmlEntities.Entities: treats any `&name;` with an alphanumeric name as an existing reference. PHP also checks the name against its HTML 4.01 entity table. The non-ASCII part of that table is not modelled either.
- HtmlEntities.Decode: decodes only `&amp; &lt; &gt; &quot;` and numeric references to tab, LF, CR and 0x20-0x7E. Other references are left as they are, because their values lie outside ASCII.
- Form.Id: `in_array` and PHP's loose `==` are modelled as exact string equality. The same goes for `Form.IsSelected`, so numeric strings such as `1` and `01` do not compare equal here.
- Str.EndsWith: PHP's loose `==` is modelled as exact string equality, so two different numeric strings are never equal here.
- Text.InCharList: the warnings PHP prints for a malformed `..` in a character list are not modelled. The list itself is read as PHP reads it, a stray `..` dropping its first dot.
- Str.FinishIdempotent: holds only for a cap every character of which the cap itself names. For a range cap it fails, as `Str.FinishRangeNotIdempotent` shows, because `finish` then keeps adding the dots.
- Str.Slug: `preg_quote` of the separator is not spelled out. The separator is matched as a literal character set, which is what the quoting achieves. The final `trim` reads the separator as a character list, `..` ranges included, as PHP does.
- PhpArray.Key: PHP turns a string key that spells a canonical integer, such as `"5"`, into the integer key 5. The model keeps `Name("5")` and `Index(5)` apart and does not normalise, so an array built from such keys should use `Index`.
- Str.Strpos: follows PHP 8, where an empty needle is found at offset 0, so `startsWith(h, '')` and `contains(h, '')` are true. PHP 5 and 7 return false there, with a warning.
- PhpArray.IsNumericString: follows PHP 8, which accepts trailing whitespace after a number. Earlier versions accept only leading whitespace.
- Macros.Dispatch: callbacks are opaque values and are never invoked. `__call` is modelled as the lookup and its error case.
- Html.AttributesBoolean: the documented `[0 => 'required']` example is stated for every plain value under an integer key rather than for that literal. The same holds for the other documented examples: `Html.UlExamples`, `Html.DlExamples` and `Html.ListingLabelNotEscaped` state them over arbitrary plain strings.
- Str.Slug: the `$keepExtension` parameter is declared but never read by `slug`, so the model does not take it.
- Macros.Register: `Form::macro` type-hints `Closure`, so a null callback can be registered only through `HTML::macro`. The model uses one registry for both; `Macros.DispatchRegisteredNull` is about the `HTML` case.
- Form.InputKeyOrder: requires the caller's array to have distinct keys, which every PHP array has; the model's sequences need it stated.

=== FILE: ascii.dfy ===
/**
 * `Str::ascii`: the transliteration table replaces accented Latin, Greek,
 * Cyrillic and other letters by ASCII spellings, rule by rule, and a final
 * filter drops every character other than tab, line feed, carriage return
 * and 0x20-0x7E. Characters stand for the UTF-8 sequences the table's
 * patterns match.
 */
module Transliteration {
  import opened Text

  /** A character outside ASCII: every pattern of the table is made of these. */
  type Foreign = c: char | c as int > 0x7F witness '\U{80}'

  /** An ASCII character: every replacement of the table is made of these. */
  type Plain = c: char | c as int < 0x80

  /** One table entry `'/a|b|c/' => 'x'`: each character of `pattern` becomes
      `replacement`. */
  datatype Rule = Rule(pattern: seq<Foreign>, replacement: seq<Plain>)

  const Table1: seq<Rule> := [
Rule("æǽ", "ae"),
    Rule("œ", "oe"),
    Rule("ÀÁÂÃÄÅǺĀĂĄǍА", "A"),
    Rule("àáâãäåǻāăąǎªа", "a"),
    Rule("Б", "B"),
    Rule("б", "b"),
    Rule("ÇĆĈĊČЦ", "C"),
    Rule("çćĉċčц", "c"),
    Rule("ÐĎĐД", "Dj"),
    Rule("ðďđд", "dj"),
    Rule("ÈÉÊËĒĔĖĘĚЕЁЭ", "E"),
    Rule("èéêëēĕėęěеёэ", "e"),
    Rule("Ф", "F"),
    Rule("ƒф", "f"),
    Rule("ĜĞĠĢГ", "G"),
    Rule("п", "p"),
    Rule("ŔŖŘР", "R")
  ]

  const Table2: seq<Rule> := [
    Rule("ŕŗřр", "r"),
    Rule("ĝğġģг", "g"),
    Rule("ĤĦХ", "H"),
    Rule("ĥħх", "h"),
    Rule("ÌÍÎÏĨĪĬǏĮİИ", "I"),
    Rule("ìíîïĩīĭǐįıи", "i"),
    Rule("ĴЙ", "J"),
    Rule("ĵй", "j"),
    Rule("ĶК", "K"),
    Rule("ķк", "k"),
    Rule("ĹĻĽĿŁЛ", "L"),
    Rule("ĺļľŀłл", "l"),
    Rule("М", "M"),
    Rule("м", "m"),
    Rule("ÑŃŅŇН", "N"),
    Rule("ñńņňŉн", "n"),
    Rule("ÖÒÓÔÕŌŎǑŐƠØǾО", "O")
  ]

  const Table3: seq<Rule> := [
    Rule("öòóôõōŏǒőơøǿºо", "o"),
    Rule("П", "P"),
    Rule("ŚŜŞȘŠС", "S"),
    Rule("śŝşșšſс", "s"),
    Rule("ŢȚŤŦТ", "T"),
    Rule("ţțťŧт", "t"),
    Rule("ÙÚÛŨŪŬŮÜŰŲƯǓǕǗǙǛУ", "U"),
    Rule("ùúûũūŭůüűųưǔǖǘǚǜу", "u"),
    Rule("В", "V"),
    Rule("в", "v"),
    Rule("ÝŸŶЫ", "Y"),
    Rule("ýÿŷы", "y"),
    Rule("Ŵ", "W"),
    Rule("ŵ", "w"),
    Rule("ŹŻŽЗ", "Z"),
    Rule("źżžз", "z"),
    Rule("ÆǼ", "AE")
  ]

  const Table4: seq<Rule> := [
    Rule("ß", "ss"),
    Rule("Ĳ", "IJ"),
    Rule("ĳ", "ij"),
    Rule("Œ", "OE"),
    Rule("Ч", "Ch"),
    Rule("ч", "ch"),
    Rule("Ю", "Ju"),
    Rule("ю", "ju"),
    Rule("Я", "Ja"),
    Rule("я", "ja"),
    Rule("Ш", "Sh"),
    Rule("ш", "sh"),
    Rule("Щ", "Shch"),
    Rule("щ", "shch"),
    Rule("Ж", "Zh"),
    Rule("ж", "zh")
  ]

  /** The table of `Str::$ascii`, in source order. */
  const AsciiRules: seq<Rule> := Table1 + Table2 + Table3 + Table4

  /** `preg_replace` of one entry's alternation over the whole string. */
  function ReplaceRule(s: string, r: Rule): (t: string)
    ensures forall i :: 0 <= i < |t| ==> t[i] !in r.pattern
  {
    if s == [] then []
    else
      var head: string := if s[0] in r.pattern then r.replacement else [s[0]];
      assert forall i :: 0 <= i < |head| ==> head[i] !in r.pattern;
      head + ReplaceRule(s[1..], r)
  }

  /** `preg_replace(array_keys($table), array_values($table), $s)`: the
      entries applied one after the other. */
  function ApplyRules(s: string, rules: seq<Rule>): string
    decreases |rules|
  {
    if rules == [] then s else ApplyRules(ReplaceRule(s, rules[0]), rules[1..])
  }

  /** Reference reading of the table: a character becomes the replacement of
      the first entry that lists it, or stays as it is. */
  function Transliterate(c: char, rules: seq<Rule>): string
  {
    if rules == [] then [c]
    else if c in rules[0].pattern then rules[0].replacement
    else Transliterate(c, rules[1..])
  }

  /** The reference reading applied character by character. */
  function TransliterateAll(s: string, rules: seq<Rule>): string
  {
    if s == [] then [] else Transliterate(s[0], rules) + TransliterateAll(s[1..], rules)
  }

  /** The character class kept by `/[^\x09\x0A\x0D\x20-\x7E]/`. */
  predicate IsKept(c: char)
  {
    c == '\t' || c == '\n' || c == '\r' || (' ' <= c <= '~')
  }

  /** Drops every character outside the kept class, keeping the order. */
  function KeepPrintable(s: string): (r: string)
    ensures |r| <= |s|
    ensures forall i :: 0 <= i < |r| ==> IsKept(r[i])
    ensures (forall i :: 0 <= i < |s| ==> IsKept(s[i])) ==> r == s
    ensures forall i :: 0 <= i < |s| && IsKept(s[i]) ==> s[i] in r
  {
    if s == [] then []
    else
      var rest := KeepPrintable(s[1..]);
      assert forall i :: 1 <= i < |s| ==> s[i] == s[1..][i - 1];
      (if IsKept(s[0]) then [s[0]] else []) + rest
  }

  /** The filter works character by character: filtering `a + b` is filtering
      `a`, then `b`. */
  lemma {:induction false} KeepPrintableAppend(a: string, b: string)
    ensures KeepPrintable(a + b) == KeepPrintable(a) + KeepPrintable(b)
  {
    if a == [] {
      assert a + b == b;
    } else {
      assert (a + b)[0] == a[0] && (a + b)[1..] == a[1..] + b;
      KeepPrintableAppend(a[1..], b);
      var head := if IsKept(a[0]) then [a[0]] else [];
      assert KeepPrintable(a + b) == head + (KeepPrintable(a[1..]) + KeepPrintable(b));
      assert KeepPrintable(a) == head + KeepPrintable(a[1..]);
    }
  }

  /** The filter keeps every occurrence of a kept character and drops every
      occurrence of any other: it changes the count of no kept character. */
  lemma {:induction false} KeepPrintableCount(s: string)
    ensures forall c :: multiset(KeepPrintable(s))[c] == if IsKept(c) then multiset(s)[c] else 0
  {
    if s != [] {
      KeepPrintableCount(s[1..]);
      assert s == [s[0]] + s[1..];
      var head := if IsKept(s[0]) then [s[0]] else [];
      assert KeepPrintable(s) == head + KeepPrintable(s[1..]);
    }
  }

  /** One character is kept exactly when it is in the kept class. */
  lemma KeepPrintableChar(c: char)
    ensures KeepPrintable([c]) == if IsKept(c) then [c] else []
  {
    assert [c][1..] == [];
  }

  /** `Str::ascii`. */
  function Ascii(s: string): (r: string)
    ensures forall i :: 0 <= i < |r| ==> IsKept(r[i])
  {
    KeepPrintable(ApplyRules(s, AsciiRules))
  }

  lemma {:induction false} TransliterateAllAppend(a: string, b: string, rules: seq<Rule>)
    ensures TransliterateAll(a + b, rules) == TransliterateAll(a, rules) + TransliterateAll(b, rules)
  {
    if a == [] {
      assert a + b == b;
    } else {
      assert (a + b)[0] == a[0] && (a + b)[1..] == a[1..] + b;
      TransliterateAllAppend(a[1..], b, rules);
    }
  }

  /** An ASCII character is in no pattern, so the table leaves it alone. */
  lemma {:induction false} TransliteratePlain(c: char, rules: seq<Rule>)
    requires c as int < 0x80
    ensures Transliterate(c, rules) == [c]
  {
    if rules != [] {
      assert c !in rules[0].pattern;
      TransliteratePlain(c, rules[1..]);
    }
  }

  lemma {:induction false} TransliterateAllPlain(s: string, rules: seq<Rule>)
    requires forall i :: 0 <= i < |s| ==> s[i] as int < 0x80
    ensures TransliterateAll(s, rules) == s
  {
    if s != [] {
      TransliteratePlain(s[0], rules);
      TransliterateAllPlain(s[1..], rules);
    }
  }

  /** Applying one more entry in front of the rest agrees with reading the
      entry first: replacements are ASCII, so no later entry touches them. */
  lemma {:induction false} ReplaceThenTransliterate(s: string, rules: seq<Rule>)
    requires rules != []
    ensures TransliterateAll(ReplaceRule(s, rules[0]), rules[1..]) == TransliterateAll(s, rules)
  {
    if s != [] {
      var r := rules[0];
      var head: string := if s[0] in r.pattern then r.replacement else [s[0]];
      assert ReplaceRule(s, r) == head + ReplaceRule(s[1..], r);
      TransliterateAllAppend(head, ReplaceRule(s[1..], r), rules[1..]);
      ReplaceThenTransliterate(s[1..], rules);
      if s[0] in r.pattern {
        TransliterateAllPlain(r.replacement, rules[1..]);
      } else {
        assert TransliterateAll([s[0]], rules[1..]) == Transliterate(s[0], rules[1..]) + TransliterateAll([], rules[1..]);
      }
    }
  }

  /** Sequential `preg_replace` over the table is the same as transliterating
      each character by the first entry that lists it. */
  lemma {:induction false} ApplyRulesIsTransliteration(s: string, rules: seq<Rule>)
    ensures ApplyRules(s, rules) == TransliterateAll(s, rules)
    decreases |rules|
  {
    if rules == [] {
      TransliterateAllEmptyTable(s);
    } else {
      ApplyRulesIsTransliteration(ReplaceRule(s, rules[0]), rules[1..]);
      ReplaceThenTransliterate(s, rules);
    }
  }

  lemma {:induction false} TransliterateAllEmptyTable(s: string)
    ensures TransliterateAll(s, []) == s
  {
    if s != [] {
      TransliterateAllEmptyTable(s[1..]);
    }
  }

  /** Text already made of kept ASCII characters passes through unchanged. */
  lemma AsciiKeepsPrintable(s: string)
    requires forall i :: 0 <= i < |s| ==> IsKept(s[i])
    ensures Ascii(s) == s
  {
    ApplyRulesIsTransliteration(s, AsciiRules);
    TransliterateAllPlain(s, AsciiRules);
  }

  lemma AsciiIdempotent(s: string)
    ensures Ascii(Ascii(s)) == Ascii(s)
  {
    AsciiKeepsPrintable(Ascii(s));
  }

  /** `ae` for the first entry's `æ`: the table is applied, then filtered. */
  lemma AsciiExample()
    ensures Ascii("\U{E6}on") == "aeon"
  {
    var s := "\U{E6}on";
    assert AsciiRules[0] == Rule("\U{E6}\U{1FD}", "ae");
    assert Transliterate('\U{E6}', AsciiRules) == "ae";
    TransliteratePlain('o', AsciiRules);
    TransliteratePlain('n', AsciiRules);
    assert TransliterateAll("n", AsciiRules) == "n";
    assert TransliterateAll("on", AsciiRules) == "on";
    assert TransliterateAll(s, AsciiRules) == "ae" + "on";
    ApplyRulesIsTransliteration(s, AsciiRules);
    assert "aeon" == "ae" + "on";
  }
}

=== FILE: entities.dfy ===
/** HTML entity escaping as `HTML::entities` performs it: PHP's `htmlentities`
    with `ENT_QUOTES` and `double_encode = false`, restricted to ASCII, plus
    the ASCII part of its inverse `html_entity_decode`.

    With `double_encode = false`, an `&` that already begins a well-formed
    character reference is copied unchanged together with the reference;
    every other `&` becomes `&amp;`. PHP recognises three reference shapes:
    `&name;` (letters and digits), `&#digits;` and `&#xhexdigits;`, the
    numeric ones read with C's `strtol` and accepted up to U+10FFFF. */
module HtmlEntities {
  import opened Wrappers
  import opened Text

  const MaxCodePoint: nat := 0x10FFFF

  /** `&name;` with a non-empty name of ASCII letters and digits. */
  predicate IsNamedReference(r: string)
  {
    |r| >= 3 && r[0] == '&' && r[|r| - 1] == ';'
    && forall i :: 1 <= i < |r| - 1 ==> IsAlnum(r[i])
  }

  /** `&#digits;` whose value is a code point. */
  predicate IsDecimalReference(r: string)
  {
    |r| >= 4 && r[0] == '&' && r[1] == '#' && r[|r| - 1] == ';'
    && AllDigits(r[2..|r| - 1]) && NumberValue(r[2..|r| - 1], 10) <= MaxCodePoint
  }

  /** The digits `strtol` reads in base 16 from the text after `&#x`: a
      non-empty run of hex digits, which base-16 `strtol` also accepts after
      a `0x` prefix of its own. */
  function HexDigits(b: string): (d: Option<string>)
    ensures d.Some? ==> |d.value| > 0 && AllHexDigits(d.value)
    ensures d.Some? ==> forall i :: 0 <= i < |b| ==> IsAlnum(b[i])
  {
    if |b| >= 3 && b[0] == '0' && (b[1] == 'x' || b[1] == 'X') && AllHexDigits(b[2..]) then
      assert forall i :: 2 <= i < |b| ==> b[i] == b[2..][i - 2];
      Some(b[2..])
    else if |b| > 0 && AllHexDigits(b) then Some(b)
    else None
  }

  /** `&#xhex;` (or `&#Xhex;`) whose value is a code point. */
  predicate IsHexReference(r: string)
  {
    |r| >= 5 && r[0] == '&' && r[1] == '#' && (r[2] == 'x' || r[2] == 'X') && r[|r| - 1] == ';'
    && HexDigits(r[3..|r| - 1]).Some?
    && NumberValue(HexDigits(r[3..|r| - 1]).value, 16) <= MaxCodePoint
  }

  predicate IsReference(r: string)
  {
    IsNamedReference(r) || IsDecimalReference(r) || IsHexReference(r)
  }

  /** The code point a numeric reference denotes. */
  function CodePoint(r: string): (cp: nat)
    requires IsDecimalReference(r) || IsHexReference(r)
    ensures cp <= MaxCodePoint
  {
    if IsDecimalReference(r) then NumberValue(r[2..|r| - 1], 10)
    else NumberValue(HexDigits(r[3..|r| - 1]).value, 16)
  }

  /** A reference is `&`, then letters, digits or `#`, then its one `;`. */
  lemma ReferenceChars(r: string)
    requires IsReference(r)
    ensures |r| >= 3 && r[0] == '&' && r[|r| - 1] == ';'
    ensures forall i :: 1 <= i < |r| - 1 ==> IsAlnum(r[i]) || r[i] == '#'
  {
    if IsDecimalReference(r) {
      InnerChars(r, 2);
    } else if IsHexReference(r) {
      InnerChars(r, 3);
    }
  }

  /** The characters of `r[k..|r| - 1]` are those of `r` from `k` on. */
  lemma InnerChars(r: string, k: nat)
    requires k <= |r| - 1
    ensures forall i :: k <= i < |r| - 1 ==> r[i] == r[k..|r| - 1][i - k]
  {
  }

  /** A reference holds no markup character. */
  lemma ReferenceNoSpecial(r: string)
    requires IsReference(r)
    ensures forall i :: 0 <= i < |r| ==> !IsSpecial(r[i])
  {
    ReferenceChars(r);
  }

  lemma NoSpecialAppend(a: string, b: string)
    requires forall i :: 0 <= i < |a| ==> !IsSpecial(a[i])
    requires forall i :: 0 <= i < |b| ==> !IsSpecial(b[i])
    ensures forall i :: 0 <= i < |a + b| ==> !IsSpecial((a + b)[i])
  {
  }

  /** The length of the reference at the front of `s`, if one is there. A
      reference ends at its first `;`, so that is the only place to look. */
  function ReferenceAt(s: string): (n: Option<nat>)
    ensures n.Some? ==> 3 <= n.value <= |s| && IsReference(s[..n.value])
  {
    match IndexOf(s, ';')
    case None => None
    case Some(j) =>
      if IsReference(s[..j + 1]) then
        ReferenceChars(s[..j + 1]);
        Some(j + 1)
      else None
  }

  /** `ReferenceAt` finds every reference that begins `s`, and measures it exactly. */
  lemma ReferenceAtFinds(s: string, k: nat)
    requires 0 < k <= |s| && IsReference(s[..k])
    ensures ReferenceAt(s) == Some(k)
  {
    var r := s[..k];
    ReferenceChars(r);
    assert s[k - 1] == r[k - 1] == ';';
    assert forall i :: 0 <= i < k - 1 ==> s[i] == r[i] && s[i] != ';';
    var j := IndexOf(s, ';').value;
    assert s[..j + 1] == r;
  }

  /** A reference followed by anything is recognised as that reference. */
  lemma ReferenceAtPrefix(p: string, t: string)
    requires IsReference(p)
    ensures ReferenceAt(p + t) == Some(|p|)
  {
    assert (p + t)[..|p|] == p;
    ReferenceAtFinds(p + t, |p|);
  }

  /** The markup characters `ENT_QUOTES` replaces besides `&`. */
  predicate IsSpecial(c: char) { c == '"' || c == '\'' || c == '<' || c == '>' }

  lemma ApostropheReference()
    ensures IsDecimalReference("&#039;") && CodePoint("&#039;") == 39
  {
    assert "&#039;"[2..5] == "039";
    assert "039"[..2] == "03" && "03"[..1] == "0" && "0"[..0] == "";
  }

  /** htmlentities' table on ASCII, for every character but `&`. */
  function EscapeChar(c: char): (r: string)
    requires c != '&'
    ensures IsSpecial(c) ==> IsReference(r)
    ensures !IsSpecial(c) ==> r == [c]
  {
    match c
    case '"' => "&quot;"
    case '\'' => ApostropheReference(); "&#039;"
    case '<' => "&lt;"
    case '>' => "&gt;"
    case _ => [c]
  }

  lemma EscapeCharNoSpecial(c: char)
    requires c != '&'
    ensures forall i :: 0 <= i < |EscapeChar(c)| ==> !IsSpecial(EscapeChar(c)[i])
  {
    if IsSpecial(c) {
      ReferenceNoSpecial(EscapeChar(c));
    }
  }

  /** `HTML::entities`. Characters outside `& " ' < >` are copied. */
  function Entities(s: string): (r: string)
    ensures forall i :: 0 <= i < |r| ==> !IsSpecial(r[i])
    decreases |s|
  {
    if s == [] then ""
    else if s[0] == '&' then
      match ReferenceAt(s)
      case Some(n) =>
        ReferenceNoSpecial(s[..n]);
        NoSpecialAppend(s[..n], Entities(s[n..]));
        s[..n] + Entities(s[n..])
      case None =>
        assert forall i :: 0 <= i < |"&amp;"| ==> !IsSpecial("&amp;"[i]);
        NoSpecialAppend("&amp;", Entities(s[1..]));
        "&amp;" + Entities(s[1..])
    else
      var e := EscapeChar(s[0]);
      EscapeCharNoSpecial(s[0]);
      NoSpecialAppend(e, Entities(s[1..]));
      e + Entities(s[1..])
  }

  /** Every `&` in `s` begins a reference. */
  predicate AmpersandsBeginReferences(s: string)
  {
    forall i :: 0 <= i < |s| && s[i] == '&' ==> ReferenceAt(s[i..]).Some?
  }

  /** Text that escaping leaves alone: no markup character, and every `&`
      already begins a reference. */
  predicate IsEscaped(s: string)
  {
    (forall i :: 0 <= i < |s| ==> !IsSpecial(s[i])) && AmpersandsBeginReferences(s)
  }

  /** Putting a reference, or one character other than `&`, in front keeps
      every `&` at the start of a reference. */
  lemma AmpersandsPrefix(piece: string, t: string)
    requires IsReference(piece) || (|piece| == 1 && piece[0] != '&')
    requires AmpersandsBeginReferences(t)
    ensures AmpersandsBeginReferences(piece + t)
  {
    var r := piece + t;
    if IsReference(piece) {
      ReferenceChars(piece);
      ReferenceAtPrefix(piece, t);
    }
    forall i | 0 <= i < |r| && r[i] == '&'
      ensures ReferenceAt(r[i..]).Some?
    {
      if i >= |piece| {
        assert r[i..] == t[i - |piece|..];
      }
    }
  }

  lemma EntitiesReferencePrefix(p: string, t: string)
    requires IsReference(p)
    ensures Entities(p + t) == p + Entities(t)
  {
    ReferenceAtPrefix(p, t);
    assert (p + t)[..|p|] == p && (p + t)[|p|..] == t;
  }

  lemma EntitiesCharPrefix(c: char, t: string)
    requires c != '&'
    ensures Entities([c] + t) == EscapeChar(c) + Entities(t)
  {
    assert ([c] + t)[1..] == t;
  }

  /** What escaping emits is escaped: every `&` in the output begins a reference. */
  lemma {:induction false} EntitiesIsEscaped(s: string)
    ensures IsEscaped(Entities(s))
    decreases |s|
  {
    if s != [] {
      if s[0] == '&' {
        match ReferenceAt(s) {
          case Some(n) =>
            EntitiesIsEscaped(s[n..]);
            AmpersandsPrefix(s[..n], Entities(s[n..]));
          case None =>
            EntitiesIsEscaped(s[1..]);
            AmpersandsPrefix("&amp;", Entities(s[1..]));
        }
      } else {
        EntitiesIsEscaped(s[1..]);
        AmpersandsPrefix(EscapeChar(s[0]), Entities(s[1..]));
      }
    }
  }

  /** Escaped text is a fixed point of escaping. */
  lemma {:induction false} EntitiesFixesEscaped(s: string)
    requires IsEscaped(s)
    ensures Entities(s) == s
    decreases |s|
  {
    if s != [] {
      var k := if s[0] == '&' then ReferenceAt(s).value else 1;
      assert s[0] == '&' ==> ReferenceAt(s[0..]).Some?;
      forall i | 0 <= i < |s[k..]|
        ensures !IsSpecial(s[k..][i])
        ensures s[k..][i] == '&' ==> ReferenceAt(s[k..][i..]).Some?
      {
        assert s[k..][i] == s[k + i];
        assert s[k..][i..] == s[k + i..];
      }
      EntitiesFixesEscaped(s[k..]);
      assert s == s[..k] + s[k..];
    }
  }

  /** Text with no `&` and no markup character. */
  predicate IsPlain(s: string)
  {
    s == [] || (s[0] != '&' && !IsSpecial(s[0]) && IsPlain(s[1..]))
  }

  /** Letters and digits are plain text. */
  lemma {:induction false} AlnumIsPlain(s: string)
    requires forall i :: 0 <= i < |s| ==> IsAlnum(s[i])
    ensures IsPlain(s)
  {
    if s != [] {
      AlnumIsPlain(s[1..]);
    }
  }

  /** A word of letters and digits passes through escaping unchanged. */
  lemma EntitiesAlnum(s: string)
    requires forall i :: 0 <= i < |s| ==> IsAlnum(s[i])
    ensures Entities(s) == s
  {
    AlnumIsPlain(s);
    EntitiesPlain(s);
  }

  /** Plain text passes through escaping unchanged. */
  lemma {:induction false} EntitiesPlain(s: string)
    requires IsPlain(s)
    ensures Entities(s) == s
    decreases |s|
  {
    if s != [] {
      EntitiesPlain(s[1..]);
      assert s == [s[0]] + s[1..];
    }
  }

  /** `Entities(s) == s` exactly when `s` is already escaped. */
  lemma EntitiesFixedPoints(s: string)
    ensures Entities(s) == s <==> IsEscaped(s)
  {
    EntitiesIsEscaped(s);
    if IsEscaped(s) {
      EntitiesFixesEscaped(s);
    }
  }

  /** Escaping twice is escaping once: existing references are never re-encoded. */
  lemma EntitiesIdempotent(s: string)
    ensures Entities(Entities(s)) == Entities(s)
  {
    EntitiesIsEscaped(s);
    EntitiesFixesEscaped(Entities(s));
  }

  /** The character a reference decodes to under `html_entity_decode` with
      `ENT_QUOTES`, where that character is ASCII: the four named entities of
      HTML 4.01 with ASCII values, and numeric references to tab, line feed,
      carriage return or a printable character. */
  function DecodeReference(r: string): Option<char>
    requires IsReference(r)
  {
    if IsNamedReference(r) then
      var name := r[1..|r| - 1];
      if name == "amp" then Some('&')
      else if name == "lt" then Some('<')
      else if name == "gt" then Some('>')
      else if name == "quot" then Some('"')
      else None
    else
      var cp := CodePoint(r);
      if cp == 9 || cp == 10 || cp == 13 || 32 <= cp <= 126 then Some(cp as char) else None
  }

  /** `HTML::decode`, on references with ASCII values; any other text,
      including a reference this model does not decode, is copied. */
  function Decode(s: string): string
    decreases |s|
  {
    if s == [] then ""
    else if s[0] == '&' && ReferenceAt(s).Some? && DecodeReference(s[..ReferenceAt(s).value]).Some? then
      var n := ReferenceAt(s).value;
      [DecodeReference(s[..n]).value] + Decode(s[n..])
    else [s[0]] + Decode(s[1..])
  }

  lemma DecodeReferencePrefix(p: string, t: string)
    requires IsReference(p) && DecodeReference(p).Some?
    ensures Decode(p + t) == [DecodeReference(p).value] + Decode(t)
  {
    ReferenceAtPrefix(p, t);
    assert (p + t)[..|p|] == p && (p + t)[|p|..] == t;
  }

  lemma DecodeNamed(p: string, name: string, c: char)
    requires p == "&" + name + ";" && |name| > 0 && forall i :: 0 <= i < |name| ==> IsAlnum(name[i])
    requires (name, c) in {("amp", '&'), ("lt", '<'), ("gt", '>'), ("quot", '"')}
    ensures IsReference(p) && DecodeReference(p) == Some(c)
  {
    assert p[1..|p| - 1] == name;
  }

  /** What escaping produces for one character decodes back to it. */
  lemma DecodeEscapeChar(c: char, t: string)
    requires c != '&'
    ensures Decode(EscapeChar(c) + t) == [c] + Decode(t)
  {
    var e := EscapeChar(c);
    if c == '\'' {
      ApostropheReference();
      assert DecodeReference(e) == Some(c);
    } else if c == '"' {
      DecodeNamed(e, "quot", c);
    } else if c == '<' {
      DecodeNamed(e, "lt", c);
    } else if c == '>' {
      DecodeNamed(e, "gt", c);
    } else {
      assert ([c] + t)[1..] == t;
    }
    if IsSpecial(c) {
      DecodeReferencePrefix(e, t);
    }
  }

  /** No `&` in `s` begins a reference. */
  predicate NoReferences(s: string)
  {
    forall i :: 0 <= i < |s| && s[i] == '&' ==> ReferenceAt(s[i..]).None?
  }

  /** Decoding undoes escaping on text that holds no character reference. */
  lemma {:induction false} DecodeEntities(s: string)
    requires NoReferences(s)
    ensures Decode(Entities(s)) == s
    decreases |s|
  {
    if s != [] {
      NoReferencesTail(s);
      DecodeEntities(s[1..]);
      DecodeEntitiesStep(s);
    }
  }

  lemma NoReferencesTail(s: string)
    requires NoReferences(s) && s != []
    ensures NoReferences(s[1..])
    ensures s[0] == '&' ==> ReferenceAt(s).None?
  {
    assert ReferenceAt(s[0..]) == ReferenceAt(s);
    forall i | 0 <= i < |s[1..]| && s[1..][i] == '&'
      ensures ReferenceAt(s[1..][i..]).None?
    {
      assert s[1..][i..] == s[i + 1..];
    }
  }

  /** One character of the round trip: a lone `&` or any other character. */
  lemma DecodeEntitiesStep(s: string)
    requires s != [] && (s[0] == '&' ==> ReferenceAt(s).None?)
    requires Decode(Entities(s[1..])) == s[1..]
    ensures Decode(Entities(s)) == s
  {
    assert s == [s[0]] + s[1..];
    DecodeEntitiesCons(s[0], s[1..]);
  }

  lemma DecodeEntitiesCons(c: char, rest: string)
    requires c == '&' ==> ReferenceAt([c] + rest).None?
    requires Decode(Entities(rest)) == rest
    ensures Decode(Entities([c] + rest)) == [c] + rest
  {
    var s := [c] + rest;
    assert s[0] == c && s[1..] == rest;
    if c == '&' {
      assert Entities(s) == "&amp;" + Entities(rest);
      DecodeNamed("&amp;", "amp", '&');
      DecodeReferencePrefix("&amp;", Entities(rest));
    } else {
      EntitiesCharPrefix(c, rest);
      DecodeEscapeChar(c, Entities(rest));
    }
  }

  /** Without the no-reference condition the round trip fails: an escaped
      ampersand in the input is kept, then decoded. */
  lemma DecodeEntitiesNeedsNoReferences()
    ensures Entities("&amp;") == "&amp;"
    ensures Decode(Entities("&amp;")) == "&"
  {
    DecodeNamed("&amp;", "amp", '&');
    assert "&amp;" + "" == "&amp;";
    EntitiesReferencePrefix("&amp;", "");
    DecodeReferencePrefix("&amp;", "");
  }
}

=== FILE: form.dfy ===
/**
 * The form builder. Its only state is the list of label names created so far:
 * a label registers its name, and a later control of the same name takes that
 * name as its `id`. Everything else maps the caller's attribute array to a new
 * one and hands it to the attribute serialiser.
 */
module Form {
  import opened Wrappers
  import opened Text
  import opened PhpArray
  import opened HtmlEntities
  import opened Html

  /** The names every `label` call has registered, in call order. */
  datatype Form = Form(labels: seq<string>)

  /** The framework's URL generator, outside the model: `to(uri, https)` makes
      an absolute URL and `path` is the current request's path. */
  datatype UrlGenerator = UrlGenerator(to: (string, Option<bool>) -> string, path: string)

  /** The hidden field that carries the real request method. */
  const Spoofer := "_method"

  /** The default `accept-charset`. */
  const Encoding := "utf-8"

  function Attr(name: string): Key { Name(name) }

  // ---------------------------------------------------------------- id

  /** `id($name, $attributes)`: an explicit `id` entry wins, even a null one;
      otherwise the element's name when a label registered it; otherwise null. */
  function Id(f: Form, name: Option<string>, attrs: AttrMap): (r: Option<string>)
    ensures HasKey(attrs, Attr("id")) ==> r == Lookup(attrs, Attr("id")).value
    ensures !HasKey(attrs, Attr("id")) ==> (r.Some? <==> name.Some? && name.value in f.labels)
    ensures !HasKey(attrs, Attr("id")) && r.Some? ==> r == name
  {
    match Lookup(attrs, Attr("id"))
    case Some(v) => v
    case None => if name.Some? && name.value in f.labels then name else None
  }

  // ---------------------------------------------------------------- label

  /** `label($name, $value, $attributes)`: registers `name` and renders the
      element; the name goes into `for` as given, the text is escaped. */
  function Label(f: Form, name: string, value: string, attrs: AttrMap := []): (r: (Form, string))
    ensures r.0.labels == f.labels + [name]
    ensures var open := "<label for=\"" + name + "\"";
      |r.1| >= |open| && r.1[..|open|] == open
    ensures var close := ">" + Entities(value) + "</label>";
      |r.1| >= |close| && r.1[|r.1| - |close|..] == close
  {
    var open := "<label for=\"" + name + "\"";
    var close := ">" + Entities(value) + "</label>";
    var t := open + Attributes(attrs) + close;
    assert t[..|open|] == open && t[|t| - |close|..] == close;
    (Form(f.labels + [name]), t)
  }

  /** For plain text, a label is exactly the opening `<label for="name"`, the
      serialised attributes, and the text closed by `</label>`. */
  lemma LabelPlain(f: Form, name: string, value: string, attrs: AttrMap)
    requires IsPlain(value)
    ensures Label(f, name, value, attrs).1
      == "<label for=\"" + name + "\"" + Attributes(attrs) + ">" + value + "</label>"
  {
    EntitiesPlain(value);
    var open := "<label for=\"" + name + "\"";
    assert open + Attributes(attrs) + (">" + value + "</label>")
      == open + Attributes(attrs) + ">" + value + "</label>";
  }

  /** Labels only accumulate: whatever name resolved before still resolves. */
  lemma LabelKeepsLabels(f: Form, name: string, value: string, attrs: AttrMap, other: string)
    requires other in f.labels
    ensures other in Label(f, name, value, attrs).0.labels
  {
  }

  // ---------------------------------------------------------------- input

  /** The name an input ends up with: a set `name` attribute beats the parameter. */
  function InputName(name: Option<string>, attrs: AttrMap): (r: Option<string>)
    ensures IsSet(attrs, Attr("name")) ==> r == Lookup(attrs, Attr("name")).value
    ensures !IsSet(attrs, Attr("name")) ==> r == name
  {
    if IsSet(attrs, Attr("name")) then Lookup(attrs, Attr("name")).value else name
  }

  /** The attributes of `input($type, $name, $value, $attributes)`: the caller's
      array merged with the computed `type`, `name`, `value` and `id`. */
  function InputAttrs(f: Form, kind: string, name: Option<string>, value: Option<string>, attrs: AttrMap): (r: AttrMap)
    ensures Lookup(r, Attr("type")) == Some(Some(kind))
    ensures Lookup(r, Attr("name")) == Some(InputName(name, attrs))
    ensures Lookup(r, Attr("value")) == Some(value)
    ensures Lookup(r, Attr("id")) == Some(Id(f, InputName(name, attrs), attrs))
  {
    var n := InputName(name, attrs);
    var id := Id(f, n, attrs);
    MergeComputed(attrs, Some(kind), n, value, id);
    Merge(attrs, Computed(Some(kind), n, value, id))
  }

  /** `compact('type', 'name', 'value', 'id')`. */
  function Computed(kind: Option<string>, name: Option<string>, value: Option<string>, id: Option<string>): (c: AttrMap)
    ensures UniqueKeys(c)
    ensures Keys(c) == [Attr("type"), Attr("name"), Attr("value"), Attr("id")]
  {
    [(Attr("type"), kind), (Attr("name"), name), (Attr("value"), value), (Attr("id"), id)]
  }

  lemma MergeComputed(attrs: AttrMap, kind: Option<string>, name: Option<string>, value: Option<string>, id: Option<string>)
    ensures var r := Merge(attrs, Computed(kind, name, value, id));
      Lookup(r, Attr("type")) == Some(kind) && Lookup(r, Attr("name")) == Some(name)
      && Lookup(r, Attr("value")) == Some(value) && Lookup(r, Attr("id")) == Some(id)
  {
    var c := Computed(kind, name, value, id);
    MergeComputedKey(attrs, c, Attr("type"), 0);
    MergeComputedKey(attrs, c, Attr("name"), 1);
    MergeComputedKey(attrs, c, Attr("value"), 2);
    MergeComputedKey(attrs, c, Attr("id"), 3);
  }

  lemma MergeComputedKey(attrs: AttrMap, c: AttrMap, k: Key, i: nat)
    requires k.Name? && UniqueKeys(c) && i < |c| && c[i].0 == k
    ensures Lookup(Merge(attrs, c), k) == Some(c[i].1)
  {
    assert Keys(c)[i] == k;
    LookupMergeInto(MergeInto([], attrs), c, k);
    LookupUnique(c, i);
  }

  /** `input(...)`. */
  function Input(f: Form, kind: string, name: Option<string>, value: Option<string> := None, attrs: AttrMap := []): (r: string)
  {
    "<input" + Attributes(InputAttrs(f, kind, name, value, attrs)) + " />"
  }

  /** Every caller attribute other than the four computed ones reaches the
      element unchanged. */
  lemma InputKeepsOtherAttrs(f: Form, kind: string, name: Option<string>, value: Option<string>, attrs: AttrMap, k: string)
    requires UniqueKeys(attrs)
    requires k != "type" && k != "name" && k != "value" && k != "id"
    ensures Lookup(InputAttrs(f, kind, name, value, attrs), Attr(k)) == Lookup(attrs, Attr(k))
  {
    var n := InputName(name, attrs);
    var c := Computed(Some(kind), n, value, Id(f, n, attrs));
    assert Keys(c) == [Attr("type"), Attr("name"), Attr("value"), Attr("id")];
    assert Attr(k) !in Keys(c);
    LookupMerge(attrs, c, Attr(k));
    assert InputAttrs(f, kind, name, value, attrs) == Merge(attrs, c);
  }

  /** `array_merge` keeps the caller's string keys in place, renumbers its
      integer keys from 0, and appends whichever of `type`, `name`, `value`
      and `id` the caller did not have, in that order. */
  lemma InputKeyOrder(f: Form, kind: string, name: Option<string>, value: Option<string>, attrs: AttrMap)
    requires UniqueKeys(attrs)
    ensures Keys(InputAttrs(f, kind, name, value, attrs))
      == Renumbered(Keys(attrs), 0) + Fresh(Keys(attrs), [Attr("type"), Attr("name"), Attr("value"), Attr("id")])
  {
    var n := InputName(name, attrs);
    var c := Computed(Some(kind), n, value, Id(f, n, attrs));
    ArrayMergeKeys(attrs, c);
    assert InputAttrs(f, kind, name, value, attrs) == Merge(attrs, c);
  }

  /** A label followed by an input of the same name gives the input that name
      as its id, unless the caller supplied an `id` or a different `name`. */
  lemma LabelThenInput(f: Form, name: string, text: string, labelAttrs: AttrMap, kind: string, value: Option<string>, attrs: AttrMap)
    requires !HasKey(attrs, Attr("id")) && !IsSet(attrs, Attr("name"))
    ensures Lookup(InputAttrs(Label(f, name, text, labelAttrs).0, kind, Some(name), value, attrs), Attr("id")) == Some(Some(name))
  {
  }

  /** Without a label of its name, an input gets no `id` unless given one. */
  lemma InputWithoutLabelHasNoId(f: Form, kind: string, name: string, value: Option<string>, attrs: AttrMap)
    requires !HasKey(attrs, Attr("id")) && !IsSet(attrs, Attr("name")) && name !in f.labels
    ensures Lookup(InputAttrs(f, kind, Some(name), value, attrs), Attr("id")) == Some(None)
  {
  }

  /** `hidden($name, $value, $attributes)`. */
  function Hidden(f: Form, name: string, value: Option<string> := None, attrs: AttrMap := []): (r: string)
  {
    Input(f, "hidden", Some(name), value, attrs)
  }

  // ---------------------------------------------------------------- open

  /** `method($method)`: forms can only send GET or POST. */
  function FormMethod(m: string): (r: string)
    ensures r == "GET" || r == "POST"
    ensures r == "GET" <==> m == "GET"
  {
    if m != "GET" then "POST" else m
  }

  /** `action($action, $https)`: the given URI, or the current path when there
      is none, made absolute and escaped. */
  function Action(url: UrlGenerator, action: Option<string>, https: Option<bool>): (r: string)
    ensures forall i :: 0 <= i < |r| ==> !IsSpecial(r[i])
    ensures action.Some? ==> r == Entities(url.to(action.value, https))
    ensures action.None? ==> r == Entities(url.to(url.path, https))
  {
    Entities(url.to(action.GetOr(url.path), https))
  }

  /** PUT and DELETE travel as POST plus a hidden spoofer field. */
  predicate IsSpoofed(m: string) { m == "PUT" || m == "DELETE" }

  /** `accept-charset` as `open` defaults it: only when the key is absent. */
  function DefaultCharset(m: AttrMap): (r: AttrMap)
    ensures Keys(r) == Keys(m) + Fresh(Keys(m), [Attr("accept-charset")])
  {
    if HasKey(m, Attr("accept-charset")) then m else Set(m, Attr("accept-charset"), Some(Encoding))
  }

  /** The attributes of the `<form>` tag for the upper-cased method `m`. */
  function OpenAttrs(url: UrlGenerator, action: Option<string>, m: string, attrs: AttrMap, https: Option<bool>): (r: AttrMap)
    ensures Lookup(r, Attr("method")) == Some(Some(FormMethod(m)))
    ensures Lookup(r, Attr("action")) == Some(Some(Action(url, action, https)))
    ensures HasKey(attrs, Attr("accept-charset")) ==> Lookup(r, Attr("accept-charset")) == Lookup(attrs, Attr("accept-charset"))
    ensures !HasKey(attrs, Attr("accept-charset")) ==> Lookup(r, Attr("accept-charset")) == Some(Some(Encoding))
  {
    var withMethod := Set(attrs, Attr("method"), Some(FormMethod(m)));
    var withAction := Set(withMethod, Attr("action"), Some(Action(url, action, https)));
    LookupSetOther(withMethod, Attr("action"), Some(Action(url, action, https)), Attr("method"));
    LookupSetOther(attrs, Attr("method"), Some(FormMethod(m)), Attr("accept-charset"));
    LookupSetOther(withMethod, Attr("action"), Some(Action(url, action, https)), Attr("accept-charset"));
    LookupSetOther(withAction, Attr("accept-charset"), Some(Encoding), Attr("method"));
    LookupSetOther(withAction, Attr("accept-charset"), Some(Encoding), Attr("action"));
    DefaultCharset(withAction)
  }

  /** The opening tag `open` emits, before any spoofer field. */
  function FormTag(url: UrlGenerator, action: Option<string>, verb: string, attrs: AttrMap, https: Option<bool>): string
  {
    "<form" + Attributes(OpenAttrs(url, action, Upper(verb), attrs, https)) + ">"
  }

  /** `open($action, $method, $attributes, $https)`: the `<form>` tag, followed
      by a hidden `_method` field exactly when the method is PUT or DELETE. */
  function Open(f: Form, url: UrlGenerator, action: Option<string> := None, verb: string := "POST", attrs: AttrMap := [], https: Option<bool> := None): (r: string)
    ensures var tag := FormTag(url, action, verb, attrs, https);
      |r| >= |tag| && r[..|tag|] == tag
      && (|r| == |tag| <==> !IsSpoofed(Upper(verb)))
      && (IsSpoofed(Upper(verb)) ==> r[|tag|..] == Hidden(f, Spoofer, Some(Upper(verb)), []))
  {
    var m := Upper(verb);
    var tag := FormTag(url, action, verb, attrs, https);
    var spoof := if IsSpoofed(m) then Hidden(f, Spoofer, Some(m), []) else "";
    assert (tag + spoof)[..|tag|] == tag && (tag + spoof)[|tag|..] == spoof;
    tag + spoof
  }

  /** The method attribute is case-insensitive in its input and only ever
      GET or POST in its output. */
  lemma OpenMethodExamples(url: UrlGenerator, attrs: AttrMap)
    ensures Lookup(OpenAttrs(url, None, Upper("get"), attrs, None), Attr("method")) == Some(Some("GET"))
    ensures Lookup(OpenAttrs(url, None, Upper("put"), attrs, None), Attr("method")) == Some(Some("POST"))
    ensures IsSpoofed(Upper("delete")) && !IsSpoofed(Upper("post"))
  {
    assert Upper("get") == "GET";
    assert Upper("put") == "PUT";
    assert Upper("delete") == "DELETE";
    assert Upper("post") == "POST";
  }

  /** `openForFiles(...)`: `open` with a multipart `enctype`. */
  function OpenForFilesAttrs(attrs: AttrMap): (r: AttrMap)
    ensures Lookup(r, Attr("enctype")) == Some(Some("multipart/form-data"))
  {
    Set(attrs, Attr("enctype"), Some("multipart/form-data"))
  }

  function OpenForFiles(f: Form, url: UrlGenerator, action: Option<string> := None, verb: string := "POST", attrs: AttrMap := [], https: Option<bool> := None): (r: string)
  {
    Open(f, url, action, verb, OpenForFilesAttrs(attrs), https)
  }

  /** The multipart encoding survives `open`, which only writes `method`,
      `action` and `accept-charset`. */
  lemma OpenForFilesKeepsEnctype(url: UrlGenerator, action: Option<string>, m: string, attrs: AttrMap, https: Option<bool>)
    ensures Lookup(OpenAttrs(url, action, m, OpenForFilesAttrs(attrs), https), Attr("enctype")) == Some(Some("multipart/form-data"))
  {
    OpenAttrsKeepsOthers(url, action, m, OpenForFilesAttrs(attrs), https, "enctype");
  }

  /** `open` leaves every attribute but `method`, `action` and `accept-charset` alone. */
  lemma OpenAttrsKeepsOthers(url: UrlGenerator, action: Option<string>, m: string, attrs: AttrMap, https: Option<bool>, k: string)
    requires k != "method" && k != "action" && k != "accept-charset"
    ensures Lookup(OpenAttrs(url, action, m, attrs, https), Attr(k)) == Lookup(attrs, Attr(k))
  {
    var withMethod := Set(attrs, Attr("method"), Some(FormMethod(m)));
    var withAction := Set(withMethod, Attr("action"), Some(Action(url, action, https)));
    LookupSetOther(attrs, Attr("method"), Some(FormMethod(m)), Attr(k));
    LookupSetOther(withMethod, Attr("action"), Some(Action(url, action, https)), Attr(k));
    LookupSetOther(withAction, Attr("accept-charset"), Some(Encoding), Attr(k));
  }

  /** `open` assigns `method`, `action` and then `accept-charset`: the
      caller's keys keep their places and the new ones follow in that order. */
  lemma OpenKeyOrder(url: UrlGenerator, action: Option<string>, m: string, attrs: AttrMap, https: Option<bool>)
    ensures Keys(OpenAttrs(url, action, m, attrs, https))
      == Keys(attrs) + Fresh(Keys(attrs), [Attr("method"), Attr("action"), Attr("accept-charset")])
  {
    OpenAttrsSteps(url, action, m, attrs, https);
    assert Fresh(Keys(attrs), []) == [];
    OpenRun(attrs, Keys(attrs), Some(FormMethod(m)), Some(Action(url, action, https)));
  }

  /** Proof helper: `OpenAttrs` as its three assignments. */
  lemma OpenAttrsSteps(url: UrlGenerator, action: Option<string>, m: string, attrs: AttrMap, https: Option<bool>)
    ensures OpenAttrs(url, action, m, attrs, https)
      == DefaultCharset(Set(Set(attrs, Attr("method"), Some(FormMethod(m))), Attr("action"), Some(Action(url, action, https))))
  {
  }

  /** Proof helper: the key order of the three assignments, over any values. */
  lemma OpenRun(x: AttrMap, ks: seq<Key>, u: Option<string>, v: Option<string>)
    requires Keys(x) == ks + Fresh(ks, [])
    ensures Keys(DefaultCharset(Set(Set(x, Attr("method"), u), Attr("action"), v)))
      == ks + Fresh(ks, [Attr("method"), Attr("action"), Attr("accept-charset")])
  {
    AssignStep(x, ks, [], Attr("method"), u, true, [Attr("method")]);
    var y := Set(x, Attr("method"), u);
    AssignStep(y, ks, [Attr("method")], Attr("action"), v, true, [Attr("method"), Attr("action")]);
    CharsetRun(Set(y, Attr("action"), v), ks);
  }

  /** Proof helper: defaulting `accept-charset` completes the run. */
  lemma CharsetRun(z: AttrMap, ks: seq<Key>)
    requires Keys(z) == ks + Fresh(ks, [Attr("method"), Attr("action")])
    ensures Keys(DefaultCharset(z)) == ks + Fresh(ks, [Attr("method"), Attr("action"), Attr("accept-charset")])
  {
    ExtendRun(z, DefaultCharset(z), ks, [Attr("method"), Attr("action")], Attr("accept-charset"),
      [Attr("method"), Attr("action"), Attr("accept-charset")]);
  }

  // ---------------------------------------------------------------- textarea

  /** `if (!isset($m[$k])) $m[$k] = $v;`, as `textarea` defaults `rows` and `cols`. */
  function IssetDefault(m: AttrMap, k: Key, v: string): (r: AttrMap)
    ensures Keys(r) == Keys(m) + Fresh(Keys(m), [k])
    ensures IsSet(m, k) ==> Lookup(r, k) == Lookup(m, k)
    ensures !IsSet(m, k) ==> Lookup(r, k) == Some(Some(v))
  {
    if IsSet(m, k) then m else Set(m, k, Some(v))
  }

  /** The attributes of `textarea($name, $value, $attributes)`. */
  function TextareaAttrs(f: Form, name: string, attrs: AttrMap): (r: AttrMap)
    ensures Lookup(r, Attr("name")) == Some(Some(name))
    ensures Lookup(r, Attr("id")) == Some(Id(f, Some(name), attrs))
    ensures IsSet(attrs, Attr("rows")) ==> Lookup(r, Attr("rows")) == Lookup(attrs, Attr("rows"))
    ensures !IsSet(attrs, Attr("rows")) ==> Lookup(r, Attr("rows")) == Some(Some("10"))
    ensures IsSet(attrs, Attr("cols")) ==> Lookup(r, Attr("cols")) == Lookup(attrs, Attr("cols"))
    ensures !IsSet(attrs, Attr("cols")) ==> Lookup(r, Attr("cols")) == Some(Some("50"))
  {
    var named := Set(attrs, Attr("name"), Some(name));
    LookupSetOther(attrs, Attr("name"), Some(name), Attr("id"));
    var id := Id(f, Some(name), named);
    var withId := Set(named, Attr("id"), id);
    LookupSetOther(named, Attr("id"), id, Attr("name"));
    LookupSetOther(attrs, Attr("name"), Some(name), Attr("rows"));
    LookupSetOther(named, Attr("id"), id, Attr("rows"));
    var withRows := IssetDefault(withId, Attr("rows"), "10");
    LookupSetOther(withId, Attr("rows"), Some("10"), Attr("name"));
    LookupSetOther(withId, Attr("rows"), Some("10"), Attr("id"));
    LookupSetOther(attrs, Attr("name"), Some(name), Attr("cols"));
    LookupSetOther(named, Attr("id"), id, Attr("cols"));
    LookupSetOther(withId, Attr("rows"), Some("10"), Attr("cols"));
    var r := IssetDefault(withRows, Attr("cols"), "50");
    LookupSetOther(withRows, Attr("cols"), Some("50"), Attr("name"));
    LookupSetOther(withRows, Attr("cols"), Some("50"), Attr("id"));
    LookupSetOther(withRows, Attr("cols"), Some("50"), Attr("rows"));
    r
  }

  /** `textarea` writes only `name`, `id`, `rows` and `cols`; every other
      caller attribute reaches the element unchanged. */
  lemma TextareaKeepsOtherAttrs(f: Form, name: string, attrs: AttrMap, k: string)
    requires k != "name" && k != "id" && k != "rows" && k != "cols"
    ensures Lookup(TextareaAttrs(f, name, attrs), Attr(k)) == Lookup(attrs, Attr(k))
  {
    var named := Set(attrs, Attr("name"), Some(name));
    var id := Id(f, Some(name), named);
    var withId := Set(named, Attr("id"), id);
    var withRows := IssetDefault(withId, Attr("rows"), "10");
    LookupSetOther(attrs, Attr("name"), Some(name), Attr(k));
    LookupSetOther(named, Attr("id"), id, Attr(k));
    LookupSetOther(withId, Attr("rows"), Some("10"), Attr(k));
    LookupSetOther(withRows, Attr("cols"), Some("50"), Attr(k));
  }

  /** `textarea` assigns `name`, `id`, then `rows` and `cols` when unset: the
      caller's keys keep their places and the new ones follow in that order. */
  lemma TextareaKeyOrder(f: Form, name: string, attrs: AttrMap)
    ensures Keys(TextareaAttrs(f, name, attrs))
      == Keys(attrs) + Fresh(Keys(attrs), [Attr("name"), Attr("id"), Attr("rows"), Attr("cols")])
  {
    var id := Id(f, Some(name), Set(attrs, Attr("name"), Some(name)));
    TextareaAttrsSteps(f, name, attrs);
    assert Fresh(Keys(attrs), []) == [];
    TextareaRun(attrs, Keys(attrs), Some(name), id);
  }

  /** Proof helper: `TextareaAttrs` as its four assignments. */
  lemma TextareaAttrsSteps(f: Form, name: string, attrs: AttrMap)
    ensures var withId := Set(Set(attrs, Attr("name"), Some(name)), Attr("id"), Id(f, Some(name), Set(attrs, Attr("name"), Some(name))));
      TextareaAttrs(f, name, attrs) == IssetDefault(IssetDefault(withId, Attr("rows"), "10"), Attr("cols"), "50")
  {
  }

  /** Proof helper: the key order of the four assignments, over any values. */
  lemma TextareaRun(x: AttrMap, ks: seq<Key>, u: Option<string>, v: Option<string>)
    requires Keys(x) == ks + Fresh(ks, [])
    ensures Keys(IssetDefault(IssetDefault(Set(Set(x, Attr("name"), u), Attr("id"), v), Attr("rows"), "10"), Attr("cols"), "50"))
      == ks + Fresh(ks, [Attr("name"), Attr("id"), Attr("rows"), Attr("cols")])
  {
    AssignStep(x, ks, [], Attr("name"), u, true, [Attr("name")]);
    var y := Set(x, Attr("name"), u);
    AssignStep(y, ks, [Attr("name")], Attr("id"), v, true, [Attr("name"), Attr("id")]);
    var z := Set(y, Attr("id"), v);
    RowsRun(z, ks);
    ColsRun(IssetDefault(z, Attr("rows"), "10"), ks);
  }

  /** Proof helper: defaulting `rows` continues the run. */
  lemma RowsRun(z: AttrMap, ks: seq<Key>)
    requires Keys(z) == ks + Fresh(ks, [Attr("name"), Attr("id")])
    ensures Keys(IssetDefault(z, Attr("rows"), "10")) == ks + Fresh(ks, [Attr("name"), Attr("id"), Attr("rows")])
  {
    ExtendRun(z, IssetDefault(z, Attr("rows"), "10"), ks, [Attr("name"), Attr("id")], Attr("rows"), [Attr("name"), Attr("id"), Attr("rows")]);
  }

  /** Proof helper: defaulting `cols` completes the run. */
  lemma ColsRun(w: AttrMap, ks: seq<Key>)
    requires Keys(w) == ks + Fresh(ks, [Attr("name"), Attr("id"), Attr("rows")])
    ensures Keys(IssetDefault(w, Attr("cols"), "50")) == ks + Fresh(ks, [Attr("name"), Attr("id"), Attr("rows"), Attr("cols")])
  {
    ExtendRun(w, IssetDefault(w, Attr("cols"), "50"), ks, [Attr("name"), Attr("id"), Attr("rows")], Attr("cols"), [Attr("name"), Attr("id"), Attr("rows"), Attr("cols")]);
  }

  /** `textarea(...)`: the content is escaped. */
  function Textarea(f: Form, name: string, value: string := "", attrs: AttrMap := []): (r: string)
  {
    "<textarea" + Attributes(TextareaAttrs(f, name, attrs)) + ">" + Entities(value) + "</textarea>"
  }

  // ---------------------------------------------------------------- select

  /** The `selected` argument: one value (null is the empty string once cast)
      or an array of values. */
  datatype Selection = One(value: string) | Many(values: seq<string>)

  /** An entry of a select's options: a display text, or a group of options. */
  datatype Choice = Display(text: string) | Group(options: seq<(Key, string)>)

  /** Whether the option whose key is `value` is selected. */
  predicate IsSelected(value: Key, selected: Selection)
  {
    match selected
    case One(v) => KeyText(value) == v
    case Many(vs) => KeyText(value) in vs
  }

  /** The attributes of `option($value, $display, $selected)`. */
  function OptionAttrs(value: Key, selected: Selection): (r: AttrMap)
    ensures Lookup(r, Attr("value")) == Some(Some(Entities(KeyText(value))))
    ensures Lookup(r, Attr("selected")).Some?
    ensures Lookup(r, Attr("selected")).value.Some? <==> IsSelected(value, selected)
  {
    [(Attr("value"), Some(Entities(KeyText(value)))), (Attr("selected"), if IsSelected(value, selected) then Some("selected") else None)]
  }

  /** `option(...)`. */
  function OptionHtml(value: Key, display: string, selected: Selection): (r: string)
  {
    "<option" + Attributes(OptionAttrs(value, selected)) + ">" + Entities(display) + "</option>"
  }

  /** An option prints its escaped value once (escaping twice changes nothing)
      and carries `selected="selected"` exactly when it is selected. */
  lemma OptionShape(value: Key, display: string, selected: Selection)
    ensures OptionHtml(value, display, selected)
      == "<option" + (" " + "value" + "=\"" + Entities(KeyText(value)) + "\"")
         + (if IsSelected(value, selected) then " " + "selected" + "=\"" + "selected" + "\"" else "")
         + ">" + Entities(display) + "</option>"
  {
    var t := KeyText(value);
    var a := OptionAttrs(value, selected);
    var va := Attributes([a[0]]);
    var sa := Attributes([a[1]]);
    assert a == [a[0]] + [a[1]];
    AttributesAppend([a[0]], [a[1]]);
    assert Attributes(a) == va + sa;
    ValueAttribute(t);
    SelectedAttribute(IsSelected(value, selected));
    AppendRegroup2("<option", va, sa, ">", Entities(display), "</option>");
  }

  /** The value attribute prints the value escaped once: escaping an escaped
      string again changes nothing. */
  lemma ValueAttribute(t: string)
    ensures Attributes([(Attr("value"), Some(Entities(t)))]) == " " + "value" + "=\"" + Entities(t) + "\""
  {
    NoDigits("value");
    NamedAttributeSingle("value", Entities(t));
    EntitiesIdempotent(t);
  }

  lemma SelectedAttribute(b: bool)
    ensures Attributes([(Attr("selected"), if b then Some("selected") else None)])
      == if b then " " + "selected" + "=\"" + "selected" + "\"" else ""
  {
    if b {
      NoDigits("selected");
      NamedAttributeSingle("selected", "selected");
      EntitiesAlnum("selected");
    } else {
      AttributesSingle(Attr("selected"), None);
    }
  }

  lemma NoDigits(s: string)
    requires forall i :: 0 <= i < |s| ==> IsLetter(s[i])
    ensures forall i :: 0 <= i < |s| ==> !IsDigit(s[i])
  {
  }

  /** Helper of `optgroup`: the options of a list, in order. */
  function Options(options: seq<(Key, string)>, selected: Selection): (r: seq<string>)
    ensures |r| == |options|
    ensures forall i :: 0 <= i < |options| ==> r[i] == OptionHtml(options[i].0, options[i].1, selected)
  {
    seq(|options|, i requires 0 <= i < |options| => OptionHtml(options[i].0, options[i].1, selected))
  }

  /** `optgroup($options, $label, $selected)`: the label is escaped. */
  function Optgroup(options: seq<(Key, string)>, caption: Key, selected: Selection): (r: string)
  {
    "<optgroup label=\"" + Entities(KeyText(caption)) + "\">" + Concat(Options(options, selected)) + "</optgroup>"
  }

  /** One entry of a select: a group renders as an `optgroup` labelled with its key. */
  function ChoiceHtml(e: (Key, Choice), selected: Selection): string
  {
    match e.1
    case Display(text) => OptionHtml(e.0, text, selected)
    case Group(options) => Optgroup(options, e.0, selected)
  }

  function ChoiceRenderer(selected: Selection): ((Key, Choice)) -> string
  {
    e => ChoiceHtml(e, selected)
  }

  /** Helper of `Select`: the rendered entries, in order. */
  function Choices(options: seq<(Key, Choice)>, selected: Selection): (r: seq<string>)
    ensures |r| == |options|
    ensures forall i :: 0 <= i < |options| ==> r[i] == ChoiceHtml(options[i], selected)
  {
    Map(ChoiceRenderer(selected), options)
  }

  /** The attributes of `select($name, $options, $selected, $attributes)`. */
  function SelectAttrs(f: Form, name: string, attrs: AttrMap): (r: AttrMap)
    ensures Lookup(r, Attr("id")) == Some(Id(f, Some(name), attrs))
    ensures Lookup(r, Attr("name")) == Some(Some(name))
  {
    var withId := Set(attrs, Attr("id"), Id(f, Some(name), attrs));
    LookupSetOther(withId, Attr("name"), Some(name), Attr("id"));
    Set(withId, Attr("name"), Some(name))
  }

  /** `select` writes only `id` and `name`. */
  lemma SelectKeepsOtherAttrs(f: Form, name: string, attrs: AttrMap, k: string)
    requires k != "id" && k != "name"
    ensures Lookup(SelectAttrs(f, name, attrs), Attr(k)) == Lookup(attrs, Attr(k))
  {
    var withId := Set(attrs, Attr("id"), Id(f, Some(name), attrs));
    LookupSetOther(attrs, Attr("id"), Id(f, Some(name), attrs), Attr(k));
    LookupSetOther(withId, Attr("name"), Some(name), Attr(k));
  }

  /** `select` assigns `id` and then `name`: the caller's keys keep their
      places and the new ones follow in that order. */
  lemma SelectKeyOrder(f: Form, name: string, attrs: AttrMap)
    ensures Keys(SelectAttrs(f, name, attrs)) == Keys(attrs) + Fresh(Keys(attrs), [Attr("id"), Attr("name")])
  {
    assert Fresh(Keys(attrs), []) == [];
    SelectRun(attrs, Keys(attrs), Id(f, Some(name), attrs), Some(name));
  }

  /** Proof helper: the key order of the two assignments, over any values. */
  lemma SelectRun(x: AttrMap, ks: seq<Key>, u: Option<string>, v: Option<string>)
    requires Keys(x) == ks + Fresh(ks, [])
    ensures Keys(Set(Set(x, Attr("id"), u), Attr("name"), v)) == ks + Fresh(ks, [Attr("id"), Attr("name")])
  {
    AssignStep(x, ks, [], Attr("id"), u, true, [Attr("id")]);
    AssignStep(Set(x, Attr("id"), u), ks, [Attr("id")], Attr("name"), v, true, [Attr("id"), Attr("name")]);
  }

  /** `select(...)`. */
  function Select(f: Form, name: string, options: seq<(Key, Choice)> := [], selected: Selection := One(""), attrs: AttrMap := []): (r: string)
  {
    "<select" + Attributes(SelectAttrs(f, name, attrs)) + ">" + Concat(Choices(options, selected)) + "</select>"
  }

  /** The options appear in the order given: splitting the options splits the
      markup inside the `<select>` element. */
  lemma SelectAppend(f: Form, name: string, a: seq<(Key, Choice)>, b: seq<(Key, Choice)>, selected: Selection, attrs: AttrMap)
    ensures var head := "<select" + Attributes(SelectAttrs(f, name, attrs)) + ">";
      Select(f, name, a + b, selected, attrs)
      == head + Concat(Choices(a, selected)) + Concat(Choices(b, selected)) + "</select>"
  {
    var head := "<select" + Attributes(SelectAttrs(f, name, attrs)) + ">";
    ChoicesAppend(a, b, selected);
    ConcatAppend(Choices(a, selected), Choices(b, selected));
    AppendRegroup(head, Concat(Choices(a, selected)), Concat(Choices(b, selected)), "</select>");
  }

  lemma ChoicesAppend(a: seq<(Key, Choice)>, b: seq<(Key, Choice)>, selected: Selection)
    ensures Choices(a + b, selected) == Choices(a, selected) + Choices(b, selected)
  {
    MapAppend(ChoiceRenderer(selected), a, b);
  }

  /** Helper fact: with an array of selected values, the selected options are
      exactly the ones whose value is in the array. */
  lemma SelectedMembers(value: Key, vs: seq<string>)
    ensures IsSelected(value, Many(vs)) <==> exists i :: 0 <= i < |vs| && vs[i] == KeyText(value)
  {
  }

  // ---------------------------------------------------------------- checkable

  /** The attributes `checkable` hands to `input`: `checked` when asked for,
      and the id resolved from the name parameter. */
  function CheckableAttrs(f: Form, name: string, checked: bool, attrs: AttrMap): (r: AttrMap)
    ensures checked ==> Lookup(r, Attr("checked")) == Some(Some("checked"))
    ensures !checked ==> Lookup(r, Attr("checked")) == Lookup(attrs, Attr("checked"))
    ensures HasKey(r, Attr("id"))
    ensures Lookup(r, Attr("id")) == Some(Id(f, Some(name), attrs))
  {
    var a := if checked then Set(attrs, Attr("checked"), Some("checked")) else attrs;
    LookupSetOther(attrs, Attr("checked"), Some("checked"), Attr("id"));
    var id := Id(f, Some(name), a);
    LookupSetOther(a, Attr("id"), id, Attr("checked"));
    Set(a, Attr("id"), id)
  }

  /** `checkable` writes only `checked` and `id` before handing over to `input`. */
  lemma CheckableKeepsOtherAttrs(f: Form, name: string, checked: bool, attrs: AttrMap, k: string)
    requires k != "checked" && k != "id"
    ensures Lookup(CheckableAttrs(f, name, checked, attrs), Attr(k)) == Lookup(attrs, Attr(k))
  {
    var a := if checked then Set(attrs, Attr("checked"), Some("checked")) else attrs;
    if checked {
      LookupSetOther(attrs, Attr("checked"), Some("checked"), Attr(k));
    }
    LookupSetOther(a, Attr("id"), Id(f, Some(name), a), Attr(k));
  }

  /** `checkable` assigns `checked` (when asked for) and then `id`: the
      caller's keys keep their places and the new ones follow in that order. */
  lemma CheckableKeyOrder(f: Form, name: string, checked: bool, attrs: AttrMap)
    ensures Keys(CheckableAttrs(f, name, checked, attrs))
      == Keys(attrs) + Fresh(Keys(attrs), (if checked then [Attr("checked")] else []) + [Attr("id")])
  {
    var ks := Keys(attrs);
    var added := if checked then [Attr("checked")] else [];
    var a := if checked then Set(attrs, Attr("checked"), Some("checked")) else attrs;
    assert ks + Fresh(ks, []) == ks;
    if checked {
      AssignKeys(attrs, ks, [], Attr("checked"), Some("checked"));
      assert [] + [Attr("checked")] == added;
    }
    AssignKeys(a, ks, added, Attr("id"), Id(f, Some(name), a));
  }

  /** `checkable($type, $name, $value, $checked, $attributes)`. */
  function Checkable(f: Form, kind: string, name: string, value: Option<string>, checked: bool, attrs: AttrMap): (r: string)
  {
    Input(f, kind, Some(name), value, CheckableAttrs(f, name, checked, attrs))
  }

  /** `checkbox($name, $value = 1, ...)`. */
  function Checkbox(f: Form, name: string, value: Option<string> := Some("1"), checked: bool := false, attrs: AttrMap := []): (r: string)
  {
    Checkable(f, "checkbox", name, value, checked, attrs)
  }

  /** `radio($name, $value = null, ...)`: a missing value defaults to the name. */
  function RadioValue(name: string, value: Option<string>): (r: Option<string>)
    ensures r.Some?
    ensures value.Some? ==> r == value
    ensures value.None? ==> r == Some(name)
  {
    if value.None? then Some(name) else value
  }

  function Radio(f: Form, name: string, value: Option<string> := None, checked: bool := false, attrs: AttrMap := []): (r: string)
  {
    Checkable(f, "radio", name, RadioValue(name, value), checked, attrs)
  }

  /** What a checkable input's attribute array holds: its type, its value,
      `checked` when asked for, and the id the name parameter resolves to
      (a caller-supplied `id`, else the name if a label registered it), and
      the caller's `name` if set, else the name parameter. */
  lemma CheckableInputAttrs(f: Form, kind: string, name: string, value: Option<string>, checked: bool, attrs: AttrMap)
    requires UniqueKeys(attrs)
    ensures var r := InputAttrs(f, kind, Some(name), value, CheckableAttrs(f, name, checked, attrs));
      Lookup(r, Attr("type")) == Some(Some(kind))
      && Lookup(r, Attr("name")) == Some(InputName(Some(name), attrs))
      && Lookup(r, Attr("value")) == Some(value)
      && Lookup(r, Attr("id")) == Some(Id(f, Some(name), attrs))
      && (checked ==> Lookup(r, Attr("checked")) == Some(Some("checked")))
  {
    var a := if checked then Set(attrs, Attr("checked"), Some("checked")) else attrs;
    if checked {
      SetUnique(attrs, Attr("checked"), Some("checked"));
    }
    SetUnique(a, Attr("id"), Id(f, Some(name), a));
    CheckableKeepsOtherAttrs(f, name, checked, attrs, "name");
    InputOverAttrs(f, kind, name, value, CheckableAttrs(f, name, checked, attrs), attrs);
  }

  /** Proof helper: `input` over an array that agrees with `attrs` on `name`
      and already holds the id `attrs` resolves to. */
  lemma InputOverAttrs(f: Form, kind: string, name: string, value: Option<string>, c: AttrMap, attrs: AttrMap)
    requires UniqueKeys(c)
    requires Lookup(c, Attr("name")) == Lookup(attrs, Attr("name"))
    requires Lookup(c, Attr("id")) == Some(Id(f, Some(name), attrs))
    ensures var r := InputAttrs(f, kind, Some(name), value, c);
      Lookup(r, Attr("type")) == Some(Some(kind))
      && Lookup(r, Attr("name")) == Some(InputName(Some(name), attrs))
      && Lookup(r, Attr("value")) == Some(value)
      && Lookup(r, Attr("id")) == Some(Id(f, Some(name), attrs))
      && Lookup(r, Attr("checked")) == Lookup(c, Attr("checked"))
  {
    InputKeepsOtherAttrs(f, kind, Some(name), value, c, "checked");
    assert InputName(Some(name), c) == InputName(Some(name), attrs);
  }
}

=== FILE: html.dfy ===
/** The markup builders of the HTML helper: the attribute serialiser, the
    nested list renderer behind `ol`/`ul`, the definition list and the tag
    wrapper. Every piece of user text passes through `Entities` except the
    labels of string-keyed nested lists, which the renderer copies raw. */
module Html {
  import opened Wrappers
  import opened Text
  import opened PhpArray
  import opened HtmlEntities

  /** The name an attribute is printed under: under a numeric key the value
      names itself, so `[0 => 'required']` prints `required="required"`. */
  function AttributeName(k: Key, v: string): string
  {
    if IsNumericKey(k) then v else k.name
  }

  /** What one entry adds to the list of fragments: nothing for a null value. */
  function Fragment(e: (Key, Option<string>)): seq<string>
  {
    match e.1
    case None => []
    case Some(v) => [AttributeName(e.0, v) + "=\"" + Entities(v) + "\""]
  }

  /** The fragments of all entries, in entry order. */
  function Fragments(m: AttrMap): seq<string>
  {
    if m == [] then [] else Fragment(m[0]) + Fragments(m[1..])
  }

  lemma {:induction false} FragmentsEmpty(m: AttrMap)
    ensures Fragments(m) == [] <==> forall i :: 0 <= i < |m| ==> m[i].1.None?
  {
    if m != [] {
      FragmentsEmpty(m[1..]);
      assert forall i :: 1 <= i < |m| ==> m[i] == m[1..][i - 1];
    }
  }

  /** `HTML::attributes`: a leading space and the fragments joined by single
      spaces, or nothing at all when every value is null. */
  function Attributes(m: AttrMap): (r: string)
    ensures r == "" <==> forall i :: 0 <= i < |m| ==> m[i].1.None?
    ensures r != "" ==> r[0] == ' '
  {
    FragmentsEmpty(m);
    Spaced(Fragments(m))
  }

  /** `count($html) > 0 ? ' '.implode(' ', $html) : ''`. */
  function Spaced(html: seq<string>): (r: string)
    ensures r == "" <==> html == []
    ensures r != "" ==> r[0] == ' '
  {
    if |html| > 0 then " " + Join(html, " ") else ""
  }

  lemma SpacedAppend(x: seq<string>, y: seq<string>)
    ensures Spaced(x + y) == Spaced(x) + Spaced(y)
  {
    if x != [] && y != [] {
      JoinAppend(x, y, " ");
    } else if x == [] {
      assert x + y == y;
    } else {
      assert x + y == x;
    }
  }

  lemma {:induction false} FragmentsAppend(a: AttrMap, b: AttrMap)
    ensures Fragments(a + b) == Fragments(a) + Fragments(b)
  {
    if a == [] {
      assert a + b == b;
    } else {
      assert (a + b)[0] == a[0] && (a + b)[1..] == a[1..] + b;
      FragmentsAppend(a[1..], b);
    }
  }

  /** Serialising two arrays one after the other is serialising their
      concatenation: entries are emitted in order, each on its own. */
  lemma AttributesAppend(a: AttrMap, b: AttrMap)
    ensures Attributes(a + b) == Attributes(a) + Attributes(b)
  {
    FragmentsAppend(a, b);
    SpacedAppend(Fragments(a), Fragments(b));
  }

  /** One entry on its own: ` name="escaped value"`, or nothing for null. */
  lemma AttributesSingle(k: Key, v: Option<string>)
    ensures v.None? ==> Attributes([(k, v)]) == ""
    ensures v.Some? ==> Attributes([(k, v)]) == " " + AttributeName(k, v.value) + "=\"" + Entities(v.value) + "\""
  {
    assert [(k, v)][0] == (k, v) && [(k, v)][1..] == [];
    assert Fragments([(k, v)]) == Fragment((k, v));
  }

  /** A null entry anywhere contributes nothing, not even `key=""`. */
  lemma AttributesNullOmitted(a: AttrMap, k: Key, b: AttrMap)
    ensures Attributes(a + [(k, None)] + b) == Attributes(a + b)
  {
    AttributesAppend(a + [(k, None)], b);
    AttributesAppend(a, [(k, None)]);
    AttributesSingle(k, None);
    AttributesAppend(a, b);
  }

  /** An attribute value cannot close its quotes: the escaped value holds no `"`. */
  lemma AttributeValueStaysQuoted(v: string)
    ensures '"' !in Entities(v)
  {
    var e := Entities(v);
    assert forall i :: 0 <= i < |e| ==> !IsSpecial(e[i]);
  }

  /** A string key without digits is never numeric: it is printed as itself. */
  lemma NameWithoutDigitsIsPrinted(name: string, v: string)
    requires forall i :: 0 <= i < |name| ==> !IsDigit(name[i])
    ensures AttributeName(Name(name), v) == name
  {
    if IsNumericString(name) {
      NumericStringHasDigit(name);
    }
  }

  /** An entry under a string key without digits prints as ` name="escaped value"`. */
  lemma NamedAttributeSingle(name: string, v: string)
    requires forall i :: 0 <= i < |name| ==> !IsDigit(name[i])
    ensures Attributes([(Name(name), Some(v))]) == " " + name + "=\"" + Entities(v) + "\""
  {
    NameWithoutDigitsIsPrinted(name, v);
    AttributesSingle(Name(name), Some(v));
  }

  /** An entry under an integer key is named by its own value. */
  lemma IndexedAttributeSingle(i: nat, v: string)
    ensures Attributes([(Index(i), Some(v))]) == " " + v + "=\"" + Entities(v) + "\""
  {
    AttributesSingle(Index(i), Some(v));
  }

  /** A plain value under an integer key names itself: `[0 => 'required']`
      serialises to ` required="required"`. */
  lemma AttributesBoolean(i: nat, v: string)
    requires IsPlain(v)
    ensures Attributes([(Index(i), Some(v))]) == " " + v + "=\"" + v + "\""
  {
    EntitiesPlain(v);
    IndexedAttributeSingle(i, v);
  }

  /** A lone `&` is escaped, so `['class' => 'a&b']` serialises to
      ` class="a&amp;b"` (with `NamedAttributeSingle`). */
  lemma EscapeExample()
    ensures Entities("a&b") == "a&amp;b"
  {
    assert IndexOf("&b", ';') == None;
    assert ReferenceAt("&b") == None;
    assert IsPlain("b");
    EntitiesPlain("b");
    assert "&b"[1..] == "b";
    assert Entities("&b") == "&amp;b";
    EntitiesCharPrefix('a', "&b");
    assert "a&b" == ['a'] + "&b";
  }

  /** An item of a list: a scalar shown as escaped text, or a nested array. */
  datatype Node = Item(value: string) | Nested(entries: seq<(Key, Node)>)

  datatype ListKind = Ordered | Unordered

  function ListTag(kind: ListKind): string
  {
    match kind
    case Ordered => "ol"
    case Unordered => "ul"
  }

  /** The markup one entry of a list contributes. A scalar becomes an escaped
      `<li>`; a nested array under an integer key is inlined as a whole list
      of the same tag; under a string key it becomes an `<li>` holding the key
      (unescaped) followed by the nested list. Nested lists get no attributes. */
  function ItemHtml(tag: string, e: (Key, Node)): string
    decreases e.1
  {
    match e.1
    case Item(v) => "<li>" + Entities(v) + "</li>"
    case Nested(sub) =>
      if e.0.Index? then Listing(tag, sub, [])
      else "<li>" + e.0.name + Listing(tag, sub, []) + "</li>"
  }

  /** The markup of the entries from position `i` on, in order. */
  function ItemsFrom(tag: string, list: seq<(Key, Node)>, i: nat): string
    requires i <= |list|
    decreases Nested(list), |list| - i
  {
    if i == |list| then "" else ItemHtml(tag, list[i]) + ItemsFrom(tag, list, i + 1)
  }

  /** The concatenated markup of all entries. */
  function Items(tag: string, list: seq<(Key, Node)>): string
    decreases Nested(list), |list| + 1
  {
    ItemsFrom(tag, list, 0)
  }

  /** `HTML::listing`: nothing for an empty list, otherwise the entries'
      markup inside `<tag attributes>…</tag>`. */
  function Listing(tag: string, list: seq<(Key, Node)>, attrs: AttrMap): (r: string)
    ensures r == "" <==> list == []
    ensures list != [] ==> |r| >= 2 * |tag| + 5 && r[..|tag| + 1] == "<" + tag && r[|r| - |tag| - 3..] == "</" + tag + ">"
    decreases Nested(list), |list| + 2
  {
    if |list| == 0 then "" else "<" + tag + Attributes(attrs) + ">" + Items(tag, list) + "</" + tag + ">"
  }

  function Ol(list: seq<(Key, Node)>, attrs: AttrMap := []): (r: string)
    ensures r == "" <==> list == []
    ensures list != [] ==> |r| >= 9 && r[..3] == "<ol" && r[|r| - 5..] == "</ol>"
  {
    Listing(ListTag(Ordered), list, attrs)
  }

  function Ul(list: seq<(Key, Node)>, attrs: AttrMap := []): (r: string)
    ensures r == "" <==> list == []
    ensures list != [] ==> |r| >= 9 && r[..3] == "<ul" && r[|r| - 5..] == "</ul>"
  {
    Listing(ListTag(Unordered), list, attrs)
  }

  lemma {:induction false} ItemsFromShift(tag: string, p: seq<(Key, Node)>, b: seq<(Key, Node)>, j: nat)
    requires j <= |b|
    ensures ItemsFrom(tag, p + b, |p| + j) == ItemsFrom(tag, b, j)
    decreases |b| - j
  {
    if j < |b| {
      assert (p + b)[|p| + j] == b[j];
      ItemsFromShift(tag, p, b, j + 1);
    }
  }

  lemma {:induction false} ItemsFromAppend(tag: string, a: seq<(Key, Node)>, b: seq<(Key, Node)>, i: nat)
    requires i <= |a|
    ensures ItemsFrom(tag, a + b, i) == ItemsFrom(tag, a, i) + ItemsFrom(tag, b, 0)
    decreases |a| - i
  {
    if i == |a| {
      ItemsFromShift(tag, a, b, 0);
    } else {
      assert (a + b)[i] == a[i];
      ItemsFromAppend(tag, a, b, i + 1);
    }
  }

  /** Entries are rendered in input order, each independently of the others. */
  lemma ItemsAppend(tag: string, a: seq<(Key, Node)>, b: seq<(Key, Node)>)
    ensures Items(tag, a + b) == Items(tag, a) + Items(tag, b)
  {
    ItemsFromAppend(tag, a, b, 0);
  }

  lemma ItemsSingle(tag: string, e: (Key, Node))
    ensures Items(tag, [e]) == ItemHtml(tag, e)
  {
    assert [e][0] == e;
    assert ItemsFrom(tag, [e], 1) == "";
  }

  /** A one-entry list is that entry's markup inside the tags. */
  lemma ListingOne(tag: string, e: (Key, Node), attrs: AttrMap)
    ensures Listing(tag, [e], attrs) == "<" + tag + Attributes(attrs) + ">" + ItemHtml(tag, e) + "</" + tag + ">"
  {
    ItemsSingle(tag, e);
  }

  // Proof helper: regroups a concatenation.
  lemma Splice3(p: string, a: string, b: string, c: string, q1: string, q2: string, q3: string)
    ensures p + (a + b + c) + q1 + q2 + q3 == p + a + b + c + q1 + q2 + q3
  {
  }

  // Proof helper: regroups a concatenation.
  lemma Splice4(p: string, a: string, b: string, c: string, d: string, q1: string, q2: string, q3: string)
    ensures p + (a + b + c + d) + q1 + q2 + q3 == p + a + b + c + d + q1 + q2 + q3
  {
  }

  /** A scalar item is an escaped `<li>`. */
  lemma ListingScalar(tag: string, k: Key, v: string, attrs: AttrMap)
    ensures Listing(tag, [(k, Item(v))], attrs)
      == "<" + tag + Attributes(attrs) + ">" + "<li>" + Entities(v) + "</li>" + "</" + tag + ">"
  {
    ListingOne(tag, (k, Item(v)), attrs);
    Splice3("<" + tag + Attributes(attrs) + ">", "<li>", Entities(v), "</li>", "</", tag, ">");
  }

  /** A nested array under an integer key is inlined as a complete list of
      the same tag, with no `<li>` around it and no attributes. */
  lemma ListingIndexedSublist(tag: string, i: nat, sub: seq<(Key, Node)>, attrs: AttrMap)
    ensures Listing(tag, [(Index(i), Nested(sub))], attrs)
      == "<" + tag + Attributes(attrs) + ">" + Listing(tag, sub, []) + "</" + tag + ">"
  {
    ListingOne(tag, (Index(i), Nested(sub)), attrs);
  }

  /** A nested array under a string key is an `<li>` holding the raw key and
      the nested list, which carries no attributes. */
  lemma ListingLabelledSublist(tag: string, caption: string, sub: seq<(Key, Node)>, attrs: AttrMap)
    ensures Listing(tag, [(Name(caption), Nested(sub))], attrs)
      == "<" + tag + Attributes(attrs) + ">" + "<li>" + caption + Listing(tag, sub, []) + "</li>" + "</" + tag + ">"
  {
    ListingOne(tag, (Name(caption), Nested(sub)), attrs);
    Splice4("<" + tag + Attributes(attrs) + ">", "<li>", caption, Listing(tag, sub, []), "</li>", "</", tag, ">");
  }

  /** Only the outermost list carries the caller's attributes: changing them
      changes the opening tag and nothing else. */
  lemma ListingAttributesAtRootOnly(tag: string, list: seq<(Key, Node)>, attrs: AttrMap)
    requires list != []
    ensures Listing(tag, list, attrs) == "<" + tag + Attributes(attrs) + Listing(tag, list, [])[|tag| + 1..]
  {
    ListingShape(tag, list, attrs);
    ListingShape(tag, list, []);
    assert Attributes([]) == "";
    var head := "<" + tag;
    var body := ">" + Items(tag, list) + "</" + tag + ">";
    assert head + "" + body == head + body;
    DropHead(head, body);
  }

  /** Proof helper: a non-empty list is its opening `<tag`, its attributes,
      and the rest. */
  lemma ListingShape(tag: string, list: seq<(Key, Node)>, attrs: AttrMap)
    requires list != []
    ensures Listing(tag, list, attrs)
      == ("<" + tag) + Attributes(attrs) + (">" + Items(tag, list) + "</" + tag + ">")
  {
    Regroup("<" + tag, Attributes(attrs), ">", Items(tag, list), "</", tag, ">");
  }

  // Proof helper: regroups a concatenation.
  lemma Regroup(h: string, a: string, g: string, i: string, c: string, t: string, e: string)
    ensures h + a + g + i + c + t + e == h + a + (g + i + c + t + e)
  {
  }

  // Proof helper: regroups a concatenation.
  lemma DropHead(head: string, body: string)
    ensures (head + body)[|head|..] == body
  {
  }

  /** Splitting a list splits its markup: the entries of `a` come first. */
  lemma ListingAppend(tag: string, a: seq<(Key, Node)>, b: seq<(Key, Node)>, attrs: AttrMap)
    requires a != [] && b != []
    ensures Listing(tag, a + b, attrs)
      == "<" + tag + Attributes(attrs) + ">" + Items(tag, a) + Items(tag, b) + "</" + tag + ">"
  {
    ItemsAppend(tag, a, b);
  }

  /** Proof helper: a list without attributes opens with a bare tag. */
  lemma ListingBare(tag: string, list: seq<(Key, Node)>)
    requires list != []
    ensures Listing(tag, list, []) == "<" + tag + ">" + Items(tag, list) + "</" + tag + ">"
  {
    assert Attributes([]) == "";
  }

  lemma ItemsPair(tag: string, e1: (Key, Node), e2: (Key, Node))
    ensures Items(tag, [e1, e2]) == ItemHtml(tag, e1) + ItemHtml(tag, e2)
  {
    assert [e1] + [e2] == [e1, e2];
    ItemsAppend(tag, [e1], [e2]);
    ItemsSingle(tag, e1);
    ItemsSingle(tag, e2);
  }

  lemma ItemPlain(tag: string, k: Key, v: string)
    requires IsPlain(v)
    ensures ItemHtml(tag, (k, Item(v))) == "<li>" + v + "</li>"
  {
    EntitiesPlain(v);
  }

  /** The renderer copies a nested list's string key verbatim, markup
      included: under the key `<b>` the label stays `<b>`, while a scalar
      item is escaped. */
  lemma ListingLabelNotEscaped(tag: string, caption: string, x: string)
    requires IsPlain(x)
    ensures Listing(tag, [(Name(caption), Nested([(Index(0), Item(x))]))], [])
      == ("<" + tag + ">") + "<li>" + caption + ("<" + tag + ">") + "<li>" + x + "</li>" + ("</" + tag + ">") + "</li>" + ("</" + tag + ">")
  {
    var sub := [(Index(0), Item(x))];
    assert Attributes([]) == "";
    EntitiesPlain(x);
    ListingScalar(tag, Index(0), x, []);
    ListingLabelledSublist(tag, caption, sub, []);
    Nest(tag, caption, x);
  }

  // Proof helper: regroups a concatenation.
  lemma Nest(tag: string, caption: string, x: string)
    ensures var inner := "<" + tag + "" + ">" + "<li>" + x + "</li>" + "</" + tag + ">";
      "<" + tag + "" + ">" + "<li>" + caption + inner + "</li>" + "</" + tag + ">"
      == ("<" + tag + ">") + "<li>" + caption + ("<" + tag + ">") + "<li>" + x + "</li>" + ("</" + tag + ">") + "</li>" + ("</" + tag + ">")
  {
  }

  /** `HTML::ul` of the list `['<b>' => ['x']]`. */
  lemma UlLabelNotEscaped(caption: string, x: string)
    requires IsPlain(x)
    ensures Ul([(Name(caption), Nested([(Index(0), Item(x))]))], [])
      == "<ul>" + "<li>" + caption + "<ul>" + "<li>" + x + "</li>" + "</ul>" + "</li>" + "</ul>"
  {
    ListingLabelNotEscaped("ul", caption, x);
    UlTags();
  }

  // Proof helper: the tag strings of `ul`.
  lemma UlTags()
    ensures "<" + "ul" + ">" == "<ul>" && "</" + "ul" + ">" == "</ul>"
  {
  }

  /** Two plain scalar items, one `<li>` each, in order. */
  lemma ListingPairPlain(tag: string, k1: Key, a: string, k2: Key, b: string)
    requires IsPlain(a) && IsPlain(b)
    ensures Listing(tag, [(k1, Item(a)), (k2, Item(b))], [])
      == ("<" + tag + ">") + "<li>" + a + "</li>" + "<li>" + b + "</li>" + ("</" + tag + ">")
  {
    EntitiesPlain(a);
    EntitiesPlain(b);
    ItemsPair(tag, (k1, Item(a)), (k2, Item(b)));
    ListingBare(tag, [(k1, Item(a)), (k2, Item(b))]);
    Pair(tag, a, b);
  }

  // Proof helper: regroups a concatenation.
  lemma Pair(tag: string, a: string, b: string)
    ensures "<" + tag + ">" + ("<li>" + a + "</li>" + ("<li>" + b + "</li>")) + "</" + tag + ">"
      == ("<" + tag + ">") + "<li>" + a + "</li>" + "<li>" + b + "</li>" + ("</" + tag + ">")
  {
  }

  /** The empty list renders as nothing, and `['a', 'b']` as
      `<ul><li>a</li><li>b</li></ul>`. */
  lemma UlExamples(a: string, b: string)
    requires IsPlain(a) && IsPlain(b)
    ensures Ul([], []) == ""
    ensures Ul([(Index(0), Item(a)), (Index(1), Item(b))], []) == "<ul>" + "<li>" + a + "</li>" + "<li>" + b + "</li>" + "</ul>"
  {
    ListingPairPlain("ul", Index(0), a, Index(1), b);
    UlTags();
  }

  /** One pair of a definition list: the term and its description, both escaped. */
  function Definition(pair: (Key, string)): string
  {
    "<dt>" + Entities(KeyText(pair.0)) + "</dt><dd>" + Entities(pair.1) + "</dd>"
  }

  /** Helper of `Dl`: the rendered pairs of a definition list, one per entry,
      in order. */
  function Definitions(list: seq<(Key, string)>): (r: seq<string>)
    ensures |r| == |list|
    ensures forall i :: 0 <= i < |list| ==> r[i] == Definition(list[i])
  {
    seq(|list|, i requires 0 <= i < |list| => Definition(list[i]))
  }

  /** `HTML::dl`: nothing for an empty list, otherwise escaped term and
      description pairs inside `<dl attributes>…</dl>`. */
  function Dl(list: seq<(Key, string)>, attrs: AttrMap := []): (r: string)
    ensures r == "" <==> list == []
  {
    if |list| == 0 then "" else "<dl" + Attributes(attrs) + ">" + Concat(Definitions(list)) + "</dl>"
  }

  /** A definition list is its pairs in input order: splitting the list splits
      the markup between the `<dl>` tags. */
  lemma DlAppend(a: seq<(Key, string)>, b: seq<(Key, string)>, attrs: AttrMap)
    requires a != [] && b != []
    ensures Dl(a + b, attrs)
      == "<dl" + Attributes(attrs) + ">" + Concat(Definitions(a)) + Concat(Definitions(b)) + "</dl>"
  {
    DefinitionsAppend(a, b);
    ConcatAppend(Definitions(a), Definitions(b));
    assert a + b != [];
    AppendRegroup("<dl" + Attributes(attrs) + ">", Concat(Definitions(a)), Concat(Definitions(b)), "</dl>");
  }

  lemma DefinitionsAppend(a: seq<(Key, string)>, b: seq<(Key, string)>)
    ensures Definitions(a + b) == Definitions(a) + Definitions(b)
  {
    var l, r := Definitions(a + b), Definitions(a) + Definitions(b);
    assert |l| == |r|;
    forall i | 0 <= i < |l| ensures l[i] == r[i] {
      if i < |a| {
        assert (a + b)[i] == a[i];
      } else {
        assert (a + b)[i] == b[i - |a|];
      }
    }
  }

  /** One pair renders as an escaped term and an escaped description. */
  lemma DlSingle(term: Key, description: string, attrs: AttrMap)
    ensures Dl([(term, description)], attrs)
      == "<dl" + Attributes(attrs) + ">" + Definition((term, description)) + "</dl>"
  {
    var d := Definitions([(term, description)]);
    assert d == [Definition((term, description))];
    assert Concat(d) == Definition((term, description)) + Concat([]);
  }

  /** Plain terms and descriptions pass through unchanged. */
  lemma DefinitionPlain(term: string, description: string)
    requires IsPlain(term) && IsPlain(description)
    ensures Definition((Name(term), description)) == "<dt>" + term + "</dt><dd>" + description + "</dd>"
  {
    EntitiesPlain(term);
    EntitiesPlain(description);
  }

  lemma DlSingleBare(term: Key, description: string)
    ensures Dl([(term, description)], []) == "<dl>" + Definition((term, description)) + "</dl>"
  {
    DlSingle(term, description, []);
    assert Attributes([]) == "";
  }

  /** The empty list renders as nothing, and `['Name' => 'Value']` as
      `<dl><dt>Name</dt><dd>Value</dd></dl>`. */
  lemma DlExamples(term: string, description: string)
    requires IsPlain(term) && IsPlain(description)
    ensures Dl([], []) == ""
    ensures Dl([(Name(term), description)], []) == "<dl>" + "<dt>" + term + "</dt><dd>" + description + "</dd>" + "</dl>"
  {
    DefinitionPlain(term, description);
    DlSingleBare(Name(term), description);
    DlShape(term, description);
  }

  // Proof helper: regroups a concatenation.
  lemma DlShape(term: string, description: string)
    ensures "<dl>" + ("<dt>" + term + "</dt><dd>" + description + "</dd>") + "</dl>"
      == "<dl>" + "<dt>" + term + "</dt><dd>" + description + "</dd>" + "</dl>"
  {
  }

  /** `HTML::wrapHTMLTag`. */
  function WrapTag(value: string, tag: string): (r: string)
    ensures |r| == |value| + 2 * |tag| + 5
  {
    "<" + tag + ">" + value + "</" + tag + ">"
  }

  /** The inverse of `WrapTag`: the content between `<tag>` and `</tag>`. */
  function UnwrapTag(s: string, tag: string): Option<string>
  {
    var open := |tag| + 2;
    var close := |tag| + 3;
    if |s| >= open + close && s[..open] == "<" + tag + ">" && s[|s| - close..] == "</" + tag + ">" then
      Some(s[open..|s| - close])
    else None
  }

  lemma UnwrapWrapTag(value: string, tag: string)
    ensures UnwrapTag(WrapTag(value, tag), tag) == Some(value)
  {
    var s := WrapTag(value, tag);
    var open := "<" + tag + ">";
    var close := "</" + tag + ">";
    assert s == open + value + close;
    assert s[..|open|] == open;
    assert s[|s| - |close|..] == close;
    assert s[|open|..|s| - |close|] == value;
  }

  /** Wrapping is injective: the tag and its content determine each other. */
  lemma WrapTagInjective(v1: string, v2: string, tag: string)
    requires WrapTag(v1, tag) == WrapTag(v2, tag)
    ensures v1 == v2
  {
    UnwrapWrapTag(v1, tag);
    UnwrapWrapTag(v2, tag);
  }
}

=== FILE: macros.dfy ===
/**
 * The macro registries of the HTML and form builders: `macro` stores a
 * callback under a name and the magic `__call` looks a name up, failing with
 * "Method [name] does not exist." when nothing usable is stored. Invoking
 * the callback is outside the model, so a successful lookup returns it.
 */
module Macros {
  import opened Wrappers

  /** Stored callbacks; `None` is a null the HTML builder's untyped `macro` accepts. */
  type Registry<C> = map<string, Option<C>>

  function EmptyRegistry<C>(): (r: Registry<C>)
    ensures |r| == 0
  {
    map[]
  }

  /** `macro($name, $callback)`: a later registration replaces an earlier one. */
  function Register<C>(r: Registry<C>, name: string, callback: Option<C>): (r': Registry<C>)
    ensures name in r' && r'[name] == callback
    ensures forall n :: n in r && n != name ==> n in r' && r'[n] == r[n]
    ensures r'.Keys == r.Keys + {name}
  {
    r[name := callback]
  }

  /** The exception text for an unknown method. */
  function MissingMethod(name: string): (msg: string)
    ensures |msg| == |name| + 25
    ensures msg[..8] == "Method [" && msg[|msg| - 17..] == "] does not exist."
    ensures msg[8..|msg| - 17] == name
  {
    "Method [" + name + "] does not exist."
  }

  /** `__call`: the callback registered under `name` when one is set (`isset`),
      otherwise the unknown-method error. */
  function Dispatch<C>(r: Registry<C>, name: string): (res: Result<C, string>)
    ensures res.Success? <==> name in r && r[name].Some?
    ensures res.Success? ==> r[name] == Some(res.value)
    ensures res.Failure? ==> res.error == MissingMethod(name)
  {
    if name in r && r[name].Some? then Success(r[name].value) else Failure(MissingMethod(name))
  }

  /** Registering a callback makes it the one `__call` finds under that name. */
  lemma DispatchRegistered<C>(r: Registry<C>, name: string, callback: C)
    ensures Dispatch(Register(r, name, Some(callback)), name) == Success(callback)
  {
  }

  /** Registering null under a name makes that name unknown again. */
  lemma DispatchRegisteredNull<C>(r: Registry<C>, name: string)
    ensures Dispatch(Register(r, name, None), name) == Failure(MissingMethod(name))
  {
  }

  /** Registering one name does not change what any other name dispatches to. */
  lemma DispatchRegisterOther<C>(r: Registry<C>, name: string, callback: Option<C>, other: string)
    requires other != name
    ensures Dispatch(Register(r, name, callback), other) == Dispatch(r, other)
  {
  }

  lemma DispatchEmpty<C>(name: string)
    ensures Dispatch(EmptyRegistry<C>(), name) == Failure(MissingMethod(name))
  {
  }
}

=== FILE: phparray.dfy ===
/** PHP's ordered array, in the shape the HTML and form helpers use it: a
    sequence of entries in insertion order, each keyed by an integer index or a
    string name. Assigning to an existing key keeps its position; assigning to a
    new key appends. */
module PhpArray {
  import opened Wrappers
  import opened Text

  datatype Key = Index(i: nat) | Name(name: string)

  /** An attribute array; a `None` value is PHP's `null`. */
  type AttrMap = seq<(Key, Option<string>)>

  function Keys<V>(m: seq<(Key, V)>): (ks: seq<Key>)
    ensures |ks| == |m| && forall i :: 0 <= i < |m| ==> ks[i] == m[i].0
  {
    seq(|m|, i requires 0 <= i < |m| => m[i].0)
  }

  /** Every PHP array has this shape: no key occurs twice. */
  predicate UniqueKeys<V>(m: seq<(Key, V)>)
  {
    forall i, j :: 0 <= i < j < |m| ==> m[i].0 != m[j].0
  }

  /** `$m[$k]` when `array_key_exists($k, $m)`, else `None`. */
  function Lookup<V>(m: seq<(Key, V)>, k: Key): (r: Option<V>)
    ensures r.None? <==> k !in Keys(m)
  {
    if m == [] then None
    else if m[0].0 == k then Some(m[0].1)
    else
      assert Keys(m) == [m[0].0] + Keys(m[1..]);
      Lookup(m[1..], k)
  }

  /** `array_key_exists($k, $m)`. */
  predicate HasKey<V>(m: seq<(Key, V)>, k: Key) { Lookup(m, k).Some? }

  /** `isset($m[$k])`: the key exists and its value is not `null`. */
  predicate IsSet(m: AttrMap, k: Key) { Lookup(m, k).Some? && Lookup(m, k).value.Some? }

  lemma KeysCons<V>(e: (Key, V), m: seq<(Key, V)>)
    ensures Keys([e] + m) == [e.0] + Keys(m)
  {
  }

  /** `$m[$k] = $v`. */
  function Set<V>(m: seq<(Key, V)>, k: Key, v: V): (r: seq<(Key, V)>)
    ensures Lookup(r, k) == Some(v)
    ensures k in Keys(m) ==> Keys(r) == Keys(m)
    ensures k !in Keys(m) ==> Keys(r) == Keys(m) + [k]
  {
    if m == [] then [(k, v)]
    else
      assert m == [m[0]] + m[1..];
      KeysCons(m[0], m[1..]);
      if m[0].0 == k then
        KeysCons((k, v), m[1..]);
        [(k, v)] + m[1..]
      else
        var rest := Set(m[1..], k, v);
        var r := [m[0]] + rest;
        KeysCons(m[0], rest);
        assert r[0] == m[0] && r[1..] == rest;
        assert Lookup(r, k) == Lookup(rest, k);
        assert (k in Keys(m)) == (k in Keys(m[1..]));
        r
  }

  /** Assigning one key leaves every other key's value alone. */
  lemma {:induction false} LookupSetOther<V>(m: seq<(Key, V)>, k: Key, v: V, k': Key)
    requires k' != k
    ensures Lookup(Set(m, k, v), k') == Lookup(m, k')
  {
    if m != [] && m[0].0 != k {
      var r := Set(m, k, v);
      assert r[0] == m[0] && r[1..] == Set(m[1..], k, v);
      LookupSetOther(m[1..], k, v, k');
    }
  }

  /** In an array with distinct keys, each entry is what its key looks up. */
  lemma {:induction false} LookupUnique<V>(m: seq<(Key, V)>, i: nat)
    requires UniqueKeys(m) && i < |m|
    ensures Lookup(m, m[i].0) == Some(m[i].1)
  {
    if i > 0 {
      assert m[1..][i - 1] == m[i];
      assert UniqueKeys(m[1..]);
      LookupUnique(m[1..], i - 1);
    }
  }

  /** Assignment keeps an array's keys distinct. */
  lemma SetUnique<V>(m: seq<(Key, V)>, k: Key, v: V)
    requires UniqueKeys(m)
    ensures UniqueKeys(Set(m, k, v))
  {
    var r := Set(m, k, v);
    forall i, j | 0 <= i < j < |r|
      ensures r[i].0 != r[j].0
    {
      assert Keys(r)[i] == r[i].0 && Keys(r)[j] == r[j].0;
    }
  }

  /** How many entries carry an integer key; in an array built by appending,
      this is the next free index. */
  function IndexCount<V>(m: seq<(Key, V)>): nat
  {
    if m == [] then 0 else (if m[0].0.Index? then 1 else 0) + IndexCount(m[1..])
  }

  /** One step of `array_merge`: a string key is assigned, an integer key is
      appended under the next free index. */
  function Push<V>(acc: seq<(Key, V)>, e: (Key, V)): seq<(Key, V)>
  {
    match e.0
    case Index(_) => acc + [(Index(IndexCount(acc)), e.1)]
    case Name(_) => Set(acc, e.0, e.1)
  }

  function MergeInto<V>(acc: seq<(Key, V)>, b: seq<(Key, V)>): seq<(Key, V)>
    decreases |b|
  {
    if b == [] then acc else MergeInto(Push(acc, b[0]), b[1..])
  }

  /** `array_merge($a, $b)`: the entries of `a`, then those of `b`; a string key
      of `b` overwrites the same key in place, integer keys are renumbered. */
  function Merge<V>(a: seq<(Key, V)>, b: seq<(Key, V)>): seq<(Key, V)>
  {
    MergeInto(MergeInto([], a), b)
  }

  lemma LookupPushName<V>(acc: seq<(Key, V)>, e: (Key, V), k: Key)
    requires k.Name?
    ensures Lookup(Push(acc, e), k) == if e.0 == k then Some(e.1) else Lookup(acc, k)
  {
    if e.0.Index? {
      LookupAppend(acc, (Index(IndexCount(acc)), e.1), k);
    } else if e.0 != k {
      LookupSetOther(acc, e.0, e.1, k);
    }
  }

  lemma {:induction false} LookupAppend<V>(m: seq<(Key, V)>, e: (Key, V), k: Key)
    requires e.0 != k
    ensures Lookup(m + [e], k) == Lookup(m, k)
  {
    if m == [] {
      assert Keys([e]) == [e.0];
    } else {
      assert (m + [e])[1..] == m[1..] + [e];
      LookupAppend(m[1..], e, k);
    }
  }

  /** Looking up a string key after merging `b` in: `b` wins where it has the key. */
  lemma {:induction false} LookupMergeInto<V>(acc: seq<(Key, V)>, b: seq<(Key, V)>, k: Key)
    requires k.Name? && UniqueKeys(b)
    ensures Lookup(MergeInto(acc, b), k) == if k in Keys(b) then Lookup(b, k) else Lookup(acc, k)
    decreases |b|
  {
    if b != [] {
      assert Keys(b) == [b[0].0] + Keys(b[1..]);
      assert UniqueKeys(b[1..]);
      LookupPushName(acc, b[0], k);
      LookupMergeInto(Push(acc, b[0]), b[1..], k);
      if b[0].0 == k {
        assert k !in Keys(b[1..]);
      }
    }
  }

  /** `array_merge` as seen through a string key. */
  lemma LookupMerge<V>(a: seq<(Key, V)>, b: seq<(Key, V)>, k: Key)
    requires k.Name? && UniqueKeys(a) && UniqueKeys(b)
    ensures Lookup(Merge(a, b), k) == if k in Keys(b) then Lookup(b, k) else Lookup(a, k)
  {
    LookupMergeInto([], a, k);
    LookupMergeInto(MergeInto([], a), b, k);
  }

  // ---------------------------------------------------------------- key order

  /** The keys of `added` that `ks` lacks, in the order of `added`: what a run
      of assignments to the keys `added` appends to an array whose keys are `ks`. */
  function Fresh(ks: seq<Key>, added: seq<Key>): (r: seq<Key>)
    ensures forall k :: k in r <==> k in added && k !in ks
  {
    if added == [] then [] else (if added[0] in ks then [] else [added[0]]) + Fresh(ks, added[1..])
  }

  /** Assigning `a` and then `b` appends what `a` adds, then what `b` adds. */
  lemma {:induction false} FreshAppend(ks: seq<Key>, a: seq<Key>, b: seq<Key>)
    ensures Fresh(ks, a + b) == Fresh(ks, a) + Fresh(ks, b)
  {
    if a == [] {
      assert a + b == b;
    } else {
      assert (a + b)[0] == a[0] && (a + b)[1..] == a[1..] + b;
      FreshAppend(ks, a[1..], b);
    }
  }

  /** Only membership in `ks` matters to `Fresh`. */
  lemma {:induction false} FreshSameMembers(ks: seq<Key>, ks': seq<Key>, added: seq<Key>)
    requires forall k :: k in added ==> (k in ks <==> k in ks')
    ensures Fresh(ks, added) == Fresh(ks', added)
  {
    if added != [] {
      FreshSameMembers(ks, ks', added[1..]);
    }
  }

  /** One more assignment in a run: a new key goes after those the run
      appended so far, an existing key keeps its place. */
  lemma AssignKeys<V>(m: seq<(Key, V)>, ks: seq<Key>, a: seq<Key>, k: Key, v: V)
    requires Keys(m) == ks + Fresh(ks, a) && k !in a
    ensures Keys(Set(m, k, v)) == ks + Fresh(ks, a + [k])
  {
    FreshAppend(ks, a, [k]);
    assert [k][1..] == [];
  }

  /** A key the array already has adds nothing to the run's keys. */
  lemma KeepKeys<V>(m: seq<(Key, V)>, ks: seq<Key>, a: seq<Key>, k: Key)
    requires Keys(m) == ks + Fresh(ks, a) && k !in a && k in Keys(m)
    ensures Keys(m) == ks + Fresh(ks, a + [k])
  {
    FreshAppend(ks, a, [k]);
    assert [k][1..] == [];
  }

  /** One assignment of an array-building run: `Set` when `assign`, else a key
      the array already has. Either way the run's added keys grow by `k`. */
  lemma AssignStep<V>(m: seq<(Key, V)>, ks: seq<Key>, a: seq<Key>, k: Key, v: V, assign: bool, a': seq<Key>)
    requires Keys(m) == ks + Fresh(ks, a) && k !in a && a' == a + [k]
    requires !assign ==> k in Keys(m)
    ensures Keys(if assign then Set(m, k, v) else m) == ks + Fresh(ks, a')
  {
    if assign {
      AssignKeys(m, ks, a, k, v);
    } else {
      KeepKeys(m, ks, a, k);
    }
  }

  /** Proof helper: a step that appends `k` unless the array has it continues the run. */
  lemma ExtendRun<V>(m: seq<(Key, V)>, r: seq<(Key, V)>, ks: seq<Key>, a: seq<Key>, k: Key, a': seq<Key>)
    requires Keys(m) == ks + Fresh(ks, a) && k !in a && a' == a + [k]
    requires Keys(r) == Keys(m) + Fresh(Keys(m), [k])
    ensures Keys(r) == ks + Fresh(ks, a')
  {
    FreshAppend(ks, a, [k]);
    FreshSameMembers(Keys(m), ks, [k]);
  }

  // Proof helper: the tail of a unique-keyed array.
  lemma UniqueTail<V>(b: seq<(Key, V)>)
    requires UniqueKeys(b) && b != []
    ensures UniqueKeys(b[1..]) && b[0].0 !in Keys(b[1..])
  {
    forall j | 0 <= j < |b| - 1 ensures Keys(b[1..])[j] != b[0].0 {
      assert b[1..][j] == b[j + 1];
    }
  }

  /** Merging string-keyed entries continues a run of assignments. */
  lemma {:induction false} MergeNamesRun<V>(acc: seq<(Key, V)>, ks: seq<Key>, a: seq<Key>, b: seq<(Key, V)>)
    requires Keys(acc) == ks + Fresh(ks, a)
    requires UniqueKeys(b) && forall i :: 0 <= i < |b| ==> b[i].0.Name? && b[i].0 !in a
    ensures Keys(MergeInto(acc, b)) == ks + Fresh(ks, a + Keys(b))
    decreases |b|
  {
    if b == [] {
      assert a + Keys(b) == a;
    } else {
      var k := b[0].0;
      assert Push(acc, b[0]) == Set(acc, k, b[0].1);
      AssignKeys(acc, ks, a, k, b[0].1);
      UniqueTail(b);
      forall i | 0 <= i < |b| - 1 ensures b[1..][i].0.Name? && b[1..][i].0 !in a + [k] {
        assert b[1..][i] == b[i + 1] && b[1..][i].0 == Keys(b[1..])[i];
      }
      MergeNamesRun(Push(acc, b[0]), ks, a + [k], b[1..]);
      assert Keys(b)[0] == k && Keys(b)[1..] == Keys(b[1..]);
      FreshStep(ks, a, Keys(b), Keys(MergeInto(Push(acc, b[0]), b[1..])));
      assert MergeInto(acc, b) == MergeInto(Push(acc, b[0]), b[1..]);
    }
  }

  /** Proof helper: one step of MergeNamesRun over plain key sequences. */
  lemma FreshStep(ks: seq<Key>, a: seq<Key>, kb: seq<Key>, kr: seq<Key>)
    requires kb != []
    requires kr == ks + Fresh(ks, a + [kb[0]] + kb[1..])
    ensures kr == ks + Fresh(ks, a + kb)
  {
    assert a + [kb[0]] + kb[1..] == a + kb;
  }

  /** Merging string-keyed entries assigns them one after the other. */
  lemma MergeNamesKeys<V>(acc: seq<(Key, V)>, b: seq<(Key, V)>)
    requires UniqueKeys(b) && forall i :: 0 <= i < |b| ==> b[i].0.Name?
    ensures Keys(MergeInto(acc, b)) == Keys(acc) + Fresh(Keys(acc), Keys(b))
  {
    assert [] + Keys(b) == Keys(b);
    MergeNamesRun(acc, Keys(acc), [], b);
  }

  /** A string key is in a merge exactly when it is in one of the parts. */
  lemma {:induction false} MergeIntoNames<V>(acc: seq<(Key, V)>, b: seq<(Key, V)>, k: Key)
    requires k.Name?
    ensures k in Keys(MergeInto(acc, b)) <==> k in Keys(acc) || k in Keys(b)
    decreases |b|
  {
    if b != [] {
      var p := Push(acc, b[0]);
      if b[0].0.Index? {
        var e := (Index(IndexCount(acc)), b[0].1);
        assert Keys(acc + [e]) == Keys(acc) + [e.0];
      }
      assert k in Keys(p) <==> k in Keys(acc) || k == b[0].0;
      MergeIntoNames(p, b[1..], k);
      assert Keys(b) == [b[0].0] + Keys(b[1..]);
    }
  }

  /** The keys `array_merge` gives the entries of one array: string keys stay,
      integer keys are numbered from `n` in order. */
  function Renumbered(ks: seq<Key>, n: nat): (r: seq<Key>)
    ensures |r| == |ks|
  {
    if ks == [] then []
    else if ks[0].Index? then [Index(n)] + Renumbered(ks[1..], n + 1)
    else [ks[0]] + Renumbered(ks[1..], n)
  }

  /** Renumbering keeps every string key at its position and puts an integer
      key, numbered `n` or above, at every position of one. */
  lemma {:induction false} RenumberedPositions(ks: seq<Key>, n: nat, i: nat)
    requires i < |ks|
    ensures ks[i].Name? ==> Renumbered(ks, n)[i] == ks[i]
    ensures ks[i].Index? ==> Renumbered(ks, n)[i].Index? && Renumbered(ks, n)[i].i >= n
  {
    if i > 0 {
      RenumberedPositions(ks[1..], if ks[0].Index? then n + 1 else n, i - 1);
    }
  }

  /** Appending one entry counts it when its key is an integer. */
  lemma {:induction false} IndexCountAppend<V>(m: seq<(Key, V)>, e: (Key, V))
    ensures IndexCount(m + [e]) == IndexCount(m) + if e.0.Index? then 1 else 0
  {
    if m != [] {
      assert (m + [e])[1..] == m[1..] + [e];
      IndexCountAppend(m[1..], e);
    }
  }

  /** Assigning a key the array lacks appends one entry. */
  lemma {:induction false} SetNew<V>(m: seq<(Key, V)>, k: Key, v: V)
    requires k !in Keys(m)
    ensures Set(m, k, v) == m + [(k, v)]
  {
    if m != [] {
      assert m == [m[0]] + m[1..];
      KeysCons(m[0], m[1..]);
      SetNew(m[1..], k, v);
      assert [m[0]] + (m[1..] + [(k, v)]) == m + [(k, v)];
    }
  }

  /** A push whose string key is new appends one entry. */
  lemma PushAppends<V>(acc: seq<(Key, V)>, e: (Key, V))
    requires e.0.Name? ==> e.0 !in Keys(acc)
    ensures var k := if e.0.Index? then Index(IndexCount(acc)) else e.0;
      Push(acc, e) == acc + [(k, e.1)] && IndexCount(Push(acc, e)) == IndexCount(acc) + (if e.0.Index? then 1 else 0)
  {
    if e.0.Name? {
      SetNew(acc, e.0, e.1);
    }
    var k := if e.0.Index? then Index(IndexCount(acc)) else e.0;
    IndexCountAppend(acc, (k, e.1));
  }

  /** `array_merge` appends the entries of `b` to `acc` under `b`'s string keys
      and under integer keys numbered on from `acc`'s. */
  lemma {:induction false} MergeIntoKeys<V>(acc: seq<(Key, V)>, b: seq<(Key, V)>)
    requires UniqueKeys(b)
    requires forall i :: 0 <= i < |b| && b[i].0.Name? ==> b[i].0 !in Keys(acc)
    ensures Keys(MergeInto(acc, b)) == Keys(acc) + Renumbered(Keys(b), IndexCount(acc))
    decreases |b|
  {
    if b == [] {
      assert Keys(b) == [];
    } else {
      var e := b[0];
      var k := if e.0.Index? then Index(IndexCount(acc)) else e.0;
      var p := Push(acc, e);
      PushAppends(acc, e);
      assert Keys(p) == Keys(acc) + [k];
      UniqueTail(b);
      MergeTailFresh(acc, b, k);
      MergeIntoKeys(p, b[1..]);
      assert Keys(b)[0] == e.0 && Keys(b)[1..] == Keys(b[1..]);
      MergeStepKeys(Keys(acc), Keys(b), IndexCount(acc), IndexCount(p), k, Keys(MergeInto(p, b[1..])));
      assert MergeInto(acc, b) == MergeInto(p, b[1..]);
    }
  }

  // Proof helper: one step of MergeIntoKeys over plain key sequences.
  lemma MergeStepKeys(ka: seq<Key>, kb: seq<Key>, n: nat, n': nat, k: Key, kr: seq<Key>)
    requires kb != []
    requires k == (if kb[0].Index? then Index(n) else kb[0])
    requires n' == (if kb[0].Index? then n + 1 else n)
    requires kr == ka + [k] + Renumbered(kb[1..], n')
    ensures kr == ka + Renumbered(kb, n)
  {
    var rest := Renumbered(kb[1..], n');
    assert Renumbered(kb, n) == [k] + rest;
    assert ka + [k] + rest == ka + ([k] + rest);
  }

  // Proof helper: the tail's string keys are still new after one push.
  lemma MergeTailFresh<V>(acc: seq<(Key, V)>, b: seq<(Key, V)>, k: Key)
    requires b != [] && UniqueKeys(b)
    requires forall i :: 0 <= i < |b| && b[i].0.Name? ==> b[i].0 !in Keys(acc)
    requires k.Index? || k == b[0].0
    ensures forall i :: 0 <= i < |b| - 1 && b[1..][i].0.Name? ==> b[1..][i].0 !in Keys(acc) + [k]
  {
    forall i | 0 <= i < |b| - 1 && b[1..][i].0.Name?
      ensures b[1..][i].0 !in Keys(acc) + [k]
    {
      assert b[1..][i] == b[i + 1];
    }
  }

  /** `array_merge($m)` renumbers the integer keys of `m` from zero, in order,
      and keeps its string keys. */
  lemma ArrayMergeRenumbers<V>(m: seq<(Key, V)>)
    requires UniqueKeys(m)
    ensures Keys(Merge([], m)) == Renumbered(Keys(m), 0)
  {
    MergeIntoKeys([], m);
  }

  /** `array_merge($a, $b)` with string keys in `b`: the keys of `a` come first,
      integer keys renumbered from zero, then the keys of `b` that `a` lacks,
      in `b`'s order. A key both have stays where `a` put it. */
  lemma ArrayMergeKeys<V>(a: seq<(Key, V)>, b: seq<(Key, V)>)
    requires UniqueKeys(a) && UniqueKeys(b)
    requires forall i :: 0 <= i < |b| ==> b[i].0.Name?
    ensures Keys(Merge(a, b)) == Renumbered(Keys(a), 0) + Fresh(Keys(a), Keys(b))
  {
    var base := MergeInto([], a);
    MergeNamesKeys(base, b);
    ArrayMergeRenumbers(a);
    MergeFreshNames(a, Keys(b));
  }

  /** Proof helper: `array_merge` keeps the same string keys, so it leaves
      the fresh string keys unchanged. */
  lemma MergeFreshNames<V>(a: seq<(Key, V)>, added: seq<Key>)
    requires forall i :: 0 <= i < |added| ==> added[i].Name?
    ensures Fresh(Keys(MergeInto([], a)), added) == Fresh(Keys(a), added)
  {
    forall k | k in added
      ensures k in Keys(MergeInto([], a)) <==> k in Keys(a)
    {
      MergeIntoNames([], a, k);
    }
    FreshSameMembers(Keys(MergeInto([], a)), Keys(a), added);
  }

  /** The first position at or after `i` whose character is not in the class. */
  function SkipSpaces(s: string, i: nat): (r: nat)
    requires i <= |s|
    ensures i <= r <= |s| && (forall j :: i <= j < r ==> IsSpace(s[j])) && (r < |s| ==> !IsSpace(s[r]))
    decreases |s| - i
  {
    if i < |s| && IsSpace(s[i]) then SkipSpaces(s, i + 1) else i
  }

  function SkipDigits(s: string, i: nat): (r: nat)
    requires i <= |s|
    ensures i <= r <= |s| && (forall j :: i <= j < r ==> IsDigit(s[j])) && (r < |s| ==> !IsDigit(s[r]))
    decreases |s| - i
  {
    if i < |s| && IsDigit(s[i]) then SkipDigits(s, i + 1) else i
  }

  /** Where an optional sign ends. */
  function SkipSign(s: string, i: nat): (r: nat)
    requires i <= |s|
    ensures i <= r <= |s|
  {
    if i < |s| && (s[i] == '+' || s[i] == '-') then i + 1 else i
  }

  /** Where the exponent `[eE][+-]?digits` that starts at `d` ends; `d` itself
      when there is no complete exponent there. */
  function ExponentEnd(s: string, d: nat): (r: nat)
    requires d <= |s|
    ensures d <= r <= |s|
  {
    if d < |s| && (s[d] == 'e' || s[d] == 'E') then
      var f := SkipSign(s, d + 1);
      var g := SkipDigits(s, f);
      if g > f then g else d
    else d
  }

  /** PHP's `is_numeric` on a string: leading whitespace, an optional sign, a
      decimal mantissa with a digit on at least one side of an optional point,
      an optional exponent, and trailing whitespace. */
  predicate IsNumericString(s: string)
  {
    var b := SkipSign(s, SkipSpaces(s, 0));
    var c := SkipDigits(s, b);
    var d := if c < |s| && s[c] == '.' then SkipDigits(s, c + 1) else c;
    (c > b || d > c + 1) && SkipSpaces(s, ExponentEnd(s, d)) == |s|
  }

  /** A numeric string holds at least one digit. */
  lemma NumericStringHasDigit(s: string)
    requires IsNumericString(s)
    ensures exists i :: 0 <= i < |s| && IsDigit(s[i])
  {
    var b := SkipSign(s, SkipSpaces(s, 0));
    var c := SkipDigits(s, b);
    if c > b {
      assert IsDigit(s[b]);
    } else {
      assert IsDigit(s[c + 1]);
    }
  }

  /** `is_numeric($key)` for an array key: integer keys always are. */
  predicate IsNumericKey(k: Key)
  {
    k.Index? || IsNumericString(k.name)
  }

  /** The key as PHP prints it: an integer key in decimal, a string key as is. */
  function KeyText(k: Key): (r: string)
    ensures k.Name? ==> r == k.name
    ensures k.Index? ==> AllDigits(r) && NumberValue(r, 10) == k.i
    ensures k.Index? ==> |r| > 0 && (|r| > 1 ==> r[0] != '0')
  {
    match k
    case Index(i) => NatToString(i)
    case Name(n) => n
  }
}

=== FILE: str.dfy ===
/**
 * The string helpers of `Str`: slugs, truncation, capping, file extensions,
 * URI segments, prefix/suffix/substring tests, camel case and the random
 * pools. Lengths are counted in characters, as the multibyte branch does.
 */
module Str {
  import opened Wrappers
  import opened Text
  import opened Transliteration

  // ---------------------------------------------------------------- slug

  /** The characters the first `slug` pass keeps: the separator's characters,
      letters, digits and whitespace. */
  predicate IsSlugChar(c: char, sep: string)
  {
    c in sep || IsAlnum(c) || IsSpace(c)
  }

  /** The characters the second `slug` pass folds into one separator. */
  predicate IsRunChar(c: char, sep: string)
  {
    c in sep || IsSpace(c)
  }

  /** `preg_replace('![^sep\pL\pN\s]+!u', '', s)`: drops every other character. */
  function KeepSlugChars(s: string, sep: string): (r: string)
    ensures |r| <= |s|
    ensures forall i :: 0 <= i < |r| ==> IsSlugChar(r[i], sep) && r[i] in s
    ensures (forall i :: 0 <= i < |s| ==> IsSlugChar(s[i], sep)) ==> r == s
  {
    if s == [] then []
    else
      var rest := KeepSlugChars(s[1..], sep);
      assert forall i :: 0 <= i < |rest| ==> rest[i] in s;
      (if IsSlugChar(s[0], sep) then [s[0]] else []) + rest
  }

  /** `preg_replace('![sep\s]+!u', sep, s)`: every maximal run of separator
      and whitespace characters becomes one copy of `sep`. `inRun` says the
      character before `s` already belonged to such a run. */
  function Collapse(s: string, sep: string, inRun: bool): (r: string)
    ensures forall i :: 0 <= i < |r| ==> r[i] in sep || (r[i] in s && !IsRunChar(r[i], sep))
    ensures inRun && r != [] ==> !IsRunChar(r[0], sep)
    ensures |sep| == 1 ==> forall i :: 0 <= i < |r| - 1 ==> !(r[i] == sep[0] && r[i + 1] == sep[0])
  {
    if s == [] then []
    else
      var rest := Collapse(s[1..], sep, IsRunChar(s[0], sep));
      assert forall i :: 0 <= i < |rest| ==> rest[i] in sep || (rest[i] in s && !IsRunChar(rest[i], sep));
      if IsRunChar(s[0], sep) then (if inRun then [] else sep) + rest
      else [s[0]] + rest
  }

  /** The three passes of `slug` after transliteration and lower-casing:
      filter, fold runs into one separator, trim the separator off both ends
      (where `trim` reads the separator as a character list). */
  function Fold(s: string, sep: string): (r: string)
    ensures forall i :: 0 <= i < |r| ==> r[i] in sep || (r[i] in s && IsAlnum(r[i]))
    ensures r != [] ==> !InCharList(r[0], sep) && !InCharList(r[|r| - 1], sep)
  {
    var folded := Collapse(KeepSlugChars(s, sep), sep, false);
    TrimSlice(folded, sep);
    Trim(folded, sep)
  }

  /** `Str::slug(title, sep)`. */
  function Slug(title: string, sep: string := "-"): (r: string)
    ensures forall i :: 0 <= i < |r| ==> r[i] in sep || IsLower(r[i]) || IsDigit(r[i])
    ensures r != [] ==> !InCharList(r[0], sep) && !InCharList(r[|r| - 1], sep)
  {
    Fold(Lower(Ascii(title)), sep)
  }

  lemma FoldNoDouble(s: string, d: char)
    ensures var r := Fold(s, [d]);
      forall i :: 0 <= i < |r| - 1 ==> !(r[i] == d && r[i + 1] == d)
  {
    var folded := Collapse(KeepSlugChars(s, [d]), [d], false);
    TrimNoDouble(folded, d);
  }

  lemma FoldNoSpace(s: string, d: char)
    requires !IsSpace(d)
    ensures var r := Fold(s, [d]);
      forall i :: 0 <= i < |r| ==> !IsSpace(r[i])
  {
    var r := Fold(s, [d]);
    assert forall i :: 0 <= i < |r| ==> r[i] in [d] || IsAlnum(r[i]);
    NoSpaceIn(r, d);
  }

  lemma NoSpaceIn(r: string, d: char)
    requires !IsSpace(d)
    requires forall i :: 0 <= i < |r| ==> r[i] in [d] || IsAlnum(r[i])
    ensures forall i :: 0 <= i < |r| ==> !IsSpace(r[i])
  {
    forall i | 0 <= i < |r| ensures !IsSpace(r[i]) {
      assert r[i] == d || IsAlnum(r[i]);
    }
  }

  /** The three slug properties for the passes after lower-casing. */
  lemma FoldSingleSeparator(s: string, d: char)
    requires !IsSpace(d)
    ensures var r := Fold(s, [d]);
      && (forall i :: 0 <= i < |r| ==> !IsSpace(r[i]))
      && (forall i :: 0 <= i < |r| - 1 ==> !(r[i] == d && r[i + 1] == d))
      && (r != [] ==> r[0] != d && r[|r| - 1] != d)
  {
    FoldNoDouble(s, d);
    FoldNoSpace(s, d);
    var r := Fold(s, [d]);
    if r != [] {
      InCharListSingle(r[0], d);
      InCharListSingle(r[|r| - 1], d);
    }
  }

  /** With a one-character separator that is not whitespace, a slug has no
      whitespace, never two separators in a row, and does not begin or end
      with the separator. */
  lemma SlugSingleSeparator(title: string, d: char)
    requires !IsSpace(d)
    ensures var r := Slug(title, [d]);
      && (forall i :: 0 <= i < |r| ==> !IsSpace(r[i]))
      && (forall i :: 0 <= i < |r| - 1 ==> !(r[i] == d && r[i + 1] == d))
      && (r != [] ==> r[0] != d && r[|r| - 1] != d)
  {
    FoldSingleSeparator(Lower(Ascii(title)), d);
  }

  /** What `trim` keeps is a piece of its input, so it has no two `d` in a
      row when the input has none. */
  lemma TrimNoDouble(s: string, d: char)
    requires forall i :: 0 <= i < |s| - 1 ==> !(s[i] == d && s[i + 1] == d)
    ensures var r := Trim(s, [d]);
      forall i :: 0 <= i < |r| - 1 ==> !(r[i] == d && r[i + 1] == d)
  {
    var r := Trim(s, [d]);
    TrimSlice(s, [d]);
    var off := TrimOffset(s, [d]);
    assert forall i :: 0 <= i < |r| ==> r[i] == s[off + i];
  }

  /** A string without whitespace, without two `d` in a row and, after a run,
      not starting with `d`, passes the folding pass unchanged. */
  lemma {:induction false} CollapseIdentity(s: string, d: char, inRun: bool)
    requires forall i :: 0 <= i < |s| ==> !IsSpace(s[i])
    requires forall i :: 0 <= i < |s| - 1 ==> !(s[i] == d && s[i + 1] == d)
    requires inRun && s != [] ==> s[0] != d
    ensures Collapse(s, [d], inRun) == s
  {
    if s != [] {
      var x, rest := s[0], s[1..];
      if |s| > 1 {
        assert !(s[0] == d && s[1] == d) && rest[0] == s[1];
      }
      assert forall i :: 0 <= i < |rest| ==> rest[i] == s[i + 1];
      CollapseIdentity(rest, d, x == d);
      assert IsRunChar(x, [d]) == (x == d);
      assert s == [x] + rest;
      CollapseCons(x, rest, [d], inRun);
    }
  }

  lemma CollapseCons(x: char, s: string, sep: string, inRun: bool)
    ensures Collapse([x] + s, sep, inRun)
      == (if IsRunChar(x, sep) then (if inRun then [] else sep) else [x]) + Collapse(s, sep, IsRunChar(x, sep))
  {
    assert ([x] + s)[0] == x && ([x] + s)[1..] == s;
  }

  /** A string the passes would produce anyway passes them unchanged. */
  lemma FoldIdentity(s: string, d: char)
    requires forall i :: 0 <= i < |s| ==> (s[i] == d || IsAlnum(s[i])) && !IsSpace(s[i])
    requires forall i :: 0 <= i < |s| - 1 ==> !(s[i] == d && s[i + 1] == d)
    requires s != [] ==> s[0] != d && s[|s| - 1] != d
    ensures Fold(s, [d]) == s
  {
    assert KeepSlugChars(s, [d]) == s;
    CollapseIdentity(s, d, false);
    if s != [] {
      InCharListSingle(s[0], d);
      InCharListSingle(s[|s| - 1], d);
    }
    TrimUntouched(s, [d]);
  }

  /** Slugging a slug changes nothing, for a printable separator that is
      neither whitespace nor a capital. */
  lemma SlugIdempotent(title: string, d: char)
    requires IsKept(d) && !IsSpace(d) && !IsUpper(d)
    ensures Slug(Slug(title, [d]), [d]) == Slug(title, [d])
  {
    SlugShape(title, d);
    SlugFixed(Slug(title, [d]), d);
  }

  /** The shape of a slug with a one-character separator `d`. */
  predicate SlugShaped(r: string, d: char)
  {
    && (forall i :: 0 <= i < |r| ==> r[i] in [d] || IsLower(r[i]) || IsDigit(r[i]))
    && (forall i :: 0 <= i < |r| - 1 ==> !(r[i] == d && r[i + 1] == d))
    && (r != [] ==> r[0] != d && r[|r| - 1] != d)
  }

  lemma SlugShape(title: string, d: char)
    requires !IsSpace(d)
    ensures SlugShaped(Slug(title, [d]), d)
  {
    SlugSingleSeparator(title, d);
  }

  /** A string of the shape slugs have is its own slug. */
  lemma SlugFixed(r: string, d: char)
    requires IsKept(d) && !IsSpace(d) && !IsUpper(d)
    requires SlugShaped(r, d)
    ensures Slug(r, [d]) == r
  {
    forall i | 0 <= i < |r| ensures (r[i] == d || IsAlnum(r[i])) && IsKept(r[i]) && !IsUpper(r[i]) && !IsSpace(r[i]) {
      assert r[i] in [d] || IsLower(r[i]) || IsDigit(r[i]);
    }
    AsciiKeepsPrintable(r);
    LowerNoCapitals(r);
    FoldIdentity(r, d);
  }

  /** A non-empty list of non-empty words made of letters and digits. */
  predicate IsWordList(words: seq<string>)
  {
    && words != []
    && forall k :: 0 <= k < |words| ==> words[k] != [] && forall j :: 0 <= j < |words[k]| ==> IsAlnum(words[k][j])
  }

  /** Every character of words joined by spaces is a space or a character of
      one of the words. */
  lemma {:induction false} JoinSpacedChars(words: seq<string>)
    requires forall k, j :: 0 <= k < |words| && 0 <= j < |words[k]| ==> IsAlnum(words[k][j])
    ensures forall i :: 0 <= i < |Join(words, " ")| ==> IsAlnum(Join(words, " ")[i]) || Join(words, " ")[i] == ' '
  {
    if |words| > 1 {
      JoinSpacedChars(words[1..]);
      var rest := Join(words[1..], " ");
      var s := Join(words, " ");
      assert s == words[0] + " " + rest;
      forall i | 0 <= i < |s| ensures IsAlnum(s[i]) || s[i] == ' ' {
        if i < |words[0]| {
          assert s[i] == words[0][i];
          assert IsAlnum(words[0][i]);
        } else if i > |words[0]| {
          assert s[i] == rest[i - |words[0]| - 1];
          assert IsAlnum(rest[i - |words[0]| - 1]) || rest[i - |words[0]| - 1] == ' ';
        } else {
          assert s[i] == ' ';
        }
      }
    }
  }

  /** Joining non-empty words begins with the first word's first character
      and ends with the last word's last character. */
  lemma {:induction false} JoinEnds(words: seq<string>, sep: string)
    requires words != [] && forall k :: 0 <= k < |words| ==> words[k] != []
    ensures var s := Join(words, sep);
      s != [] && s[0] == words[0][0] && s[|s| - 1] == words[|words| - 1][|words[|words| - 1]| - 1]
  {
    if |words| > 1 {
      JoinEnds(words[1..], sep);
    }
  }

  /** Lower-casing words joined by a lower-case separator lower-cases each word. */
  lemma {:induction false} LowerJoin(words: seq<string>, sep: string)
    requires forall i :: 0 <= i < |sep| ==> !IsUpper(sep[i])
    ensures Lower(Join(words, sep)) == Join(LowerAll(words), sep)
  {
    if |words| > 1 {
      LowerJoin(words[1..], sep);
      assert LowerAll(words)[1..] == LowerAll(words[1..]);
      LowerAppend(words[0] + sep, Join(words[1..], sep));
      LowerAppend(words[0], sep);
      LowerNoCapitals(sep);
    }
  }

  function LowerAll(words: seq<string>): (r: seq<string>)
    ensures |r| == |words| && forall k :: 0 <= k < |r| ==> r[k] == Lower(words[k])
  {
    seq(|words|, k requires 0 <= k < |words| => Lower(words[k]))
  }

  /** A word without separator or whitespace characters passes the folding
      pass unchanged, and the pass then continues outside a run. */
  lemma {:induction false} CollapseWord(w: string, rest: string, sep: string, inRun: bool)
    requires w != [] && forall j :: 0 <= j < |w| ==> !IsRunChar(w[j], sep)
    ensures Collapse(w + rest, sep, inRun) == w + Collapse(rest, sep, false)
  {
    assert (w + rest)[0] == w[0] && (w + rest)[1..] == w[1..] + rest;
    if |w| > 1 {
      CollapseWord(w[1..], rest, sep, false);
      assert [w[0]] + (w[1..] + Collapse(rest, sep, false)) == w + Collapse(rest, sep, false);
    }
  }

  /** Words joined by single spaces fold into the same words joined by the
      separator. */
  lemma {:induction false} CollapseJoin(words: seq<string>, d: char, inRun: bool)
    requires words != [] && !IsAlnum(d)
    requires forall k :: 0 <= k < |words| ==> words[k] != [] && forall j :: 0 <= j < |words[k]| ==> IsAlnum(words[k][j])
    ensures Collapse(Join(words, " "), [d], inRun) == Join(words, [d])
  {
    var w := words[0];
    if |words| == 1 {
      CollapseWord(w, [], [d], inRun);
      assert w + [] == w;
    } else {
      var rest := Join(words[1..], " ");
      assert Join(words, " ") == w + (" " + rest);
      CollapseWord(w, " " + rest, [d], inRun);
      assert (" " + rest)[1..] == rest;
      CollapseJoin(words[1..], d, true);
      assert Collapse(" " + rest, [d], false) == [d] + Join(words[1..], [d]);
    }
  }

  lemma {:induction false} KeepSlugCharsAppend(a: string, b: string, sep: string)
    ensures KeepSlugChars(a + b, sep) == KeepSlugChars(a, sep) + KeepSlugChars(b, sep)
  {
    if a == [] {
      assert a + b == b;
    } else {
      assert (a + b)[0] == a[0] && (a + b)[1..] == a[1..] + b;
      KeepSlugCharsAppend(a[1..], b, sep);
    }
  }

  lemma {:induction false} KeepSlugCharsNone(s: string, sep: string)
    requires forall j :: 0 <= j < |s| ==> !IsSlugChar(s[j], sep)
    ensures KeepSlugChars(s, sep) == ""
  {
    if s != [] {
      KeepSlugCharsNone(s[1..], sep);
    }
  }

  /** Transliteration and lower-casing leave spaced words and trailing ASCII
      punctuation in place, lower-casing each word. */
  lemma PrepareWords(words: seq<string>, tail: string)
    requires IsWordList(words)
    requires forall j :: 0 <= j < |tail| ==> IsKept(tail[j]) && !IsLetter(tail[j])
    ensures Lower(Ascii(Join(words, " ") + tail)) == Join(LowerAll(words), " ") + tail
  {
    var spaced := Join(words, " ");
    var t := spaced + tail;
    JoinSpacedChars(words);
    assert forall i :: 0 <= i < |t| ==> IsKept(t[i]) by {
      forall i | 0 <= i < |t| ensures IsKept(t[i]) {
        if i >= |spaced| {
          assert t[i] == tail[i - |spaced|];
        } else {
          assert t[i] == spaced[i];
        }
      }
    }
    AsciiKeepsPrintable(t);
    LowerAppend(spaced, tail);
    LowerJoin(words, " ");
    LowerNoCapitals(tail);
  }

  lemma LowerAllWordList(words: seq<string>)
    requires IsWordList(words)
    ensures IsWordList(LowerAll(words))
  {
    var lw := LowerAll(words);
    forall k, j | 0 <= k < |lw| && 0 <= j < |lw[k]| ensures IsAlnum(lw[k][j]) {
      assert IsAlnum(words[k][j]);
    }
  }

  /** The passes after lower-casing turn spaced words followed by dropped
      punctuation into the words joined by the separator. */
  lemma FoldWords(words: seq<string>, tail: string, d: char)
    requires IsWordList(words)
    requires forall j :: 0 <= j < |tail| ==> !IsSlugChar(tail[j], [d])
    requires !IsAlnum(d)
    ensures Fold(Join(words, " ") + tail, [d]) == Join(words, [d])
  {
    var spaced := Join(words, " ");
    KeepSlugCharsAppend(spaced, tail, [d]);
    KeepSlugCharsNone(tail, [d]);
    JoinSpacedChars(words);
    assert KeepSlugChars(spaced, [d]) == spaced;
    assert KeepSlugChars(spaced + tail, [d]) == spaced;
    CollapseJoin(words, d, false);
    var r := Join(words, [d]);
    JoinEnds(words, [d]);
    InCharListSingle(r[0], d);
    InCharListSingle(r[|r| - 1], d);
    TrimUntouched(r, [d]);
  }

  /** Words of letters and digits separated by single spaces, followed by
      punctuation the slug drops, slug to the lower-cased words joined by the
      separator. */
  lemma SlugWords(words: seq<string>, tail: string, d: char)
    requires IsWordList(words)
    requires forall j :: 0 <= j < |tail| ==> IsKept(tail[j]) && !IsSlugChar(tail[j], [d])
    requires !IsAlnum(d)
    ensures Slug(Join(words, " ") + tail, [d]) == Join(LowerAll(words), [d])
  {
    PrepareWords(words, tail);
    LowerAllWordList(words);
    FoldWords(LowerAll(words), tail, d);
  }

  /** The words of the documented title of `slug`, slugged with `d`. */
  lemma SlugExampleWords(d: char)
    requires d == '-' || d == '_'
    ensures Slug(Join(["This", "is", "my", "blog", "post"], " ") + "!", [d])
      == Join(["this", "is", "my", "blog", "post"], [d])
  {
    ExampleWords();
    SlugWords(["This", "is", "my", "blog", "post"], "!", d);
  }

  lemma ExampleTitle(title: string)
    requires title == "This is my blog post!"
    ensures title == Join(["This", "is", "my", "blog", "post"], " ") + "!"
  {
  }

  /** The documented examples of `slug`, with the default and with `_` as the
      separator: "this-is-my-blog-post" and "this_is_my_blog_post". */
  lemma SlugExamples(title: string)
    requires title == "This is my blog post!"
    ensures Slug(title, "-") == Join(["this", "is", "my", "blog", "post"], "-")
    ensures Slug(title, "_") == Join(["this", "is", "my", "blog", "post"], "_")
  {
    ExampleTitle(title);
    SlugExampleWords('-');
    SlugExampleWords('_');
  }

  lemma ExampleWords()
    ensures IsWordList(["This", "is", "my", "blog", "post"])
    ensures LowerAll(["This", "is", "my", "blog", "post"]) == ["this", "is", "my", "blog", "post"]
  {
    assert Lower("This") == "this";
    assert Lower("is") == "is";
    assert Lower("my") == "my";
    assert Lower("blog") == "blog";
    assert Lower("post") == "post";
  }

  // ---------------------------------------------------------------- limit

  function Min(a: int, b: int): int { if a <= b then a else b }

  function Max(a: int, b: int): int { if a >= b then a else b }

  /** `mb_substr(v, 0, n)`: a negative length leaves that many characters off
      the end. */
  function Prefix(v: string, n: int): (r: string)
    ensures |r| <= |v| && r == v[..|r|]
    ensures n >= 0 ==> |r| == Min(n, |v|)
    ensures n < 0 ==> |r| == Max(0, |v| + n)
  {
    if n >= |v| then v
    else if n >= 0 then v[..n]
    else if |v| + n > 0 then v[..|v| + n]
    else ""
  }

  /** `Str::limit(v, limit, end)`. */
  function Limit(v: string, limit: int := 100, end: string := "..."): (r: string)
    ensures |v| <= limit ==> r == v
    ensures 0 <= limit < |v| ==> r == v[..limit] + end
    ensures limit < 0 ==> r == v[..Max(0, |v| + limit)] + end
  {
    if |v| <= limit then v else Prefix(v, limit) + end
  }

  /** `Str::limitExact(v, limit, end)`: the ending counts against the limit. */
  function LimitExact(v: string, limit: int := 100, end: string := "..."): (r: string)
    ensures |v| <= limit ==> r == v
    ensures |v| > limit && |end| <= limit ==> r == v[..limit - |end|] + end
    ensures |end| <= limit ==> |r| <= limit
    ensures |v| > limit && |end| > limit ==> r == v[..Max(0, |v| + limit - |end|)] + end
  {
    if |v| <= limit then v else Limit(v, limit - |end|, end)
  }

  /** An ending longer than the limit makes the length negative, so
      `mb_substr` keeps all but the excess: the result is longer than the
      input. */
  lemma LimitExactOverlongEnd()
    ensures LimitExact("Taylor", 2, "...") == "Taylo" + "..."
  {
    assert "Taylor"[..5] == "Taylo";
  }

  lemma LimitExamples()
    ensures Limit("Taylor Otwell") == "Taylor Otwell"
    ensures Limit("Taylor Otwell", 3) == "Tay" + "..."
    ensures Limit("Taylor Otwell", 3, "---") == "Tay" + "---"
    ensures LimitExact("Taylor Otwell", 9, "...") == "Taylor" + "..."
  {
    assert "Taylor Otwell"[..3] == "Tay";
    assert "Taylor Otwell"[..6] == "Taylor";
  }

  // ---------------------------------------------------------------- finish

  /** `Str::finish(v, cap)`: `rtrim(v, cap) . cap`, where `rtrim` reads `cap`
      as a character list, ranges included. */
  function Finish(v: string, cap: string): (r: string)
    ensures |r| >= |cap| && r[|r| - |cap|..] == cap
    ensures var body := r[..|r| - |cap|];
      && |body| <= |v| && body == v[..|body|]
      && (forall i :: |body| <= i < |v| ==> InCharList(v[i], cap))
      && (body != [] ==> !InCharList(body[|body| - 1], cap))
  {
    var body := TrimRight(v, cap);
    assert (body + cap)[..|body|] == body;
    body + cap
  }

  /** Every character of `cap` is one that `cap` names as a character list. */
  predicate NamesItself(cap: string)
  {
    forall i :: 0 <= i < |cap| ==> InCharList(cap[i], cap)
  }

  /** A cap without `..` names itself. */
  lemma LiteralNamesItself(cap: string)
    requires forall i :: 0 <= i < |cap| - 1 ==> !(cap[i] == '.' && cap[i + 1] == '.')
    ensures NamesItself(cap)
  {
    forall i | 0 <= i < |cap| ensures InCharList(cap[i], cap) {
      InCharListLiteral(cap[i], cap);
    }
  }

  /** A capped string is capped once: finishing again changes nothing, for a
      cap that names itself. */
  lemma FinishIdempotent(v: string, cap: string)
    requires NamesItself(cap)
    ensures Finish(Finish(v, cap), cap) == Finish(v, cap)
  {
    var body := TrimRight(v, cap);
    assert Finish(v, cap) == body + cap;
    FinishCapped(body, cap);
  }

  lemma FinishCapped(body: string, cap: string)
    requires NamesItself(cap)
    requires body != [] ==> !InCharList(body[|body| - 1], cap)
    ensures Finish(body + cap, cap) == body + cap
  {
    TailIn(body, cap);
    TrimRightUnique(body + cap, cap, body);
  }

  /** Every character of the appended `cap` is named by `cap`. */
  lemma TailIn(body: string, cap: string)
    requires NamesItself(cap)
    ensures |body| <= |body + cap| && body == (body + cap)[..|body|]
    ensures forall i :: |body| <= i < |body + cap| ==> InCharList((body + cap)[i], cap)
  {
    var r := body + cap;
    forall i | |body| <= i < |r| ensures InCharList(r[i], cap) {
      assert r[i] == cap[i - |body|];
    }
  }

  /** A range in the cap trims every character it names: `finish('abc', 'a..c')`
      is `a..c`. */
  lemma FinishRange()
    ensures Finish("abc", "a..c") == "a..c"
  {
  }

  /** A cap whose dots its own range does not name is not idempotent:
      finishing `xa..c` with `a..c` trims only the final `c`. */
  lemma FinishRangeNotIdempotent()
    ensures Finish("x", "a..c") == "xa..c"
    ensures Finish(Finish("x", "a..c"), "a..c") == "xa.." + "a..c"
  {
    var cap := "a..c";
    assert cap[4..] == [];
    assert !InCharList('x', cap) && !InCharList('.', cap);
    InCharListRange('c', 'a', 'c');
    assert TrimRight("x", cap) == "x";
    assert "x" + cap == "xa..c";
    assert "xa..c"[..4] == "xa..";
    assert TrimRight("xa..", cap) == "xa..";
  }

  // ---------------------------------------------------------------- extension

  /** The last position of `c` in `s` (`strrchr`). */
  function LastIndexOf(s: string, c: char): (r: Option<nat>)
    ensures r.Some? ==> r.value < |s| && s[r.value] == c && c !in s[r.value + 1..]
    ensures r.None? <==> c !in s
  {
    if s == [] then None
    else if s[|s| - 1] == c then Some(|s| - 1)
    else
      assert s == s[..|s| - 1] + [s[|s| - 1]];
      match LastIndexOf(s[..|s| - 1], c)
      case Some(k) => assert s[k + 1..] == s[..|s| - 1][k + 1..] + [s[|s| - 1]]; Some(k)
      case None => None
  }

  /** `Str::extension(f)`: `strtolower(substr(strrchr(f, '.'), 1))`; without a
      dot `strrchr` gives false, whose substring is empty. */
  function Extension(f: string): (r: string)
    ensures '.' !in r
    ensures '.' !in f ==> r == ""
    ensures '.' in f ==> |r| < |f| && f[|f| - |r| - 1] == '.' && r == Lower(f[|f| - |r|..])
  {
    match LastIndexOf(f, '.')
    case None => ""
    case Some(k) =>
      var r := Lower(f[k + 1..]);
      assert forall i :: 0 <= i < |r| ==> r[i] != '.' by {
        forall i | 0 <= i < |r| ensures r[i] != '.' {
          assert f[k + 1..][i] in f[k + 1..];
        }
      }
      r
  }

  /** Characters other than `c` appended at the end do not move its last
      position. */
  lemma {:induction false} LastIndexOfAppend(a: string, b: string, c: char)
    requires c !in b
    ensures LastIndexOf(a + b, c) == LastIndexOf(a, c)
    decreases |b|
  {
    if b == [] {
      assert a + b == a;
    } else {
      var s := a + b;
      var b' := b[..|b| - 1];
      assert s[|s| - 1] == b[|b| - 1] && s[..|s| - 1] == a + b';
      assert c !in b' by {
        forall j | 0 <= j < |b'| ensures b'[j] != c {
          assert b'[j] == b[j];
        }
      }
      LastIndexOfAppend(a, b', c);
    }
  }

  /** The last dot of `base.ext` is the one in front of `ext`. */
  lemma LastDot(base: string, ext: string)
    requires '.' !in ext
    ensures LastIndexOf(base + "." + ext, '.') == Some(|base|)
  {
    var pre := base + ".";
    assert pre[|pre| - 1] == '.';
    LastIndexOfAppend(pre, ext, '.');
  }

  /** The extension of `base.ext` is `ext` lower-cased, whatever `base` holds. */
  lemma ExtensionOf(base: string, ext: string)
    requires '.' !in ext
    ensures Extension(base + "." + ext) == Lower(ext)
  {
    LastDot(base, ext);
    assert (base + "." + ext)[|base| + 1..] == ext;
  }

  // ---------------------------------------------------------------- segments

  /** `explode(c, s)`: the pieces between occurrences of `c`, empty ones
      included. */
  function Split(s: string, c: char): (r: seq<string>)
    ensures |r| >= 1
    ensures forall k :: 0 <= k < |r| ==> c !in r[k]
    ensures Join(r, [c]) == s
    decreases |s|
  {
    match IndexOf(s, c)
    case None => [s]
    case Some(k) =>
      var rest := Split(s[k + 1..], c);
      assert ([s[..k]] + rest)[1..] == rest;
      assert s == s[..k] + [c] + s[k + 1..];
      [s[..k]] + rest
  }

  /** `array_diff(pieces, [''])` from position `i` on: the non-empty pieces,
      each with the key `explode` gave it. */
  function NonEmptyFrom(pieces: seq<string>, i: nat): (r: seq<(nat, string)>)
    requires i <= |pieces|
    ensures forall j :: 0 <= j < |r| ==> i <= r[j].0 < |pieces| && r[j].1 == pieces[r[j].0] && r[j].1 != ""
    ensures forall j, j' :: 0 <= j < j' < |r| ==> r[j].0 < r[j'].0
    decreases |pieces| - i
  {
    if i == |pieces| then []
    else (if pieces[i] != "" then [(i, pieces[i])] else []) + NonEmptyFrom(pieces, i + 1)
  }

  function Values(entries: seq<(nat, string)>): (r: seq<string>)
    ensures |r| == |entries| && forall j :: 0 <= j < |r| ==> r[j] == entries[j].1
  {
    seq(|entries|, j requires 0 <= j < |entries| => entries[j].1)
  }

  /** `Str::segments(v)`: the non-empty pieces of `v` between slashes, keyed
      by their position in `explode('/', trim(v, '/'))`. */
  function Segments(v: string): (r: seq<(nat, string)>)
    ensures forall j :: 0 <= j < |r| ==> r[j].1 != "" && '/' !in r[j].1
    ensures forall j, j' :: 0 <= j < j' < |r| ==> r[j].0 < r[j'].0
    ensures forall j :: 0 <= j < |r| ==>
      r[j].0 < |Split(Trim(v, "/"), '/')| && r[j].1 == Split(Trim(v, "/"), '/')[r[j].0]
    ensures forall p :: 0 <= p < |Split(Trim(v, "/"), '/')| && Split(Trim(v, "/"), '/')[p] != "" ==>
      (p, Split(Trim(v, "/"), '/')[p]) in r
  {
    var pieces := Split(Trim(v, "/"), '/');
    var r := NonEmptyFrom(pieces, 0);
    assert forall j :: 0 <= j < |r| ==> '/' !in pieces[r[j].0];
    NonEmptyFromComplete(pieces, 0);
    r
  }

  /** Every non-empty piece from position `i` on is kept, under its position. */
  lemma {:induction false} NonEmptyFromComplete(pieces: seq<string>, i: nat)
    requires i <= |pieces|
    ensures forall p :: i <= p < |pieces| && pieces[p] != "" ==> (p, pieces[p]) in NonEmptyFrom(pieces, i)
    decreases |pieces| - i
  {
    if i < |pieces| {
      NonEmptyFromComplete(pieces, i + 1);
    }
  }

  /** The non-empty pieces, as a plain list. */
  function NonEmpty(pieces: seq<string>): (r: seq<string>)
    ensures forall j :: 0 <= j < |r| ==> r[j] != ""
  {
    if pieces == [] then []
    else (if pieces[0] != "" then [pieces[0]] else []) + NonEmpty(pieces[1..])
  }

  lemma {:induction false} NonEmptyFromValues(pieces: seq<string>, i: nat)
    requires i <= |pieces|
    ensures Values(NonEmptyFrom(pieces, i)) == NonEmpty(pieces[i..])
    decreases |pieces| - i
  {
    if i < |pieces| {
      NonEmptyFromValues(pieces, i + 1);
      assert pieces[i..][1..] == pieces[i + 1..];
      var head: seq<(nat, string)> := if pieces[i] != "" then [(i, pieces[i])] else [];
      assert Values(head + NonEmptyFrom(pieces, i + 1)) == Values(head) + Values(NonEmptyFrom(pieces, i + 1));
    }
  }

  /** Reference reading of "slashes collapsed and trimmed", one character at a
      time: `started` says a piece was emitted, `pending` that slashes were
      seen since; a pending slash is emitted only in front of a later
      character. */
  function Normalized(s: string, started: bool, pending: bool): string
  {
    if s == [] then ""
    else if s[0] == '/' then Normalized(s[1..], started, started)
    else (if pending then "/" else "") + [s[0]] + Normalized(s[1..], true, false)
  }

  /** `s` with runs of slashes collapsed to one and slashes trimmed off both
      ends. */
  function Normalize(s: string): string
  {
    Normalized(s, false, false)
  }

  function SlashThen(s: string): string
  {
    if s == "" then "" else "/" + s
  }

  lemma {:induction false} NormalizedPending(s: string)
    ensures Normalized(s, true, true) == SlashThen(Normalize(s))
  {
    if s != [] && s[0] == '/' {
      NormalizedPending(s[1..]);
    }
  }

  lemma {:induction false} NormalizedWord(w: string, rest: string, started: bool, pending: bool)
    requires w != [] && '/' !in w
    ensures Normalized(w + rest, started, pending)
      == (if pending then "/" else "") + w + Normalized(rest, true, false)
  {
    assert (w + rest)[0] == w[0] && (w + rest)[1..] == w[1..] + rest;
    if |w| > 1 {
      NormalizedWord(w[1..], rest, true, false);
      assert [w[0]] + w[1..] == w;
    }
  }

  lemma JoinEmpty(parts: seq<string>, sep: string)
    requires forall j :: 0 <= j < |parts| ==> parts[j] != ""
    ensures Join(parts, sep) == "" <==> parts == []
  {
    if parts != [] {
      JoinEnds(parts, sep);
    }
  }

  /** Joining the non-empty pieces of `explode` with slashes is the normalised
      string. */
  lemma {:induction false} JoinNonEmptySplit(s: string)
    ensures Join(NonEmpty(Split(s, '/')), "/") == Normalize(s)
    decreases |s|
  {
    if '/' !in s {
      SplitWhole(s);
      JoinNonEmptyPiece(s);
    } else {
      var k := IndexOf(s, '/').value;
      SplitAt(s, k);
      JoinNonEmptySplit(s[k + 1..]);
      JoinNonEmptyStep(s[..k], s[k + 1..], Split(s[k + 1..], '/'));
    }
  }

  lemma SplitWhole(s: string)
    requires '/' !in s
    ensures Split(s, '/') == [s]
  {
    assert IndexOf(s, '/').None?;
  }

  /** `explode` cuts at the first slash. */
  lemma SplitAt(s: string, k: nat)
    requires IndexOf(s, '/') == Some(k)
    ensures '/' !in s[..k]
    ensures s == s[..k] + ("/" + s[k + 1..])
    ensures Split(s, '/') == [s[..k]] + Split(s[k + 1..], '/')
  {
    CutAt(s, k);
  }

  lemma CutAt(s: string, k: nat)
    requires k < |s| && s[k] == '/'
    ensures s == s[..k] + ("/" + s[k + 1..])
  {
    assert s == s[..k] + [s[k]] + s[k + 1..];
  }

  lemma JoinNonEmptyPiece(s: string)
    requires '/' !in s
    ensures Join(NonEmpty([s]), "/") == Normalize(s)
  {
    assert NonEmpty([s]) == (if s != "" then [s] else []) + NonEmpty([]);
    if s != [] {
      NormalizedWord(s, [], false, false);
      assert s + [] == s;
    }
  }

  /** One step of `explode`: a piece, a slash, and the rest. */
  lemma JoinNonEmptyStep(w: string, rest: string, ps: seq<string>)
    requires '/' !in w
    requires Join(NonEmpty(ps), "/") == Normalize(rest)
    ensures Join(NonEmpty([w] + ps), "/") == Normalize(w + ("/" + rest))
  {
    assert ([w] + ps)[1..] == ps;
    assert ("/" + rest)[0] == '/' && ("/" + rest)[1..] == rest;
    if w != [] {
      JoinNonEmptyWord(w, rest, ps);
    } else {
      assert w + ("/" + rest) == "/" + rest;
      assert NonEmpty([w] + ps) == [] + NonEmpty(ps);
      assert [] + NonEmpty(ps) == NonEmpty(ps);
    }
  }

  lemma JoinNonEmptyWord(w: string, rest: string, ps: seq<string>)
    requires w != [] && '/' !in w
    requires Join(NonEmpty(ps), "/") == Normalize(rest)
    ensures Join([w] + NonEmpty(ps), "/") == w + SlashThen(Normalize(rest))
    ensures Join(NonEmpty([w] + ps), "/") == Normalize(w + ("/" + rest))
  {
    var ne := NonEmpty(ps);
    JoinEmpty(ne, "/");
    if ne != [] {
      assert ([w] + ne)[1..] == ne;
    }
    assert ([w] + ps)[1..] == ps;
    assert NonEmpty([w] + ps) == [w] + ne;
    NormalizedWord(w, "/" + rest, false, false);
    assert ("/" + rest)[0] == '/' && ("/" + rest)[1..] == rest;
    NormalizedPending(rest);
  }

  lemma {:induction false} NormalizedTrailingSlash(u: string, started: bool, pending: bool)
    ensures Normalized(u + "/", started, pending) == Normalized(u, started, pending)
  {
    if u == [] {
      assert u + "/" == "/";
    } else {
      assert (u + "/")[0] == u[0] && (u + "/")[1..] == u[1..] + "/";
      if u[0] == '/' {
        NormalizedTrailingSlash(u[1..], started, started);
      } else {
        NormalizedTrailingSlash(u[1..], true, false);
      }
    }
  }

  lemma {:induction false} NormalizeTrimRight(u: string)
    ensures Normalize(TrimRight(u, "/")) == Normalize(u)
    decreases |u|
  {
    if u != [] {
      InCharListSingle(u[|u| - 1], '/');
    }
    if u != [] && u[|u| - 1] == '/' {
      NormalizeTrimRight(u[..|u| - 1]);
      assert u == u[..|u| - 1] + "/";
      NormalizedTrailingSlash(u[..|u| - 1], false, false);
    }
  }

  lemma {:induction false} NormalizeTrimLeft(u: string)
    ensures Normalize(TrimLeft(u, "/")) == Normalize(u)
  {
    if u != [] {
      InCharListSingle(u[0], '/');
    }
    if u != [] && u[0] == '/' {
      NormalizeTrimLeft(u[1..]);
    }
  }

  /** `segments` keeps, in order, exactly the pieces of the input once runs of
      slashes are collapsed and trimmed. */
  lemma SegmentsNormalize(v: string)
    ensures Join(Values(Segments(v)), "/") == Normalize(v)
  {
    var t := Trim(v, "/");
    NonEmptyFromValues(Split(t, '/'), 0);
    assert Split(t, '/')[0..] == Split(t, '/');
    JoinNonEmptySplit(t);
    NormalizeTrimRight(TrimLeft(v, "/"));
    NormalizeTrimLeft(v);
  }

  /** `explode` undoes `implode` when no piece holds the separator. */
  lemma {:induction false} SplitJoin(xs: seq<string>, c: char)
    requires xs != [] && forall k :: 0 <= k < |xs| ==> c !in xs[k]
    ensures Split(Join(xs, [c]), c) == xs
  {
    var s := Join(xs, [c]);
    if |xs| == 1 {
      assert IndexOf(s, c).None?;
    } else {
      var rest := Join(xs[1..], [c]);
      assert s == xs[0] + [c] + rest;
      assert s[|xs[0]|] == c;
      assert s[..|xs[0]|] == xs[0];
      assert IndexOf(s, c) == Some(|xs[0]|);
      assert s[|xs[0]| + 1..] == rest;
      SplitJoin(xs[1..], c);
    }
  }

  lemma {:induction false} NonEmptyAll(xs: seq<string>)
    requires forall k :: 0 <= k < |xs| ==> xs[k] != ""
    ensures NonEmpty(xs) == xs
  {
    if xs != [] {
      NonEmptyAll(xs[1..]);
    }
  }

  /** Non-empty, slash-free segments joined by slashes come back unchanged. */
  lemma SegmentsOfJoin(xs: seq<string>)
    requires xs != [] && forall k :: 0 <= k < |xs| ==> xs[k] != "" && '/' !in xs[k]
    ensures Values(Segments(Join(xs, "/"))) == xs
  {
    var s := Join(xs, "/");
    JoinEnds(xs, "/");
    InCharListSingle(s[0], '/');
    InCharListSingle(s[|s| - 1], '/');
    TrimUntouched(s, "/");
    SplitJoin(xs, '/');
    NonEmptyFromValues(xs, 0);
    assert xs[0..] == xs;
    NonEmptyAll(xs);
  }

  // ---------------------------------------------------------------- search

  /** `needle` occurs in `haystack` at offset `i`. */
  predicate OccursAt(haystack: string, needle: string, i: nat)
  {
    i + |needle| <= |haystack| && haystack[i..i + |needle|] == needle
  }

  predicate Occurs(haystack: string, needle: string)
  {
    exists i: nat :: i <= |haystack| && OccursAt(haystack, needle, i)
  }

  function FindFrom(haystack: string, needle: string, i: nat): (r: Option<nat>)
    requires i <= |haystack|
    ensures r.Some? ==> i <= r.value <= |haystack| && OccursAt(haystack, needle, r.value)
    ensures r.Some? ==> forall j: nat :: i <= j < r.value ==> !OccursAt(haystack, needle, j)
    ensures r.None? ==> forall j: nat :: i <= j <= |haystack| ==> !OccursAt(haystack, needle, j)
    decreases |haystack| - i
  {
    if OccursAt(haystack, needle, i) then Some(i)
    else if i == |haystack| then None
    else FindFrom(haystack, needle, i + 1)
  }

  /** `strpos(haystack, needle)`: the first offset of `needle`, or false; an
      empty needle is found at 0. */
  function Strpos(haystack: string, needle: string): (r: Option<nat>)
    ensures r.Some? <==> Occurs(haystack, needle)
    ensures r.Some? ==> OccursAt(haystack, needle, r.value)
    ensures r.Some? ==> forall j: nat :: j < r.value ==> !OccursAt(haystack, needle, j)
  {
    FindFrom(haystack, needle, 0)
  }

  /** `Str::startsWith`: `strpos(haystack, needle) === 0`. */
  function StartsWith(haystack: string, needle: string): (r: bool)
    ensures r <==> |needle| <= |haystack| && haystack[..|needle|] == needle
  {
    Strpos(haystack, needle) == Some(0)
  }

  /** `substr(s, start)` for a start at most `|s|`: a negative start counts
      from the end and is clamped to 0. */
  function Substr(s: string, start: int): (r: string)
    requires start <= |s|
    ensures |r| <= |s| && r == s[|s| - |r|..]
    ensures start >= 0 ==> |r| == |s| - start
    ensures start < 0 ==> |r| == Min(|s|, -start)
  {
    if start >= 0 then s[start..]
    else if |s| + start >= 0 then s[|s| + start..]
    else s
  }

  /** `Str::endsWith`: `needle == substr(haystack, strlen(haystack) - strlen(needle))`. */
  function EndsWith(haystack: string, needle: string): (r: bool)
    ensures r <==> |needle| <= |haystack| && haystack[|haystack| - |needle|..] == needle
  {
    needle == Substr(haystack, |haystack| - |needle|)
  }

  /** `Str::contains`: true as soon as one needle occurs. */
  method Contains(haystack: string, needles: seq<string>) returns (r: bool)
    ensures r <==> exists k :: 0 <= k < |needles| && Occurs(haystack, needles[k])
  {
    var k := 0;
    while k < |needles|
      invariant 0 <= k <= |needles|
      invariant forall j :: 0 <= j < k ==> !Occurs(haystack, needles[j])
    {
      if Strpos(haystack, needles[k]).Some? {
        return true;
      }
      k := k + 1;
    }
    return false;
  }

  /** A needle that occurs at some offset is found by `strpos`, at that
      offset or earlier. */
  lemma StrposFinds(haystack: string, needle: string, i: nat)
    requires OccursAt(haystack, needle, i)
    ensures Strpos(haystack, needle).Some? && Strpos(haystack, needle).value <= i
  {
  }

  // ---------------------------------------------------------------- camelCase

  /** `str_replace(['-', '_'], ' ', s)`. */
  function Unhyphen(s: string): (r: string)
    ensures |r| == |s|
    ensures forall i :: 0 <= i < |r| ==> r[i] != '-' && r[i] != '_'
    ensures forall i :: 0 <= i < |r| ==> (r[i] == s[i] <==> s[i] != '-' && s[i] != '_')
    ensures forall i :: 0 <= i < |r| && (s[i] == '-' || s[i] == '_') ==> r[i] == ' '
  {
    seq(|s|, i requires 0 <= i < |s| => if s[i] == '-' || s[i] == '_' then ' ' else s[i])
  }

  /** `ucwords(s)`: the first character and every character after a space,
      tab, carriage return, line feed, form feed or vertical tab is
      upper-cased. */
  function UcWords(s: string): (r: string)
    ensures |r| == |s|
    ensures forall i {:trigger r[i]} :: 0 <= i < |r| ==> r[i] == s[i] || (IsLower(s[i]) && r[i] == ToUpper(s[i]))
    ensures forall i {:trigger r[i]} :: 0 <= i < |r| && r[i] != s[i] ==> i == 0 || IsSpace(s[i - 1])
    ensures forall i {:trigger r[i]} :: 0 <= i < |r| && (i == 0 || IsSpace(s[i - 1])) && IsLower(s[i]) ==> r[i] as int == s[i] as int - 32
  {
    seq(|s|, i requires 0 <= i < |s| => if i == 0 || IsSpace(s[i - 1]) then ToUpper(s[i]) else s[i])
  }

  /** `str_replace(c, '', s)` for a single character. */
  function Without(s: string, c: char): (r: string)
    ensures |r| <= |s|
    ensures c !in r
    ensures forall x :: x in r ==> x in s
    ensures (c !in s) ==> r == s
  {
    if s == [] then []
    else
      var rest := Without(s[1..], c);
      assert forall x :: x in rest ==> x in s;
      (if s[0] == c then [] else [s[0]]) + rest
  }

  /** `Str::camelCase(v)`. */
  function CamelCase(v: string): (r: string)
    ensures ' ' !in r && '-' !in r && '_' !in r
  {
    var plain := Unhyphen(v);
    var spaced := UcWords(plain);
    assert '-' !in spaced && '_' !in spaced by {
      forall i | 0 <= i < |spaced| ensures spaced[i] != '-' && spaced[i] != '_' {
        assert plain[i] != '-' && plain[i] != '_';
      }
    }
    Without(spaced, ' ')
  }

  /** The first character of a word upper-cased (`ucfirst`). */
  function Capitalize(w: string): (r: string)
    ensures |r| == |w|
    ensures w != [] ==> r[0] == ToUpper(w[0]) && r[1..] == w[1..]
  {
    if w == [] then [] else [ToUpper(w[0])] + w[1..]
  }

  /** A word for `camelCase`: non-empty, no whitespace, hyphen or underscore. */
  predicate IsCamelWord(w: string)
  {
    w != [] && forall j :: 0 <= j < |w| ==> !IsSpace(w[j]) && w[j] != '-' && w[j] != '_'
  }

  function CapitalizeAll(words: seq<string>): (r: seq<string>)
    ensures |r| == |words| && forall k :: 0 <= k < |r| ==> r[k] == Capitalize(words[k])
  {
    seq(|words|, k requires 0 <= k < |words| => Capitalize(words[k]))
  }

  lemma UnhyphenAppend(a: string, b: string)
    ensures Unhyphen(a + b) == Unhyphen(a) + Unhyphen(b)
  {
  }

  lemma {:induction false} UnhyphenJoin(words: seq<string>, d: char)
    requires d == '-' || d == '_' || d == ' '
    requires forall k :: 0 <= k < |words| ==> IsCamelWord(words[k])
    ensures Unhyphen(Join(words, [d])) == Join(words, " ")
  {
    if |words| == 1 {
      assert Unhyphen(words[0]) == words[0];
    } else if |words| > 1 {
      UnhyphenJoin(words[1..], d);
      UnhyphenAppend(words[0] + [d], Join(words[1..], [d]));
      UnhyphenAppend(words[0], [d]);
      assert Unhyphen(words[0]) == words[0];
    }
  }

  /** After a space, `ucwords` starts afresh. */
  lemma UcWordsSpace(a: string, b: string)
    ensures UcWords(a + " " + b) == UcWords(a) + " " + UcWords(b)
  {
    var s := a + " " + b;
    var r := UcWords(a) + " " + UcWords(b);
    forall i | 0 <= i < |s| ensures UcWords(s)[i] == r[i] {
      if i < |a| {
        assert s[i] == a[i];
        if i > 0 {
          assert s[i - 1] == a[i - 1];
        }
      } else if i > |a| {
        assert s[i] == b[i - |a| - 1];
        if i > |a| + 1 {
          assert s[i - 1] == b[i - |a| - 2];
        }
      }
    }
  }

  lemma UcWordsWord(w: string)
    requires IsCamelWord(w)
    ensures UcWords(w) == Capitalize(w)
  {
    forall i | 1 <= i < |w| ensures UcWords(w)[i] == w[i] {
      assert !IsSpace(w[i - 1]);
    }
  }

  lemma {:induction false} UcWordsJoin(words: seq<string>)
    requires forall k :: 0 <= k < |words| ==> IsCamelWord(words[k])
    ensures UcWords(Join(words, " ")) == Join(CapitalizeAll(words), " ")
  {
    if |words| == 1 {
      UcWordsWord(words[0]);
    } else if |words| > 1 {
      UcWordsJoin(words[1..]);
      UcWordsSpace(words[0], Join(words[1..], " "));
      UcWordsWord(words[0]);
      assert CapitalizeAll(words)[1..] == CapitalizeAll(words[1..]);
    }
  }

  lemma WithoutCons(x: char, s: string, c: char)
    ensures Without([x] + s, c) == (if x == c then [] else [x]) + Without(s, c)
  {
    assert ([x] + s)[0] == x && ([x] + s)[1..] == s;
  }

  lemma {:induction false} WithoutAppend(a: string, b: string, c: char)
    ensures Without(a + b, c) == Without(a, c) + Without(b, c)
  {
    if a == [] {
      assert a + b == b;
    } else {
      var head: string := if a[0] == c then [] else [a[0]];
      assert a + b == [a[0]] + (a[1..] + b) && a == [a[0]] + a[1..];
      WithoutCons(a[0], a[1..] + b, c);
      WithoutCons(a[0], a[1..], c);
      WithoutAppend(a[1..], b, c);
      AppendAssoc(head, Without(a[1..], c), Without(b, c));
    }
  }

  // Proof helper: regroups a concatenation.
  lemma AppendAssoc(x: string, y: string, z: string)
    ensures x + (y + z) == (x + y) + z
  {
  }

  lemma {:induction false} WithoutSpacesJoin(words: seq<string>)
    requires forall k :: 0 <= k < |words| ==> ' ' !in words[k]
    ensures Without(Join(words, " "), ' ') == Concat(words)
  {
    if |words| == 1 {
      assert Concat(words) == words[0] + Concat([]);
    } else if |words| > 1 {
      var j := Join(words[1..], " ");
      assert Join(words, " ") == words[0] + " " + j;
      WithoutSpaceStep(words[0], j);
      WithoutSpacesJoin(words[1..]);
      assert Concat(words) == words[0] + Concat(words[1..]);
    }
  }

  lemma WithoutSpaceStep(w: string, j: string)
    requires ' ' !in w
    ensures Without(w + " " + j, ' ') == w + Without(j, ' ')
  {
    var sp: string := " ";
    WithoutAppend(w + sp, j, ' ');
    WithoutAppend(w, sp, ' ');
    WithoutCons(' ', [], ' ');
    assert [' '] + [] == sp;
    assert Without(w, ' ') == w;
    assert Without(w + sp, ' ') == w;
  }

  /** Words separated by single hyphens, underscores or spaces become the
      words, each with its first character upper-cased, run together. */
  lemma CamelCaseWords(words: seq<string>, d: char)
    requires d == '-' || d == '_' || d == ' '
    requires forall k :: 0 <= k < |words| ==> IsCamelWord(words[k])
    ensures CamelCase(Join(words, [d])) == Concat(CapitalizeAll(words))
  {
    UnhyphenJoin(words, d);
    UcWordsJoin(words);
    var caps := CapitalizeAll(words);
    forall k | 0 <= k < |caps| ensures ' ' !in caps[k] {
      assert caps[k] == [ToUpper(words[k][0])] + words[k][1..];
      assert !IsSpace(words[k][0]);
      assert forall j :: 1 <= j < |words[k]| ==> words[k][j] != ' ';
    }
    WithoutSpacesJoin(caps);
  }

  /** The characters `camelCase` removes. */
  predicate IsCamelSeparator(c: char) { c == '-' || c == '_' || c == ' ' }

  /** Reference reading of `camelCase`, one character at a time: separators
      disappear, and the first character, or one after a separator or other
      whitespace, is upper-cased; `atWord` says the previous character was
      such a separator. */
  function CamelRef(s: string, atWord: bool): string
  {
    if s == [] then []
    else if IsCamelSeparator(s[0]) then CamelRef(s[1..], true)
    else [if atWord then ToUpper(s[0]) else s[0]] + CamelRef(s[1..], IsSpace(s[0]))
  }

  /** `u` is `v` with its separators turned into spaces. */
  predicate UnhyphenShape(v: string, u: string)
  {
    |u| == |v| && forall i {:trigger u[i]} :: 0 <= i < |v| ==> u[i] == if IsCamelSeparator(v[i]) then ' ' else v[i]
  }

  /** `x` is `u` with every word start upper-cased; `st` says whether the
      first character starts a word. */
  predicate UcShape(u: string, x: string, st: bool)
  {
    |x| == |u| && forall i {:trigger x[i]} :: 0 <= i < |u| ==> x[i] == if (if i == 0 then st else IsSpace(u[i - 1])) then ToUpper(u[i]) else u[i]
  }

  // Proof helper: both shapes carry over to the tails.
  lemma ShapeTail(v: string, u: string, x: string, st: bool)
    requires v != [] && UnhyphenShape(v, u) && UcShape(u, x, st)
    ensures UnhyphenShape(v[1..], u[1..]) && UcShape(u[1..], x[1..], IsSpace(u[0]))
  {
    forall i | 0 <= i < |v| - 1
      ensures u[1..][i] == if IsCamelSeparator(v[1..][i]) then ' ' else v[1..][i]
    {
      assert u[1..][i] == u[i + 1] && v[1..][i] == v[i + 1];
    }
    forall i | 0 <= i < |u| - 1
      ensures x[1..][i] == if (if i == 0 then IsSpace(u[0]) else IsSpace(u[1..][i - 1])) then ToUpper(u[1..][i]) else u[1..][i]
    {
      assert x[1..][i] == x[i + 1] && u[1..][i] == u[i + 1];
      assert i > 0 ==> u[1..][i - 1] == u[i];
    }
  }

  /** The last two passes of camelCase agree with the reference reading on
      every suffix, for `u` and `x` given by their per-character readings:
      `u` is `v` with separators made spaces, `x` is `u` with word starts
      upper-cased. */
  lemma {:induction false} CamelCaseFrom(v: string, u: string, x: string, st: bool)
    requires UnhyphenShape(v, u) && UcShape(u, x, st)
    ensures Without(x, ' ') == CamelRef(v, st)
    decreases |v|
  {
    if v != [] {
      ShapeTail(v, u, x, st);
      CamelCaseFrom(v[1..], u[1..], x[1..], IsSpace(u[0]));
      assert x == [x[0]] + x[1..];
      assert v == [v[0]] + v[1..];
      CamelStep(v[0], u[0], x[0], x[1..], st, v[1..]);
    }
  }

  lemma UnhyphenAt(s: string, i: nat)
    requires i < |s|
    ensures Unhyphen(s)[i] == if IsCamelSeparator(s[i]) then ' ' else s[i]
  {
  }

  lemma UcWordsAt(s: string, i: nat)
    requires i < |s|
    ensures UcWords(s)[i] == if i == 0 || IsSpace(s[i - 1]) then ToUpper(s[i]) else s[i]
  {
  }

  /** One character of `CamelCaseFrom`: `c` read as `w` by the first pass
      and as `y` by the second, followed by the rest. */
  lemma CamelStep(c: char, w: char, y: char, xs: string, st: bool, rest: string)
    requires w == if IsCamelSeparator(c) then ' ' else c
    requires y == if st then ToUpper(w) else w
    requires Without(xs, ' ') == CamelRef(rest, IsSpace(w))
    ensures Without([y] + xs, ' ') == CamelRef([c] + rest, st)
  {
    WithoutCons(y, xs, ' ');
    assert ([c] + rest)[0] == c && ([c] + rest)[1..] == rest;
  }

  /** `camelCase` is the reference reading, for every input. */
  lemma CamelCaseReference(v: string)
    ensures CamelCase(v) == CamelRef(v, true)
  {
    var u := Unhyphen(v);
    var x := UcWords(u);
    forall i | 0 <= i < |v| ensures u[i] == if IsCamelSeparator(v[i]) then ' ' else v[i] {
      UnhyphenAt(v, i);
    }
    forall i | 0 <= i < |v| ensures x[i] == if (if i == 0 then true else IsSpace(u[i - 1])) then ToUpper(u[i]) else u[i] {
      UcWordsAt(u, i);
    }
    assert UnhyphenShape(v, u) && UcShape(u, x, true);
    CamelCaseFrom(v, u, x, true);
  }

  /** A run of separators counts as one: `foo--bar` becomes `FooBar`. */
  lemma CamelCaseRun()
    ensures CamelRef("foo--bar", true) == "FooBar"
  {
    assert "r"[1..] == [];
    assert CamelRef("r", false) == "r";
    assert "ar"[1..] == "r";
    assert CamelRef("ar", false) == "ar";
    assert "bar"[1..] == "ar";
    assert CamelRef("bar", true) == "Bar";
    assert "-bar"[1..] == "bar";
    assert CamelRef("-bar", true) == "Bar";
    assert "--bar"[1..] == "-bar";
    assert CamelRef("--bar", false) == "Bar";
    assert "o--bar"[1..] == "--bar";
    assert CamelRef("o--bar", false) == "oBar";
    assert "oo--bar"[1..] == "o--bar";
    assert CamelRef("oo--bar", false) == "ooBar";
    assert "foo--bar"[1..] == "oo--bar";
    assert CamelRef("foo--bar", true) == "FooBar";
  }

  /** A leading separator disappears: `-foo_bar` becomes `FooBar`. */
  lemma CamelCaseLeading()
    ensures CamelRef("-foo_bar", true) == "FooBar"
  {
    assert "r"[1..] == [];
    assert CamelRef("r", false) == "r";
    assert "ar"[1..] == "r";
    assert CamelRef("ar", false) == "ar";
    assert "bar"[1..] == "ar";
    assert CamelRef("bar", true) == "Bar";
    assert "_bar"[1..] == "bar";
    assert CamelRef("_bar", false) == "Bar";
    assert "o_bar"[1..] == "_bar";
    assert CamelRef("o_bar", false) == "oBar";
    assert "oo_bar"[1..] == "o_bar";
    assert CamelRef("oo_bar", false) == "ooBar";
    assert "foo_bar"[1..] == "oo_bar";
    assert CamelRef("foo_bar", true) == "FooBar";
    assert "-foo_bar"[1..] == "foo_bar";
    assert CamelRef("-foo_bar", true) == "FooBar";
  }

  /** Other whitespace stays, but still starts a word: `a\tb` becomes `A\tB`. */
  lemma CamelCaseTab()
    ensures CamelRef("a\tb", true) == "A\tB"
  {
    assert "a\tb"[1..] == "\tb";
    assert "\tb"[1..] == "b";
    assert "b"[1..] == [];
  }

  // ---------------------------------------------------------------- pool

  /** `n` consecutive characters from `first` on. */
  function Run(first: char, n: nat): (r: string)
    requires first as int + n <= 0xD800
    ensures |r| == n && forall i :: 0 <= i < n ==> r[i] as int == first as int + i
  {
    seq(n, i requires 0 <= i < n => (first as int + i) as char)
  }

  /** `abcdefghijklmnopqrstuvwxyzABCDEFGHIJKLMNOPQRSTUVWXYZ`. */
  const AlphaPool: string := Run('a', 26) + Run('A', 26)

  /** `0123456789` followed by the alphabetic pool. */
  const AlnumPool: string := Run('0', 10) + AlphaPool

  /** `Str::pool(type)`: the characters a random string is drawn from. */
  function Pool(kind: string): (r: Result<string, string>)
    ensures r.Success? <==> kind == "alpha" || kind == "alnum"
    ensures kind == "alpha" ==> |r.value| == 52
    ensures kind == "alnum" ==> |r.value| == 62
    ensures r.Failure? ==> r.error == "Invalid random string type [" + kind + "]."
  {
    if kind == "alpha" then Success(AlphaPool)
    else if kind == "alnum" then Success(AlnumPool)
    else Failure("Invalid random string type [" + kind + "].")
  }

  predicate Distinct(s: string)
  {
    forall i, j :: 0 <= i < j < |s| ==> s[i] != s[j]
  }

  lemma DistinctAppend(a: string, b: string)
    requires Distinct(a) && Distinct(b)
    requires forall i, j :: 0 <= i < |a| && 0 <= j < |b| ==> a[i] != b[j]
    ensures Distinct(a + b)
  {
    var s := a + b;
    forall i, j | 0 <= i < j < |s| ensures s[i] != s[j] {
      if j < |a| {
        assert s[i] == a[i] && s[j] == a[j];
      } else if i >= |a| {
        assert s[i] == b[i - |a|] && s[j] == b[j - |a|];
      } else {
        assert s[i] == a[i] && s[j] == b[j - |a|];
      }
    }
  }

  lemma AlphaPoolLetters(c: char)
    ensures c in AlphaPool <==> IsLetter(c)
  {
    var lo, hi := Run('a', 26), Run('A', 26);
    if IsLower(c) {
      assert AlphaPool[c as int - 'a' as int] == c;
    } else if IsUpper(c) {
      assert AlphaPool[26 + c as int - 'A' as int] == c;
    }
    if c in AlphaPool {
      var i :| 0 <= i < |AlphaPool| && AlphaPool[i] == c;
      if i < 26 {
        assert c == lo[i];
      } else {
        assert c == hi[i - 26];
      }
    }
  }

  /** The alphabetic pool holds exactly the letters, each once. */
  lemma PoolAlpha()
    ensures forall c :: c in Pool("alpha").value <==> IsLetter(c)
    ensures Distinct(Pool("alpha").value)
  {
    forall c ensures c in AlphaPool <==> IsLetter(c) {
      AlphaPoolLetters(c);
    }
    DistinctAppend(Run('a', 26), Run('A', 26));
  }

  lemma AlnumPoolChars(c: char)
    ensures c in AlnumPool <==> IsAlnum(c)
  {
    var dg := Run('0', 10);
    AlphaPoolLetters(c);
    if IsDigit(c) {
      assert AlnumPool[c as int - '0' as int] == c;
    } else if IsLetter(c) {
      var i :| 0 <= i < |AlphaPool| && AlphaPool[i] == c;
      assert AlnumPool[10 + i] == c;
    }
    if c in AlnumPool {
      var i :| 0 <= i < |AlnumPool| && AlnumPool[i] == c;
      if i < 10 {
        assert c == dg[i];
      } else {
        assert c == AlphaPool[i - 10];
      }
    }
  }

  /** The alphanumeric pool holds exactly the letters and digits, each once. */
  lemma PoolAlnum()
    ensures forall c :: c in Pool("alnum").value <==> IsAlnum(c)
    ensures Distinct(Pool("alnum").value)
  {
    forall c ensures c in AlnumPool <==> IsAlnum(c) {
      AlnumPoolChars(c);
    }
    DistinctAppend(Run('a', 26), Run('A', 26));
    DistinctAppend(Run('0', 10), AlphaPool);
  }
}

=== FILE: text.dfy ===
/** Character classes, digit strings and the sequence helpers (search, implode)
    that the HTML, form and string models share. Characters are Dafny `char`s;
    the model only ever gives ASCII meaning to them. */
module Text {
  import opened Wrappers

  predicate IsDigit(c: char) { '0' <= c <= '9' }

  predicate IsHexDigit(c: char) { IsDigit(c) || 'a' <= c <= 'f' || 'A' <= c <= 'F' }

  predicate IsUpper(c: char) { 'A' <= c <= 'Z' }

  predicate IsLower(c: char) { 'a' <= c <= 'z' }

  predicate IsLetter(c: char) { IsUpper(c) || IsLower(c) }

  predicate IsAlnum(c: char) { IsLetter(c) || IsDigit(c) }

  /** The whitespace class `\s` of PCRE (and of PHP's `is_numeric`): space, tab,
      line feed, vertical tab, form feed and carriage return. */
  predicate IsSpace(c: char)
  {
    c == ' ' || c == '\t' || c == '\n' || c == '\U{0B}' || c == '\U{0C}' || c == '\r'
  }

  predicate AllDigits(s: string) { forall i :: 0 <= i < |s| ==> IsDigit(s[i]) }

  predicate AllHexDigits(s: string) { forall i :: 0 <= i < |s| ==> IsHexDigit(s[i]) }

  function DigitValue(c: char): (d: nat)
    requires IsHexDigit(c)
    ensures d < 16
    ensures IsDigit(c) ==> d < 10
  {
    if IsDigit(c) then c as int - '0' as int
    else if 'a' <= c <= 'f' then c as int - 'a' as int + 10
    else c as int - 'A' as int + 10
  }

  /** The value of a digit string read most significant digit first, as
      `strtol` reads it. */
  function NumberValue(s: string, base: nat): nat
    requires AllHexDigits(s)
  {
    if s == [] then 0 else NumberValue(s[..|s| - 1], base) * base + DigitValue(s[|s| - 1])
  }

  /** The decimal spelling of `n` (PHP's `(string)` of a non-negative integer). */
  function NatToString(n: nat): (r: string)
    ensures |r| > 0 && AllDigits(r)
    ensures NumberValue(r, 10) == n
    ensures |r| > 1 ==> r[0] != '0'
    decreases n
  {
    if n < 10 then [('0' as int + n) as char]
    else
      var r := NatToString(n / 10) + [('0' as int + n % 10) as char];
      assert r[..|r| - 1] == NatToString(n / 10);
      r
  }

  function ToLower(c: char): char
  {
    if IsUpper(c) then (c as int + 32) as char else c
  }

  function ToUpper(c: char): char
  {
    if IsLower(c) then (c as int - 32) as char else c
  }

  /** `strtolower`: A-Z become a-z, every other character is kept. */
  function Lower(s: string): (r: string)
    ensures |r| == |s|
    ensures forall i :: 0 <= i < |s| ==> !IsUpper(r[i])
    ensures forall i :: 0 <= i < |s| ==> (IsUpper(s[i]) <==> r[i] != s[i])
    ensures forall i :: 0 <= i < |s| ==> (IsLetter(r[i]) <==> IsLetter(s[i]))
    ensures forall i :: 0 <= i < |s| && IsUpper(s[i]) ==> r[i] as int == s[i] as int + 32
  {
    seq(|s|, i requires 0 <= i < |s| => ToLower(s[i]))
  }

  /** `strtoupper`: a-z become A-Z, every other character is kept. */
  function Upper(s: string): (r: string)
    ensures |r| == |s|
    ensures forall i :: 0 <= i < |s| ==> !IsLower(r[i])
    ensures forall i :: 0 <= i < |s| ==> (IsLower(s[i]) <==> r[i] != s[i])
    ensures forall i :: 0 <= i < |s| ==> (IsLetter(r[i]) <==> IsLetter(s[i]))
    ensures forall i :: 0 <= i < |s| && IsLower(s[i]) ==> r[i] as int == s[i] as int - 32
  {
    seq(|s|, i requires 0 <= i < |s| => ToUpper(s[i]))
  }

  /** Lower-casing a string that has no capitals changes nothing. */
  lemma LowerNoCapitals(s: string)
    requires forall i :: 0 <= i < |s| ==> !IsUpper(s[i])
    ensures Lower(s) == s
  {
  }

  lemma LowerIdempotent(s: string)
    ensures Lower(Lower(s)) == Lower(s)
  {
    LowerNoCapitals(Lower(s));
  }

  lemma LowerAppend(a: string, b: string)
    ensures Lower(a + b) == Lower(a) + Lower(b)
  {
  }

  /** The first position of `c` in `s`, if any (PHP's `strpos` for one character). */
  function IndexOf(s: string, c: char): (r: Option<nat>)
    ensures r.Some? ==> r.value < |s| && s[r.value] == c && c !in s[..r.value]
    ensures r.None? <==> c !in s
  {
    if s == [] then None
    else if s[0] == c then Some(0)
    else match IndexOf(s[1..], c)
      case Some(j) => assert s[..j + 1] == [s[0]] + s[1..][..j]; Some(j + 1)
      case None => assert s == [s[0]] + s[1..]; None
  }

  /** `array_map(f, xs)` on a list. */
  function Map<A, B>(f: A -> B, xs: seq<A>): (r: seq<B>)
    ensures |r| == |xs|
    ensures forall i :: 0 <= i < |xs| ==> r[i] == f(xs[i])
  {
    seq(|xs|, i requires 0 <= i < |xs| => f(xs[i]))
  }

  lemma MapAppend<A, B>(f: A -> B, a: seq<A>, b: seq<A>)
    ensures Map(f, a + b) == Map(f, a) + Map(f, b)
  {
    var l, r := Map(f, a + b), Map(f, a) + Map(f, b);
    forall i | 0 <= i < |l| ensures l[i] == r[i] {
      if i < |a| {
        assert (a + b)[i] == a[i];
      } else {
        assert (a + b)[i] == b[i - |a|];
      }
    }
  }

  /** PHP's `implode(sep, parts)`. */
  function Join(parts: seq<string>, sep: string): string
  {
    if parts == [] then ""
    else if |parts| == 1 then parts[0]
    else parts[0] + sep + Join(parts[1..], sep)
  }

  /** The concatenation of all parts (`implode('', parts)`). */
  function Concat(parts: seq<string>): string
  {
    if parts == [] then "" else parts[0] + Concat(parts[1..])
  }

  lemma {:induction false} ConcatAppend(a: seq<string>, b: seq<string>)
    ensures Concat(a + b) == Concat(a) + Concat(b)
  {
    if a == [] {
      assert a + b == b;
    } else {
      assert (a + b)[1..] == a[1..] + b;
      ConcatAppend(a[1..], b);
    }
  }

  /** Proof helper: regroups a concatenation, stated once over plain variables. */
  lemma AppendRegroup(head: string, x: string, y: string, tail: string)
    ensures head + (x + y) + tail == head + x + y + tail
  {
  }

  lemma AppendRegroup2(head: string, x: string, y: string, t1: string, t2: string, t3: string)
    ensures head + (x + y) + t1 + t2 + t3 == head + x + y + t1 + t2 + t3
  {
  }

  lemma {:induction false} JoinAppend(a: seq<string>, b: seq<string>, sep: string)
    requires a != [] && b != []
    ensures Join(a + b, sep) == Join(a, sep) + sep + Join(b, sep)
  {
    if |a| == 1 {
      assert (a + b)[1..] == b;
    } else {
      assert (a + b)[1..] == a[1..] + b;
      JoinAppend(a[1..], b, sep);
    }
  }

  /** Whether `c` is among the characters a `trim` character list names, read
      as PHP reads it: `x..y` with `x <= y` names every character from `x` to
      `y`; a `..` that does not form such a range loses its first dot; every
      other character names itself. */
  predicate InCharList(c: char, list: string)
    decreases |list|
  {
    if list == [] then false
    else if |list| >= 4 && list[1] == '.' && list[2] == '.' && list[0] <= list[3] then
      (list[0] <= c <= list[3]) || InCharList(c, list[4..])
    else if |list| >= 2 && list[0] == '.' && list[1] == '.' then InCharList(c, list[1..])
    else c == list[0] || InCharList(c, list[1..])
  }

  /** A one-character list names that character only. */
  lemma InCharListSingle(c: char, d: char)
    ensures InCharList(c, [d]) <==> c == d
  {
    assert [d][1..] == [];
  }

  /** A list without `..` names exactly its own characters. */
  lemma {:induction false} InCharListLiteral(c: char, list: string)
    requires forall i :: 0 <= i < |list| - 1 ==> !(list[i] == '.' && list[i + 1] == '.')
    ensures InCharList(c, list) <==> c in list
    decreases |list|
  {
    if list != [] {
      var rest := list[1..];
      assert forall i :: 0 <= i < |rest| ==> rest[i] == list[i + 1];
      InCharListLiteral(c, rest);
      assert list == [list[0]] + rest;
    }
  }

  /** A range names every character between its ends. */
  lemma InCharListRange(c: char, lo: char, hi: char)
    requires lo <= c <= hi
    ensures InCharList(c, [lo, '.', '.', hi])
  {
  }

  /** PHP's `ltrim(s, chars)`: drops the longest prefix made of characters
      the list names. */
  function TrimLeft(s: string, chars: string): (r: string)
    ensures |r| <= |s| && r == s[|s| - |r|..]
    ensures forall i :: 0 <= i < |s| - |r| ==> InCharList(s[i], chars)
    ensures r != [] ==> !InCharList(r[0], chars)
  {
    if s != [] && InCharList(s[0], chars) then TrimLeft(s[1..], chars) else s
  }

  /** PHP's `rtrim(s, chars)`: drops the longest suffix made of characters
      the list names. */
  function TrimRight(s: string, chars: string): (r: string)
    ensures |r| <= |s| && r == s[..|r|]
    ensures forall i :: |r| <= i < |s| ==> InCharList(s[i], chars)
    ensures r != [] ==> !InCharList(r[|r| - 1], chars)
  {
    if s != [] && InCharList(s[|s| - 1], chars) then TrimRight(s[..|s| - 1], chars) else s
  }

  /** PHP's `trim(s, chars)`. */
  function Trim(s: string, chars: string): (r: string)
    ensures r != [] ==> !InCharList(r[0], chars) && !InCharList(r[|r| - 1], chars)
  {
    TrimRight(TrimLeft(s, chars), chars)
  }

  /** `rtrim` is determined by its contract: a prefix that does not end in
      `chars` and is followed only by characters of `chars` is the result. */
  lemma TrimRightUnique(s: string, chars: string, p: string)
    requires |p| <= |s| && p == s[..|p|]
    requires forall i :: |p| <= i < |s| ==> InCharList(s[i], chars)
    requires p != [] ==> !InCharList(p[|p| - 1], chars)
    ensures TrimRight(s, chars) == p
  {
    var r := TrimRight(s, chars);
    if p != [] {
      assert s[|p| - 1] == p[|p| - 1];
    }
    if r != [] {
      assert s[|r| - 1] == r[|r| - 1];
    }
  }

  lemma TrimLeftUnique(s: string, chars: string, q: string)
    requires |q| <= |s| && q == s[|s| - |q|..]
    requires forall i :: 0 <= i < |s| - |q| ==> InCharList(s[i], chars)
    requires q != [] ==> !InCharList(q[0], chars)
    ensures TrimLeft(s, chars) == q
  {
    var r := TrimLeft(s, chars);
    if q != [] {
      assert s[|s| - |q|] == q[0];
    }
    if r != [] {
      assert s[|s| - |r|] == r[0];
    }
  }

  /** Trimming a string whose ends the list does not name changes nothing. */
  lemma TrimUntouched(s: string, chars: string)
    requires s != [] ==> !InCharList(s[0], chars) && !InCharList(s[|s| - 1], chars)
    ensures Trim(s, chars) == s
  {
    TrimLeftUnique(s, chars, s);
    TrimRightUnique(s, chars, s);
  }

  /** Where the part `trim` keeps starts. */
  function TrimOffset(s: string, chars: string): nat
  {
    |s| - |TrimLeft(s, chars)|
  }

  /** What `trim` keeps is a contiguous piece of its input. */
  lemma TrimSlice(s: string, chars: string)
    ensures TrimOffset(s, chars) + |Trim(s, chars)| <= |s|
    ensures Trim(s, chars) == s[TrimOffset(s, chars)..TrimOffset(s, chars) + |Trim(s, chars)|]
  {
    var l := TrimLeft(s, chars);
    var r := TrimRight(l, chars);
    var a := |s| - |l|;
    assert r == l[..|r|];
    assert s[a..a + |r|] == l[..|r|];
  }
}

=== FILE: wrappers.dfy ===
/** Failure-compatible wrappers used across the model: `Option` stands for PHP's
    `null`-or-value, `Result` for a value-or-exception outcome. */
module Wrappers {

  datatype Option<+T> = None | Some(value: T) {

    /** The wrapped value, or `default` when there is none (PHP's `$x ?? $default`). */
    function GetOr(default: T): T
    {
      match this
      case Some(v) => v
      case None => default
    }
  }

  datatype Result<+R, +E> = Success(value: R) | Failure(error: E)
}
